=== FILE: README.md ===
# bite-size-reader client core in Dafny

This project models the shared logic of the Bite-Size Reader client, a Kotlin Multiplatform app. The app submits article URLs to a summarisation server, polls each request until it settles, caches summaries offline, and searches and syncs them. Everything is written as pure functions over immutable datatypes. Storage is a `map`. The database is a set of maps of rows. A server call is an input value `ApiCall<T>`: either `Answered(response)` or `Threw(exception)`. Each view model is a state-to-state function, and the result of every coroutine it launches arrives as a transition of its own.

Modules follow the source files:

- `Domain`, `Dto`: the domain models and the wire types.
- `RequestMapper`, `SummaryMapper`, `AuthMapper`: the DTO mappers.
- `AppErrors`, `HttpErrorMapper`: the error taxonomy and its retry rules.
- `RetryUtil`, `RetryPolicies`: the two retry loops, as schedules of attempts and waits.
- `SecureStorage`, `AuthRepository`: the desktop key/value store and the token logic on top of it.
- `Database`: the row encodings of `DatabaseHelper` and the repositories' row mappers.
- `SummaryRepository`, `RequestRepository`, `SearchRepository`, `SyncRepository`: the repositories.
- `UseCases`: URL validation, the blank-query short-circuit and the choice between full and delta sync.
- `SubmitUrlViewModel`, `SummaryListViewModel`, `SearchViewModel`, `LoginViewModel`: the screens' state machines.
- `ShareText`, `Accessibility`, `UrlExtraction`: the text builders and the shared-URL extraction.
- `NetworkMonitor`, `QueryPerformance`: the network status messages and the query timing tracker.
- `Wrappers`, `Text`, `Collections`: helpers. These are `Option`/`Result`, string functions such as `trim`, `isBlank`, `lowercase`, `startsWith` and `joinToString`, and `distinctBy`/`take`.

Modelling choices:

- An `Instant` is an integer number of epoch milliseconds. Clock readings are parameters.
- A JSON column is held as its decoded value.
- A `Double` that is only copied is held as its 64-bit pattern.
- Kotlin `Duration`s in the retry policy are nanoseconds. The backoff factor is a rational number, and `Duration × Double` rounds half up.
- `RetryStrategy` is declared outside the modelled files. It is modelled with the variants that `retryWithStrategy` matches on: NoRetry, Immediate, ExponentialBackoff, FixedDelay and WhenOnline. The exponential variant carries its `getDelayForAttempt` as an uninterpreted function `delayFor`, since its body is not part of this model.
- `AppError` is extended with `RateLimitError` and the `isTimeout` flag of `NetworkError`, which `HttpErrorMapper` uses.
- `SubmitURLState` as declared has no `validationError` field, although `SubmitURLViewModel` reads and writes one. The model follows the view model and gives the state that field.

## Model

| member | source | states |
|---|---|---|
| Domain.DisplayName | shared/src/commonMain/kotlin/com/po4yka/bitesizereader/domain/model/User.kt:14-20 | the shown name is "first last" when both names are present, the first name alone without a last name, "@username" without a first name, and "User <id>" with neither |
| Domain.FirstNameTakesPriority | shared/src/commonMain/kotlin/com/po4yka/bitesizereader/domain/model/User.kt:15-17 | a present first name decides the name alone: users that agree on first and last name get the same name, and it starts with the first name |
| Domain.LastNameNeedsFirstName | shared/src/commonMain/kotlin/com/po4yka/bitesizereader/domain/model/User.kt:15-19 | without a first name, changing the last name never changes the shown name |
| AppErrors.ThrowableToAppError | shared/src/commonMain/kotlin/com/po4yka/bitesizereader/util/error/AppError.kt:72-81 | the keywords "network", "401", "404" and "5" are tried case-insensitively in that order and the first contained one picks the error, each iff the earlier ones are absent; no match or no message gives an unknown error carrying the message or "Unknown error" |
| AppErrors.ThrownRetryableIffNetwork | shared/src/commonMain/kotlin/com/po4yka/bitesizereader/util/error/AppError.kt:75-95 | an exception's error is retryable iff its message mentions "network": the server error made from a "5" has no status code and is never retried |
| AppErrors.UnmatchedMessageShownVerbatim | shared/src/commonMain/kotlin/com/po4yka/bitesizereader/util/error/AppError.kt:79-86 | a message no keyword matches is shown to the user unchanged |
| AppErrors.NetworkWinsOverCodes | shared/src/commonMain/kotlin/com/po4yka/bitesizereader/util/error/AppError.kt:75-78 | "network" in any letter case makes a network error whatever else the message holds |
| HttpErrorMapper.HttpStatusToAppError | shared/src/commonMain/kotlin/com/po4yka/bitesizereader/util/error/HttpErrorMapper.kt:11-46 | each error class is produced for exactly its statuses: 401/403 unauthorized, 404 not found, 408 a timeout network error, 429 rate limited, 5xx a server error carrying its code, other 4xx validation, anything else unknown |
| HttpErrorMapper.RetryableStatuses | shared/src/commonMain/kotlin/com/po4yka/bitesizereader/util/error/HttpErrorMapper.kt:18-40 | a status's error is retryable iff the status is 408 or in 500..599 |
| HttpErrorMapper.UnlistedStatusMessages | shared/src/commonMain/kotlin/com/po4yka/bitesizereader/util/error/HttpErrorMapper.kt:36-44 | an unlisted 4xx says "Request failed with code <n>", and a status outside 400..599 says "Unexpected response code: <n>" |
| HttpErrorMapper.ToKtorError | shared/src/commonMain/kotlin/com/po4yka/bitesizereader/util/error/HttpErrorMapper.kt:51-57 | both response exception classes map by their status table, and any other exception by its message |
| HttpErrorMapper.HandleApiError | shared/src/commonMain/kotlin/com/po4yka/bitesizereader/util/error/HttpErrorMapper.kt:62-72 | a block that completes gives its value; a failed one gives exactly the error toKtorError names for the same exception |
| HttpErrorMapper.ServerResponsesRetryable | shared/src/commonMain/kotlin/com/po4yka/bitesizereader/util/error/HttpErrorMapper.kt:62-72 | a 5xx response exception handled there yields a retryable error, whichever exception class carries it |
| RetryUtil.RetryWithStrategy | shared/src/commonMain/kotlin/com/po4yka/bitesizereader/util/error/RetryUtil.kt:12-85 | the result is the first success or, once every allowed attempt has failed, the last attempt's exception; attempts are numbered 0, 1, … in order with no attempt after a success; NoRetry and WhenOnline call once; a counted strategy allowing no attempt fails with "Retry logic error" without calling |
| RetryUtil.ScheduleAttempts | shared/src/commonMain/kotlin/com/po4yka/bitesizereader/util/error/RetryUtil.kt:26-60 | a run that made n calls made attempts 0 … n-1, in that order |
| RetryUtil.ScheduleEndsWithAttempt | shared/src/commonMain/kotlin/com/po4yka/bitesizereader/util/error/RetryUtil.kt:30-65 | a run never waits after its last attempt |
| RetryUtil.ScheduleWaits | shared/src/commonMain/kotlin/com/po4yka/bitesizereader/util/error/RetryUtil.kt:35-68 | backoff and fixed-delay runs wait exactly once between two attempts; immediate runs never wait |
| RetryUtil.BackoffWaitBeforeAttempt | shared/src/commonMain/kotlin/com/po4yka/bitesizereader/util/error/RetryUtil.kt:50-52 | in an exponential run the wait before attempt n lasts the strategy's getDelayForAttempt(n-1) |
| RetryUtil.FixedDelayWaits | shared/src/commonMain/kotlin/com/po4yka/bitesizereader/util/error/RetryUtil.kt:67-68 | every wait of a fixed-delay run lasts its delayMs |
| RetryUtil.Settle | shared/src/commonMain/kotlin/com/po4yka/bitesizereader/util/error/RetryUtil.kt:18-22 | a returned value becomes a success carrying it, a thrown exception a failure carrying it |
| RetryUtil.BackoffAsWritten | shared/src/commonMain/kotlin/com/po4yka/bitesizereader/util/error/RetryUtil.kt:97-105 | the formula as written, with the 64-bit product: never above maxDelayMs |
| RetryUtil.AsWrittenOverflowsAtAttempt54 | shared/src/commonMain/kotlin/com/po4yka/bitesizereader/util/error/RetryUtil.kt:103-104 | with the defaults, attempt 54 yields -432345564227567616 where 32000 is meant |
| RetryUtil.AsWrittenAgreesWithoutOverflow | shared/src/commonMain/kotlin/com/po4yka/bitesizereader/util/error/RetryUtil.kt:103-104 | whenever the product fits in a Long the formula as written gives the intended capped delay |
| RetryUtil.Backoff | shared/src/commonMain/kotlin/com/po4yka/bitesizereader/util/error/RetryUtil.kt:97-105 | the intended delay is never above maxDelayMs nor above initialDelayMs·multiplier^attempt, and equals one of the two |
| RetryUtil.BackoffGrows | shared/src/commonMain/kotlin/com/po4yka/bitesizereader/util/error/RetryUtil.kt:103-104 | with a multiplier of at least one the intended delay never shrinks from one attempt to the next |
| RetryPolicies.Scale | shared/src/commonMain/kotlin/com/po4yka/bitesizereader/util/retry/RetryPolicy.kt:71 | Duration times factor, rounded to the nearest nanosecond with halves up: the result is within half a nanosecond of the exact product |
| RetryPolicies.DelaysCapped | shared/src/commonMain/kotlin/com/po4yka/bitesizereader/util/retry/RetryPolicy.kt:53-72 | the first wait is the initial delay; every later one is at most maxDelay and is either the cap or the previous wait scaled by the factor |
| RetryPolicies.ScaleGrows | shared/src/commonMain/kotlin/com/po4yka/bitesizereader/util/retry/RetryPolicy.kt:71 | scaling a non-negative duration by a factor of at least one never shortens it |
| RetryPolicies.DelaysGrow | shared/src/commonMain/kotlin/com/po4yka/bitesizereader/util/retry/RetryPolicy.kt:53-72 | with a factor of at least one and initialDelay ≤ maxDelay the waits never shrink and never exceed maxDelay |
| RetryPolicies.RetryWithBackoff | shared/src/commonMain/kotlin/com/po4yka/bitesizereader/util/retry/RetryPolicy.kt:49-78 | the outcome is the first value, the first exception shouldRetry declines, or the last attempt's exception; every earlier attempt threw a retryable exception; the scaled delay is waited between attempts; no attempt allowed throws "Retry failed" |
| RetryPolicies.PolicyScheduleAttempts | shared/src/commonMain/kotlin/com/po4yka/bitesizereader/util/retry/RetryPolicy.kt:56-58 | a run of n calls makes attempts 0 … n-1 in order |
| RetryPolicies.PolicyScheduleWaits | shared/src/commonMain/kotlin/com/po4yka/bitesizereader/util/retry/RetryPolicy.kt:63-68 | a run of n calls waits exactly n-1 times |
| RetryPolicies.PolicyScheduleEndsWithAttempt | shared/src/commonMain/kotlin/com/po4yka/bitesizereader/util/retry/RetryPolicy.kt:63-65 | no wait follows the last attempt |
| RetryPolicies.PresetDelays | shared/src/commonMain/kotlin/com/po4yka/bitesizereader/util/retry/RetryPolicy.kt:11-42 | the presets make 3, 5 and 2 attempts; DelayBefore gives DEFAULT 1 s and 2 s, AGGRESSIVE 7.8125 s for its fourth wait, and, for waits no run reaches, DEFAULT's 10 s cap at the fifth and CONSERVATIVE's 3 s at the second |
| RetryPolicies.PresetRuns | shared/src/commonMain/kotlin/com/po4yka/bitesizereader/util/retry/RetryPolicy.kt:11-42 | a run whose every attempt fails waits 1 s then 2 s under DEFAULT, 0.5, 1.25, 3.125 and 7.8125 s under AGGRESSIVE, and 2 s once under CONSERVATIVE |
| RetryPolicies.SimplePolicy | shared/src/commonMain/kotlin/com/po4yka/bitesizereader/util/retry/RetryPolicy.kt:89-93 | retry builds a policy with the given attempts, initial delay in milliseconds and factor, the default 10 s cap, and every exception retried |
| RetryPolicies.Retry | shared/src/commonMain/kotlin/com/po4yka/bitesizereader/util/retry/RetryPolicy.kt:83-95 | since every exception is retried, a run stops before its last attempt only on success, and fails only after all times attempts failed |
| RequestMapper.ToRequestType | shared/src/commonMain/kotlin/com/po4yka/bitesizereader/data/mappers/RequestMapper.kt:46-52 | a string reads as YOUTUBE_VIDEO iff its lower-case form is "youtube_video"; everything else is URL |
| RequestMapper.ToRequestStatus | shared/src/commonMain/kotlin/com/po4yka/bitesizereader/data/mappers/RequestMapper.kt:54-63 | a string whose lower-case form is a status's wire name reads as that status, and any status other than PENDING is read only from its own wire name |
| RequestMapper.ToProcessingStage | shared/src/commonMain/kotlin/com/po4yka/bitesizereader/data/mappers/RequestMapper.kt:65-73 | a string whose lower-case form is a stage's wire name reads as that stage, and any stage other than CONTENT_EXTRACTION is read only from its own wire name |
| RequestMapper.WireNamesRoundTrip | shared/src/commonMain/kotlin/com/po4yka/bitesizereader/data/mappers/RequestMapper.kt:46-73 | every type, status and stage reads back from its own wire name |
| RequestMapper.MappersIgnoreCase | shared/src/commonMain/kotlin/com/po4yka/bitesizereader/data/mappers/RequestMapper.kt:47-66 | the three readers give the same value for a string and its lower-case form |
| RequestMapper.ToSubmitUrlRequestDto | shared/src/commonMain/kotlin/com/po4yka/bitesizereader/data/mappers/RequestMapper.kt:77-82 | the submission carries the URL verbatim, the given language preference and the "url" type |
| RequestMapper.ResponseToRequest | shared/src/commonMain/kotlin/com/po4yka/bitesizereader/data/mappers/RequestMapper.kt:15-26 | the request keeps the response's id, progress and creation time; its status is the mapped wire status and its stage the mapped wire stage, absent when the response has none; the URL is empty, the type URL, the language "auto", with no summary, error, retry, estimate, update or completion time |
| RequestMapper.StatusToRequest | shared/src/commonMain/kotlin/com/po4yka/bitesizereader/data/mappers/RequestMapper.kt:28-44 | the request keeps the status response's id, summary id, error, retry flag, estimate and progress; status and stage are the mapped wire values, the stage absent when the response has none; URL empty, type URL, language "auto", created at DISTANT_PAST, updated at the given now, with no completion time |
| RequestMapper.StatusDtoIgnoresCase | shared/src/commonMain/kotlin/com/po4yka/bitesizereader/data/mappers/RequestMapper.kt:33-55 | a status response spelled in any letter case maps to the same request |
| AuthMapper.UserDtoToDomain | shared/src/commonMain/kotlin/com/po4yka/bitesizereader/data/mappers/AuthMapper.kt:16-25 | every field of the user DTO is carried over unchanged |
| AuthMapper.UserMappingRoundTrip | shared/src/commonMain/kotlin/com/po4yka/bitesizereader/data/mappers/AuthMapper.kt:16-25 | mapping a user DTO to the domain and back gives it back, and the other way round: the mapping loses nothing |
| AuthMapper.ExpiryAfter | shared/src/commonMain/kotlin/com/po4yka/bitesizereader/data/mappers/AuthMapper.kt:35-46 | a token issued at now expires expiresIn seconds (in milliseconds of Instant) later |
| AuthMapper.AuthResponseToDomain | shared/src/commonMain/kotlin/com/po4yka/bitesizereader/data/mappers/AuthMapper.kt:27-38 | both tokens, the type and the lifetime are kept as sent, expiry is now plus the lifetime, and the user is the response's user |
| AuthMapper.RefreshToAuthTokens | shared/src/commonMain/kotlin/com/po4yka/bitesizereader/data/mappers/AuthMapper.kt:40-48 | the refresh response's access token, type and lifetime are kept; a missing refresh token becomes the empty string; expiry is the current time plus the lifetime |
| AuthMapper.RefreshAgreesWithLogin | shared/src/commonMain/kotlin/com/po4yka/bitesizereader/data/mappers/AuthMapper.kt:27-48 | a refresh response and a login response carrying the same tokens and lifetime give the same tokens |
| AuthMapper.CreateTelegramLoginRequest | shared/src/commonMain/kotlin/com/po4yka/bitesizereader/data/mappers/AuthMapper.kt:52-72 | each Telegram login field is sent as given |
| AuthMapper.ToTokenRefreshRequest | shared/src/commonMain/kotlin/com/po4yka/bitesizereader/data/mappers/AuthMapper.kt:74-76 | the refresh request carries the token as given |
| SecureStorage.GetString | shared/src/desktopMain/kotlin/com/po4yka/bitesizereader/data/local/SecureStorageImpl.kt:17 | a key reads back a value iff it is stored, and then the stored one |
| SecureStorage.SaveString | shared/src/desktopMain/kotlin/com/po4yka/bitesizereader/data/local/SecureStorageImpl.kt:10-15 | the key reads back the saved value and every other key reads as before |
| SecureStorage.Remove | shared/src/desktopMain/kotlin/com/po4yka/bitesizereader/data/local/SecureStorageImpl.kt:19-21 | the key reads back nothing and every other key reads as before |
| SecureStorage.Clear | shared/src/desktopMain/kotlin/com/po4yka/bitesizereader/data/local/SecureStorageImpl.kt:23-25 | no key reads back anything |
| SecureStorage.SaveAccessToken | shared/src/desktopMain/kotlin/com/po4yka/bitesizereader/data/local/SecureStorageImpl.kt:27-31 | the access token reads back the saved one and the refresh token is untouched |
| SecureStorage.SaveRefreshToken | shared/src/desktopMain/kotlin/com/po4yka/bitesizereader/data/local/SecureStorageImpl.kt:33-37 | the refresh token reads back the saved one and the access token is untouched |
| SecureStorage.ClearTokens | shared/src/desktopMain/kotlin/com/po4yka/bitesizereader/data/local/SecureStorageImpl.kt:39-42 | both token slots read back nothing and every other key reads as before |
| SecureStorage.StorageLaws | shared/src/desktopMain/kotlin/com/po4yka/bitesizereader/data/local/SecureStorageImpl.kt:10-21 | the map laws: save then read gives the value, remove then read gives nothing, other keys are unaffected, re-saving a stored value changes nothing, removing after saving is removing |
| AuthRepository.GetTokens | shared/src/commonMain/kotlin/com/po4yka/bitesizereader/data/repository/AuthRepositoryImpl.kt:113-122 | the pair is returned iff both stored tokens are present and non-empty, and it is the stored pair |
| AuthRepository.StoreTokens | shared/src/commonMain/kotlin/com/po4yka/bitesizereader/data/repository/AuthRepositoryImpl.kt:124-130 | both tokens and the expiry instant's text are stored; every other key is untouched |
| AuthRepository.StoredTokensAuthenticate | shared/src/commonMain/kotlin/com/po4yka/bitesizereader/data/repository/AuthRepositoryImpl.kt:107-130 | after storing tokens the user is authenticated iff both tokens are non-empty |
| AuthRepository.Logout | shared/src/commonMain/kotlin/com/po4yka/bitesizereader/data/repository/AuthRepositoryImpl.kt:132-138 | both tokens, the user id and the expiry are gone; every other key is untouched |
| AuthRepository.LogoutDeauthenticates | shared/src/commonMain/kotlin/com/po4yka/bitesizereader/data/repository/AuthRepositoryImpl.kt:107-138 | after logout the user is never authenticated and no tokens are returned |
| AuthRepository.LoginWithTelegram | shared/src/commonMain/kotlin/com/po4yka/bitesizereader/data/repository/AuthRepositoryImpl.kt:22-67 | a successful answer with data returns the mapped tokens and user and stores the tokens and the user id; otherwise storage is untouched and the failure carries the server's message or "Login failed", or the exception thrown |
| AuthRepository.LoginAuthenticates | shared/src/commonMain/kotlin/com/po4yka/bitesizereader/data/repository/AuthRepositoryImpl.kt:48-58 | a successful login with non-empty tokens leaves the user authenticated with their id recorded |
| AuthRepository.RefreshTokenAsWritten | shared/src/commonMain/kotlin/com/po4yka/bitesizereader/data/repository/AuthRepositoryImpl.kt:69-91 | the code as written: the refreshed tokens, a missing refresh token turned into "", replace the stored ones; an unusable answer fails with the server's message or "Token refresh failed", a thrown exception is the failure, and failures leave storage untouched |
| AuthRepository.RefreshWithoutRotationLogsOut | shared/src/commonMain/kotlin/com/po4yka/bitesizereader/data/repository/AuthRepositoryImpl.kt:76-79 | an authenticated user whose refresh answer has no new refresh token is no longer authenticated afterwards |
| AuthRepository.RefreshTokenIntended | shared/src/commonMain/kotlin/com/po4yka/bitesizereader/data/repository/AuthRepositoryImpl.kt:69-91 | the corrected refresh: the server's tokens are stored, keeping the given refresh token when no new one is issued; the failure paths are as written |
| AuthRepository.RefreshKeepsSession | shared/src/commonMain/kotlin/com/po4yka/bitesizereader/data/repository/AuthRepositoryImpl.kt:69-91 | refreshing an authenticated session with its stored refresh token keeps it authenticated whenever the new access token is non-empty |
| AuthRepository.GetCurrentUser | shared/src/commonMain/kotlin/com/po4yka/bitesizereader/data/repository/AuthRepositoryImpl.kt:93-105 | a successful answer gives the mapped user; otherwise the server's message or "Failed to get user", or the exception thrown |
| AuthRepository.CurrentUserMatchesLogin | shared/src/commonMain/kotlin/com/po4yka/bitesizereader/data/repository/AuthRepositoryImpl.kt:93-105 | for the same user record, getCurrentUser returns the user a login returns |
| Database.EncodeBool | shared/src/commonMain/kotlin/com/po4yka/bitesizereader/data/local/DatabaseHelper.kt:40-63 | a flag is stored as 1 or 0 |
| Database.BoolRoundTrip | shared/src/commonMain/kotlin/com/po4yka/bitesizereader/data/local/DatabaseHelper.kt:40-45 | a stored flag reads back as itself, and a column reads as true iff it holds 1 |
| Database.TypeValueOf | shared/src/commonMain/kotlin/com/po4yka/bitesizereader/data/repository/RequestRepositoryImpl.kt:166 | Enum.valueOf gives the request type with exactly that name, and nothing for any other name |
| Database.StatusValueOf | shared/src/commonMain/kotlin/com/po4yka/bitesizereader/data/repository/RequestRepositoryImpl.kt:167 | Enum.valueOf gives the request status with exactly that name, and nothing for any other name |
| Database.StageValueOf | shared/src/commonMain/kotlin/com/po4yka/bitesizereader/data/repository/RequestRepositoryImpl.kt:168-171 | Enum.valueOf gives the processing stage with exactly that name, and nothing for any other name |
| Database.SyncStatusValueOf | shared/src/commonMain/kotlin/com/po4yka/bitesizereader/data/repository/SummaryRepositoryImpl.kt:255 | Enum.valueOf gives the sync status with exactly that name, and nothing for any other name |
| Database.StoredStatusNamesMatchWireNames | shared/src/commonMain/kotlin/com/po4yka/bitesizereader/data/local/DatabaseHelper.kt:57 | a stored status name lower-cases to its wire name and is read back by the case-insensitive wire reader, but a lower-case wire name is not a valid stored name |
| Database.StoredTypeNamesMatchWireNames | shared/src/commonMain/kotlin/com/po4yka/bitesizereader/data/local/DatabaseHelper.kt:56 | a stored type name is read back as the same type by the wire reader |
| Database.StoredStageNamesMatchWireNames | shared/src/commonMain/kotlin/com/po4yka/bitesizereader/data/local/DatabaseHelper.kt:58 | a stored stage name is read back as the same stage by the wire reader |
| Database.SummaryToRow | shared/src/commonMain/kotlin/com/po4yka/bitesizereader/data/local/DatabaseHelper.kt:21-47 | the row carries the summary's id, its sync status by name and its flags as 1/0 |
| Database.RowToSummary | shared/src/commonMain/kotlin/com/po4yka/bitesizereader/data/repository/SummaryRepositoryImpl.kt:232-258 | a row reads back iff its sync status name is valid; flags read as "== 1" and the id and sync status are the row's |
| Database.SummaryRowRoundTrip | shared/src/commonMain/kotlin/com/po4yka/bitesizereader/data/local/DatabaseHelper.kt:21-47 | a stored summary reads back as itself |
| Database.RequestToRow | shared/src/commonMain/kotlin/com/po4yka/bitesizereader/data/local/DatabaseHelper.kt:52-69 | the row carries the request's id, URL, type, status and stage by name and its retry flag as 1/0 |
| Database.RowToRequest | shared/src/commonMain/kotlin/com/po4yka/bitesizereader/data/repository/RequestRepositoryImpl.kt:162-182 | a row reads back iff its type, status and stage names are valid; the id, URL, status and type are the row's and the retry flag reads as "== 1" |
| Database.RequestRowRoundTrip | shared/src/commonMain/kotlin/com/po4yka/bitesizereader/data/local/DatabaseHelper.kt:52-69 | a stored request reads back as itself |
| Database.InsertSummary | shared/src/commonMain/kotlin/com/po4yka/bitesizereader/data/local/DatabaseHelper.kt:21-47 | an upsert by id: the summary reads back under its id, other rows and tables are untouched |
| Database.InsertSummaries | shared/src/commonMain/kotlin/com/po4yka/bitesizereader/data/local/DatabaseHelper.kt:21-47 | inserting a list stores rows for exactly the old ids plus the list's ids and leaves rows of other ids alone |
| Database.InsertSummariesLastWins | shared/src/commonMain/kotlin/com/po4yka/bitesizereader/data/local/DatabaseHelper.kt:21-47 | when a list holds several summaries with one id, the last of them is what is stored |
| Database.InsertRequest | shared/src/commonMain/kotlin/com/po4yka/bitesizereader/data/local/DatabaseHelper.kt:52-69 | an upsert by id: the request reads back under its id, other rows and tables are untouched |
| Database.ClearAllSummaries | shared/src/commonMain/kotlin/com/po4yka/bitesizereader/data/local/DatabaseHelper.kt:74-76 | the summary table is emptied and nothing else changes |
| Database.UpdateReadStatus | shared/src/commonMain/kotlin/com/po4yka/bitesizereader/data/repository/SummaryRepositoryImpl.kt:101-104 | only that row's read flag changes, to 1/0 |
| Database.MarkAsSynced | shared/src/commonMain/kotlin/com/po4yka/bitesizereader/data/local/DatabaseHelper.kt:81-83 | exactly the listed rows get the SYNCED status; nothing else changes |
| Database.MarkAsSyncedReadsBack | shared/src/commonMain/kotlin/com/po4yka/bitesizereader/data/local/DatabaseHelper.kt:81-83 | a row marked synced reads back as before except for its sync status |
| Database.GetSyncMetadata | shared/src/commonMain/kotlin/com/po4yka/bitesizereader/data/local/DatabaseHelper.kt:88-90 | a key reads back a value iff it is stored, and then the stored one |
| Database.SetSyncMetadata | shared/src/commonMain/kotlin/com/po4yka/bitesizereader/data/local/DatabaseHelper.kt:92-97 | the key is added to the metadata and the other tables are untouched |
| Database.MetadataGetAfterSet | shared/src/commonMain/kotlin/com/po4yka/bitesizereader/data/local/DatabaseHelper.kt:88-97 | reading a key after setting it gives the value set; other keys read as before |
| SummaryMapper.CompactToSummary | shared/src/commonMain/kotlin/com/po4yka/bitesizereader/data/mappers/SummaryMapper.kt:11-34 | the list fields are copied; the detail-only fields are empty or absent, and the summary is unread-favourite-free, SYNCED and not locally modified |
| SummaryMapper.DetailToSummary | shared/src/commonMain/kotlin/com/po4yka/bitesizereader/data/mappers/SummaryMapper.kt:36-59 | every field is carried over, the key statistics element by element and the nested records present iff sent; local state is the default |
| SummaryMapper.CompactIsStrippedDetail | shared/src/commonMain/kotlin/com/po4yka/bitesizereader/data/mappers/SummaryMapper.kt:11-59 | the two mappings agree: a compact record maps to the same summary as a detail record with the same shared fields and no detail-only content |
| SummaryMapper.CompactListToDomain | shared/src/commonMain/kotlin/com/po4yka/bitesizereader/data/mappers/SummaryMapper.kt:96-98 | the list is mapped element by element, keeping length and order |
| SummaryMapper.DetailListToDomain | shared/src/commonMain/kotlin/com/po4yka/bitesizereader/data/mappers/SummaryMapper.kt:100-102 | the list is mapped element by element, keeping length and order |
| SummaryMapper.ListMappingKeepsIds | shared/src/commonMain/kotlin/com/po4yka/bitesizereader/data/mappers/SummaryMapper.kt:96-98 | the mapped list holds the same ids in the same order |
| SummaryMapper.ToUpdateRequestDto | shared/src/commonMain/kotlin/com/po4yka/bitesizereader/data/mappers/SummaryMapper.kt:88-92 | the update body carries the read flag |
| SummaryMapper.UpdateCarriesOnlyReadFlag | shared/src/commonMain/kotlin/com/po4yka/bitesizereader/data/mappers/SummaryMapper.kt:88-92 | two summaries give the same update body iff they agree on the read flag |
| SummaryMapper.SearchResultToSummary | shared/src/commonMain/kotlin/com/po4yka/bitesizereader/data/mappers/SearchMapper.kt:12-35 | the hit's id, title, URL and tags are kept, the snippet stands for both short summaries, the request id and reading time are 0, the language "en", unread, SYNCED, created at the given now |
| SummaryMapper.SearchResultsToSummaries | shared/src/commonMain/kotlin/com/po4yka/bitesizereader/data/mappers/SearchMapper.kt:37-39 | the hits are mapped element by element, keeping length and order |
| SummaryMapper.SearchMappingKeepsIds | shared/src/commonMain/kotlin/com/po4yka/bitesizereader/data/mappers/SearchMapper.kt:37-39 | the mapped hits keep their ids and tags, in order |
| SummaryRepository.CachedQueryFor | shared/src/commonMain/kotlin/com/po4yka/bitesizereader/data/repository/SummaryRepositoryImpl.kt:193-218 | the unread query is chosen iff the filter asks for unread only; otherwise the language query iff a language is given; otherwise a page with the given limit and offset |
| SummaryRepository.ReadFilterDoesNotSelectUnread | shared/src/commonMain/kotlin/com/po4yka/bitesizereader/data/repository/SummaryRepositoryImpl.kt:198-204 | a read-only filter (isRead true) picks the same query as no read filter at all |
| SummaryRepository.ReadRows | shared/src/commonMain/kotlin/com/po4yka/bitesizereader/data/repository/SummaryRepositoryImpl.kt:232-258 | the rows read back iff every row decodes, and then as the decoded summaries in order |
| SummaryRepository.FirstUndecodable | shared/src/commonMain/kotlin/com/po4yka/bitesizereader/data/repository/SummaryRepositoryImpl.kt:232-258 | when a list of rows does not read back, the index of the first row that does not decode; every row before it decodes |
| SummaryRepository.StoredRowsReadBack | shared/src/commonMain/kotlin/com/po4yka/bitesizereader/data/repository/SummaryRepositoryImpl.kt:232-258 | rows written for a list of summaries read back as that list |
| SummaryRepository.SortWireNamesAreLowerCaseNames | shared/src/commonMain/kotlin/com/po4yka/bitesizereader/data/repository/SummaryRepositoryImpl.kt:47-48 | the sort field and order are sent as their lower-cased constant names |
| SummaryRepository.ListQuery | shared/src/commonMain/kotlin/com/po4yka/bitesizereader/data/repository/SummaryRepositoryImpl.kt:40-49 | the list request carries the page, the read, language and date filters, and the sort options by wire name |
| SummaryRepository.GetSummaries | shared/src/commonMain/kotlin/com/po4yka/bitesizereader/data/repository/SummaryRepositoryImpl.kt:27-64 | the cached list is emitted first and the request sent; a usable answer is cached and emitted second, anything else is swallowed with the cache unchanged; a cached row that does not decode ends the flow before any emission |
| SummaryRepository.FreshSummariesAreCached | shared/src/commonMain/kotlin/com/po4yka/bitesizereader/data/repository/SummaryRepositoryImpl.kt:51-58 | after a usable answer each fresh summary reads back from the cache (the last copy of its id) |
| SummaryRepository.ReadFlagCarrier | shared/src/commonMain/kotlin/com/po4yka/bitesizereader/data/repository/SummaryRepositoryImpl.kt:107-128 | the placeholder summary carries the id and the new read flag |
| SummaryRepository.MarkAsRead | shared/src/commonMain/kotlin/com/po4yka/bitesizereader/data/repository/SummaryRepositoryImpl.kt:95-143 | the flag is written locally first; the request carries only the flag; success iff the server reports success, and only then is the row marked synced; failures carry the server's message or "Failed to update", or the exception |
| SummaryRepository.MarkAsReadReadsBack | shared/src/commonMain/kotlin/com/po4yka/bitesizereader/data/repository/SummaryRepositoryImpl.kt:95-143 | the cached summary reads back with the new flag whatever the server says, and as synced iff the server accepted; no other row changes |
| SummaryRepository.Refresh | shared/src/commonMain/kotlin/com/po4yka/bitesizereader/data/repository/SummaryRepositoryImpl.kt:175-189 | the request asks for the first 100 summaries with no filter and no sort option; success iff the answer is usable, and then its summaries are cached; failures carry the message or "Refresh failed", or the exception, and change nothing |
| SummaryRepository.RefreshCachesLikeFreshList | shared/src/commonMain/kotlin/com/po4yka/bitesizereader/data/repository/SummaryRepositoryImpl.kt:175-189 | a refresh asks for the page an unfiltered first-page list read asks for, less the sort options, and caches exactly what that read caches with the same answer |
| SummaryRepository.GetSummaryById | shared/src/commonMain/kotlin/com/po4yka/bitesizereader/data/repository/SummaryRepositoryImpl.kt:66-93 | a cached summary is returned as cached while a usable server copy refreshes the cache; an uncached one comes from the server and is cached, or fails with the message or "Failed to fetch summary", or the exception; a cached row whose sync status is not a known name fails with IllegalArgumentException "No enum constant com.po4yka.bitesizereader.domain.model.SyncStatus." followed by that name |
| SummaryRepository.SecondReadIsServedFromCache | shared/src/commonMain/kotlin/com/po4yka/bitesizereader/data/repository/SummaryRepositoryImpl.kt:66-93 | after a summary has been fetched, reading it again returns the same summary whatever the server answers then |
| RequestRepository.SubmitUrl | shared/src/commonMain/kotlin/com/po4yka/bitesizereader/data/repository/RequestRepositoryImpl.kt:29-47 | the body sent carries the URL and language; a usable answer succeeds with the server's request carrying the submitted URL and caches it; an unusable answer fails with the server's message or "Failed to submit URL"; a thrown call fails with its exception; a failure leaves the cache alone |
| RequestRepository.SubmittedUrlIsCached | shared/src/commonMain/kotlin/com/po4yka/bitesizereader/data/repository/RequestRepositoryImpl.kt:37-40 | after a successful submit the cache holds the request under its id with the URL as submitted |
| RequestRepository.GetRequestStatus | shared/src/commonMain/kotlin/com/po4yka/bitesizereader/data/repository/RequestRepositoryImpl.kt:49-63 | succeeds iff the answer is usable, with the mapped status, which is then cached; an unusable answer fails with the server's message or "Failed to get status"; a thrown exception is the failure; a failure leaves the cache alone |
| RequestRepository.StatusReadForgetsSubmittedUrl | shared/src/commonMain/kotlin/com/po4yka/bitesizereader/data/repository/RequestRepositoryImpl.kt:38-55 | a successful status read of a submitted request overwrites its cached row with an empty URL, so the submitted URL no longer survives in the cache |
| RequestRepository.RetryRequest | shared/src/commonMain/kotlin/com/po4yka/bitesizereader/data/repository/RequestRepositoryImpl.kt:103-117 | succeeds iff the answer is usable, with the mapped request, which is then cached; an unusable answer fails with the server's message or "Failed to retry"; a thrown exception is the failure; a failure leaves the cache alone |
| RequestRepository.CancelRequest | shared/src/commonMain/kotlin/com/po4yka/bitesizereader/data/repository/RequestRepositoryImpl.kt:119-133 | succeeds iff the answer is usable, with the mapped request, which is then cached; an unusable answer fails with the server's message or "Failed to cancel"; a thrown exception is the failure; a failure leaves the cache alone |
| RequestRepository.RetriedOrCancelledRequestIsCached | shared/src/commonMain/kotlin/com/po4yka/bitesizereader/data/repository/RequestRepositoryImpl.kt:103-133 | after a successful retry or cancel the cache reads the mapped request back under its id and keeps every other request; retry and cancel write the same cache for the same answer |
| RequestRepository.PolledRequestsEach | shared/src/commonMain/kotlin/com/po4yka/bitesizereader/data/repository/RequestRepositoryImpl.kt:69-84 | every read of a run in which polling goes on is a successful non-terminal read, and it is emitted in its position |
| RequestRepository.PollWhileContinuing | shared/src/commonMain/kotlin/com/po4yka/bitesizereader/data/repository/RequestRepositoryImpl.kt:69-99 | reads go on exactly while each is a success with a non-terminal status; each is emitted and cached; the read that stops the loop, if any, is one that does not continue |
| RequestRepository.FinalRead | shared/src/commonMain/kotlin/com/po4yka/bitesizereader/data/repository/RequestRepositoryImpl.kt:72-95 | a terminal read is emitted and cached; a failed read emits the cached request for the id if it has one and decodes, emits nothing if there is none, and crashes if the row does not decode |
| RequestRepository.PollRequestStatus | shared/src/commonMain/kotlin/com/po4yka/bitesizereader/data/repository/RequestRepositoryImpl.kt:65-101 | the emitted requests are the continuing reads followed by what the stopping read emits; a wait follows each read after which polling goes on and no other; the cache is updated by every successful read |
| RequestRepository.FailureReemitsLastStatus | shared/src/commonMain/kotlin/com/po4yka/bitesizereader/data/repository/RequestRepositoryImpl.kt:85-94 | when a read fails right after a successful one for the same id, the cached request it falls back on is that last polled status |
| SearchRepository.SearchLocal | shared/src/commonMain/kotlin/com/po4yka/bitesizereader/data/repository/SearchRepositoryImpl.kt:89-115 | the local search succeeds iff every matched row decodes, and then returns the decoded summaries in row order; otherwise it fails with the IllegalArgumentException whose message names the unknown sync status of the first row that does not decode |
| SearchRepository.LocalOrEmpty | shared/src/commonMain/kotlin/com/po4yka/bitesizereader/data/repository/SearchRepositoryImpl.kt:27 | a failed local search counts as no local matches |
| SearchRepository.Merge | shared/src/commonMain/kotlin/com/po4yka/bitesizereader/data/repository/SearchRepositoryImpl.kt:36-38 | the merged list holds at most limit summaries, no two with the same id, each from the remote or the local results |
| SearchRepository.MergePrefersRemote | shared/src/commonMain/kotlin/com/po4yka/bitesizereader/data/repository/SearchRepositoryImpl.kt:35-37 | when both sides hold a summary with the same id, the remote one is kept |
| SearchRepository.MergeKeepsEveryIdBelowLimit | shared/src/commonMain/kotlin/com/po4yka/bitesizereader/data/repository/SearchRepositoryImpl.kt:36-38 | when the merge is shorter than the limit, it holds every id of either side |
| SearchRepository.Search | shared/src/commonMain/kotlin/com/po4yka/bitesizereader/data/repository/SearchRepositoryImpl.kt:20-49 | a usable answer gives the remote results merged with the local ones (at most limit, distinct ids); an unusable answer gives the local matches; an exception, including a negative limit, falls back to the local search and its failure |
| SearchRepository.LocalFailureContributesNothing | shared/src/commonMain/kotlin/com/po4yka/bitesizereader/data/repository/SearchRepositoryImpl.kt:27-44 | while the server answers, undecodable local rows give the same result as no local rows |
| SearchRepository.FrequenciesAfter | shared/src/commonMain/kotlin/com/po4yka/bitesizereader/data/repository/SearchRepositoryImpl.kt:68-75 | after counting, the map's keys are the distinct tags in order of first occurrence, and each maps to the number of times it occurs |
| SearchRepository.SortIsPermutation | shared/src/commonMain/kotlin/com/po4yka/bitesizereader/data/repository/SearchRepositoryImpl.kt:79 | sorting by count rearranges the entries and loses or adds none |
| SearchRepository.SortIsOrdered | shared/src/commonMain/kotlin/com/po4yka/bitesizereader/data/repository/SearchRepositoryImpl.kt:79 | sorted entries have non-increasing counts |
| SearchRepository.SortIsStable | shared/src/commonMain/kotlin/com/po4yka/bitesizereader/data/repository/SearchRepositoryImpl.kt:79 | entries with equal counts keep their relative order |
| SearchRepository.RankedTopicsFacts | shared/src/commonMain/kotlin/com/po4yka/bitesizereader/data/repository/SearchRepositoryImpl.kt:66-79 | the ranking lists every tag of the cached summaries once, with its true count, most frequent first |
| SearchRepository.GetTrendingTopics | shared/src/commonMain/kotlin/com/po4yka/bitesizereader/data/repository/SearchRepositoryImpl.kt:63-87 | succeeds iff the limit is non-negative, with the topics of the first limit ranked entries; a negative limit fails with the exception take throws |
| SearchRepository.TrendingTopicsAreTheMostFrequent | shared/src/commonMain/kotlin/com/po4yka/bitesizereader/data/repository/SearchRepositoryImpl.kt:66-81 | at most limit distinct topics by non-increasing frequency; any tag left out means the limit is full and the tag is no more frequent than the last one shown |
| SearchRepository.TrendingTopicsComeFromSummaries | shared/src/commonMain/kotlin/com/po4yka/bitesizereader/data/repository/SearchRepositoryImpl.kt:70-75 | every trending topic is a tag of some cached summary |
| SearchRepository.TrendingTiesKeepFirstSeenOrder | shared/src/commonMain/kotlin/com/po4yka/bitesizereader/data/repository/SearchRepositoryImpl.kt:68-79 | topics with the same count appear in the order in which they were first counted |
| SyncRepository.PerformFullSync | shared/src/commonMain/kotlin/com/po4yka/bitesizereader/data/repository/SyncRepositoryImpl.kt:22-67 | a run while another sync runs emits only the not-retryable in-progress error and changes nothing; otherwise the flag is lowered afterwards; a failed wipe emits the start step and a retryable error and keeps the cache; a wipe that succeeds emits the three progress steps and a success with no items, empties the summaries and sets both stamps to the same time, leaving every other key alone |
| SyncRepository.AppliedPrefixCounts | shared/src/commonMain/kotlin/com/po4yka/bitesizereader/data/repository/SyncRepositoryImpl.kt:101-110 | at most one summary per change is applied; every change applies when each is an insert or update with data, and none when none is |
| SyncRepository.InsertSummariesSnoc | shared/src/commonMain/kotlin/com/po4yka/bitesizereader/data/repository/SyncRepositoryImpl.kt:101-106 | upserting one more summary after a list is upserting the longer list |
| SyncRepository.ApplyChanges | shared/src/commonMain/kotlin/com/po4yka/bitesizereader/data/repository/SyncRepositoryImpl.kt:98-110 | the cache after the loop is the cache with every applying change's summary upserted in order, and the counter is the number of those summaries |
| SyncRepository.PerformDeltaSync | shared/src/commonMain/kotlin/com/po4yka/bitesizereader/data/repository/SyncRepositoryImpl.kt:69-145 | refused while another sync runs; without a last_sync stamp it is the full sync behind a first progress step; otherwise it asks since that stamp, and on a usable answer upserts the changed summaries, reports their number plus the deleted ids, and stores the server timestamp; any modelled failure, an unusable answer or a thrown call, emits a retryable error and leaves the cache alone |
| SyncRepository.SyncEndsWithVerdict | shared/src/commonMain/kotlin/com/po4yka/bitesizereader/data/repository/SyncRepositoryImpl.kt:22-145 | every run of either sync ends with a success or an error; success exactly when the guard passes and the one modelled fallible step, the server call or the wipe, succeeds; an error leaves the cache as it was |
| SyncRepository.NextDeltaAsksSinceServerTimestamp | shared/src/commonMain/kotlin/com/po4yka/bitesizereader/data/repository/SyncRepositoryImpl.kt:91-116 | after a successful delta the next delta asks for changes since the timestamp the server returned |
| SyncRepository.DeltaAfterFullSyncAsksSinceStamp | shared/src/commonMain/kotlin/com/po4yka/bitesizereader/data/repository/SyncRepositoryImpl.kt:81-91 | after a full sync, a delta sync no longer falls back and asks since the stamp the full sync stored |
| SyncRepository.UploadLocalChanges | shared/src/commonMain/kotlin/com/po4yka/bitesizereader/data/repository/SyncRepositoryImpl.kt:147-171 | the upload reports a starting step and then a success with no items |
| SyncRepository.CancelSync | shared/src/commonMain/kotlin/com/po4yka/bitesizereader/data/repository/SyncRepositoryImpl.kt:173-175 | cancelling lowers the flag and leaves the cache alone |
| SyncRepository.WholeMinutes | shared/src/commonMain/kotlin/com/po4yka/bitesizereader/data/repository/SyncRepositoryImpl.kt:186 | the whole minutes of a span, truncated toward zero for both signs |
| SyncRepository.IsSyncNeeded | shared/src/commonMain/kotlin/com/po4yka/bitesizereader/data/repository/SyncRepositoryImpl.kt:177-191 | with no last_sync stamp a sync is needed; an unparsable stamp raises; otherwise a sync is needed iff at least six minutes have passed |
| SyncRepository.FullSyncDefersNextSync | shared/src/commonMain/kotlin/com/po4yka/bitesizereader/data/repository/SyncRepositoryImpl.kt:177-186 | right after a successful full sync no sync is needed until six minutes after its stamp |
| UseCases.DecideSubmit | shared/src/commonMain/kotlin/com/po4yka/bitesizereader/domain/usecase/SubmitURLUseCase.kt:12-26 | a URL is rejected with "Invalid URL" iff it starts with neither http:// nor https://; otherwise the URL and language go to the repository unchanged |
| UseCases.SubmitUrl | shared/src/commonMain/kotlin/com/po4yka/bitesizereader/domain/usecase/SubmitURLUseCase.kt:12-22 | an invalid URL fails without sending anything or touching the cache; a valid one is exactly the repository's submission |
| UseCases.AcceptedSubmissionKeepsUrl | shared/src/commonMain/kotlin/com/po4yka/bitesizereader/domain/usecase/SubmitURLUseCase.kt:17-21 | a successful submission was for a URL with an http(s) scheme, sent that URL with the given language, and returned and cached a request carrying it |
| UseCases.DecideSearch | shared/src/commonMain/kotlin/com/po4yka/bitesizereader/domain/usecase/SearchSummariesUseCase.kt:12-22 | the answer is no results iff the query is blank; otherwise the query, limit and offset go to the repository unchanged |
| UseCases.Search | shared/src/commonMain/kotlin/com/po4yka/bitesizereader/domain/usecase/SearchSummariesUseCase.kt:12-22 | a blank query succeeds with no results; any other query is exactly the repository's search |
| UseCases.WhitespaceQueryFindsNothing | shared/src/commonMain/kotlin/com/po4yka/bitesizereader/domain/usecase/SearchSummariesUseCase.kt:17-19 | a query of spaces, tabs and line breaks finds nothing whatever the database and the server hold |
| UseCases.SyncData | shared/src/commonMain/kotlin/com/po4yka/bitesizereader/domain/usecase/SyncDataUseCase.kt:13-19 | a forced sync sends no delta request and, when not refused and the wipe succeeds, empties the summaries behind the full sync's first step; an unforced one asks since the stored last_sync stamp behind the delta sync's first step; a sync already running is refused with one error and no change |
| UseCases.SyncChoiceWithoutStamp | shared/src/commonMain/kotlin/com/po4yka/bitesizereader/domain/usecase/SyncDataUseCase.kt:13-19 | with no last_sync stamp stored, forced and unforced syncs end in the same state, the unforced one emitting one extra step first |
| SubmitUrlViewModel.SetUrl | shared/src/commonMain/kotlin/com/po4yka/bitesizereader/presentation/viewmodel/SubmitURLViewModel.kt:22-26 | editing the URL replaces it and clears the validation message, leaving every other field alone |
| SubmitUrlViewModel.Submit | shared/src/commonMain/kotlin/com/po4yka/bitesizereader/presentation/viewmodel/SubmitURLViewModel.kt:28-45 | a blank URL only records "Please enter a URL"; a non-blank URL without an http(s) scheme only records the scheme message; otherwise that URL is launched with the screen busy and both messages cleared |
| SubmitUrlViewModel.ValidUrlIsNotBlank | shared/src/commonMain/kotlin/com/po4yka/bitesizereader/presentation/viewmodel/SubmitURLViewModel.kt:33-41 | a URL with an http(s) scheme is never blank, so the blank check never hides the scheme check |
| SubmitUrlViewModel.LaunchesExactlyWhatUseCaseAccepts | shared/src/commonMain/kotlin/com/po4yka/bitesizereader/presentation/viewmodel/SubmitURLViewModel.kt:33-46 | the screen launches a submission exactly when the use case would pass the URL to the repository |
| SubmitUrlViewModel.OnSubmitResult | shared/src/commonMain/kotlin/com/po4yka/bitesizereader/presentation/viewmodel/SubmitURLViewModel.kt:46-63 | a created request is shown with polling on and no error; a failure shows its message and keeps the shown request; busy is cleared either way |
| SubmitUrlViewModel.PollAfterSubmit | shared/src/commonMain/kotlin/com/po4yka/bitesizereader/presentation/viewmodel/SubmitURLViewModel.kt:48-57 | polling starts iff the submission succeeded, for the created request's id |
| SubmitUrlViewModel.OnPolled | shared/src/commonMain/kotlin/com/po4yka/bitesizereader/presentation/viewmodel/SubmitURLViewModel.kt:76-88 | each polled request is shown; polling stays on iff it was on and the status is not completed, error or cancelled |
| SubmitUrlViewModel.OnPollError | shared/src/commonMain/kotlin/com/po4yka/bitesizereader/presentation/viewmodel/SubmitURLViewModel.kt:70-75 | an exception from the poll ends polling and shows its message, keeping the shown request |
| SubmitUrlViewModel.PollingTracksLastStatus | shared/src/commonMain/kotlin/com/po4yka/bitesizereader/presentation/viewmodel/SubmitURLViewModel.kt:76-88 | after collecting a run of polled requests the last one is shown, and polling is on iff it was on and none of them was terminal |
| SubmitUrlViewModel.TerminalReadStopsPolling | shared/src/commonMain/kotlin/com/po4yka/bitesizereader/presentation/viewmodel/SubmitURLViewModel.kt:67-88 | against the repository's poll, polling stays on through the in-progress reads and the terminal read is shown and turns it off |
| SubmitUrlViewModel.RetryTarget | shared/src/commonMain/kotlin/com/po4yka/bitesizereader/presentation/viewmodel/SubmitURLViewModel.kt:92-95 | a retry is launched iff a request is shown, for that request's id |
| SubmitUrlViewModel.OnRetryResult | shared/src/commonMain/kotlin/com/po4yka/bitesizereader/presentation/viewmodel/SubmitURLViewModel.kt:97-106 | a retried request is shown and polled again with no error; a failure only shows its message |
| SubmitUrlViewModel.OnCancelResult | shared/src/commonMain/kotlin/com/po4yka/bitesizereader/presentation/viewmodel/SubmitURLViewModel.kt:115-129 | a successful cancel stops polling and shows the request captured at the call with status cancelled, ignoring the server's answer; a failure only shows its message |
| SubmitUrlViewModel.RetryResumesPolling | shared/src/commonMain/kotlin/com/po4yka/bitesizereader/presentation/viewmodel/SubmitURLViewModel.kt:92-108 | after a successful retry polling is on, the next retry targets the retried request, and the poll of that request keeps polling through in-progress reads and stops at the terminal one |
| SubmitUrlViewModel.CancelledPollingStaysOff | shared/src/commonMain/kotlin/com/po4yka/bitesizereader/presentation/viewmodel/SubmitURLViewModel.kt:115-129 | after a successful cancel, later emissions of the still-running poll never turn polling back on, though the last one replaces the request shown as cancelled |
| SummaryListViewModel.StartLoad | shared/src/commonMain/kotlin/com/po4yka/bitesizereader/presentation/viewmodel/SummaryListViewModel.kt:31-43 | a refresh restarts at offset 0 with an empty list; another load only marks the screen loading; the call asks for the offset this leaves, and its pages extend the shown list only when it is neither a refresh nor a first page |
| SummaryListViewModel.Init | shared/src/commonMain/kotlin/com/po4yka/bitesizereader/presentation/viewmodel/SummaryListViewModel.kt:24-29 | a new screen starts loading the first page at offset 0 |
| SummaryListViewModel.Settled | shared/src/commonMain/kotlin/com/po4yka/bitesizereader/presentation/viewmodel/SummaryListViewModel.kt:57-63 | after a page, loading and refreshing are over, the error is cleared, and more pages are expected iff the page was full |
| SummaryListViewModel.OnPageAsWritten | shared/src/commonMain/kotlin/com/po4yka/bitesizereader/presentation/viewmodel/SummaryListViewModel.kt:50-67 | as written: a page replaces the list on a refresh or at offset 0 and is appended otherwise; the offset grows by the page size except on a refresh |
| SummaryListViewModel.OnPage | shared/src/commonMain/kotlin/com/po4yka/bitesizereader/presentation/viewmodel/SummaryListViewModel.kt:50-67 | corrected: the list is the list the load extends followed by the page, and the offset is the requested offset plus the page size |
| SummaryListViewModel.OnLoadError | shared/src/commonMain/kotlin/com/po4yka/bitesizereader/presentation/viewmodel/SummaryListViewModel.kt:44-49 | a failed load shows its message and ends loading, keeping the list, the offset and hasMore |
| SummaryListViewModel.LoadMore | shared/src/commonMain/kotlin/com/po4yka/bitesizereader/presentation/viewmodel/SummaryListViewModel.kt:72-76 | another page is loaded iff the screen is not loading and more pages are expected |
| SummaryListViewModel.Refresh | shared/src/commonMain/kotlin/com/po4yka/bitesizereader/presentation/viewmodel/SummaryListViewModel.kt:78-80 | a refresh empties the list and asks for the first page |
| SummaryListViewModel.MarkAsRead | shared/src/commonMain/kotlin/com/po4yka/bitesizereader/presentation/viewmodel/SummaryListViewModel.kt:82-96 | only the read flag of the summaries with that id changes, to the new value; length and order are kept |
| SummaryListViewModel.MarkAsReadIdempotent | shared/src/commonMain/kotlin/com/po4yka/bitesizereader/presentation/viewmodel/SummaryListViewModel.kt:87-95 | marking the same summary twice is marking it once |
| SummaryListViewModel.MarkAsReadUndone | shared/src/commonMain/kotlin/com/po4yka/bitesizereader/presentation/viewmodel/SummaryListViewModel.kt:87-95 | marking back restores the list when the summaries with that id all carried the other flag |
| SummaryListViewModel.OnSyncState | shared/src/commonMain/kotlin/com/po4yka/bitesizereader/presentation/viewmodel/SummaryListViewModel.kt:99-110 | each sync state is shown, and a refresh starts iff it is a success |
| SummaryListViewModel.OffsetTracksList | shared/src/commonMain/kotlin/com/po4yka/bitesizereader/presentation/viewmodel/SummaryListViewModel.kt:31-110 | with the corrected handler the offset stays the length of the shown list through every load start, page, error, mark and sync state, and a loadMore asks for the page right after the list |
| SummaryListViewModel.LastEmissionWins | shared/src/commonMain/kotlin/com/po4yka/bitesizereader/presentation/viewmodel/SummaryListViewModel.kt:50-68 | with the corrected handler, after any number of emissions of one load the list is the extended list followed by the last page |
| SummaryListViewModel.AsWrittenDuplicatesCachedPage | shared/src/commonMain/kotlin/com/po4yka/bitesizereader/presentation/viewmodel/SummaryListViewModel.kt:50-67 | as written, a cached first page followed by the same fresh page shows the summary twice with offset 2; the corrected handler shows it once with offset 1 |
| SummaryListViewModel.AsWrittenReloadsFirstPageAfterRefresh | shared/src/commonMain/kotlin/com/po4yka/bitesizereader/presentation/viewmodel/SummaryListViewModel.kt:65-76 | as written, after a refresh shows a full page, loadMore asks for offset 0 again; the corrected handler asks for offset 20 |
| SearchViewModel.SetQuery | shared/src/commonMain/kotlin/com/po4yka/bitesizereader/presentation/viewmodel/SearchViewModel.kt:31-40 | the query is shown at once and a debounced search is pending; nothing else in the state changes |
| SearchViewModel.Search | shared/src/commonMain/kotlin/com/po4yka/bitesizereader/presentation/viewmodel/SearchViewModel.kt:42-53 | a blank query empties the results and launches nothing; any other query marks the screen searching, clears the error and is searched |
| SearchViewModel.DebounceElapsed | shared/src/commonMain/kotlin/com/po4yka/bitesizereader/presentation/viewmodel/SearchViewModel.kt:36-39 | when the debounce wait ends, a pending job runs the search once and is no longer pending; with none pending nothing happens |
| SearchViewModel.LaunchedQueryReachesRepository | shared/src/commonMain/kotlin/com/po4yka/bitesizereader/presentation/viewmodel/SearchViewModel.kt:45-53 | a query the screen launches is never blank, so the use case always hands it to the repository with limit 20 and offset 0 |
| SearchViewModel.OnSearchResult | shared/src/commonMain/kotlin/com/po4yka/bitesizereader/presentation/viewmodel/SearchViewModel.kt:55-66 | searching ends; success replaces the results and clears the error; failure shows its message and keeps the old results |
| SearchViewModel.OnTrendingTopics | shared/src/commonMain/kotlin/com/po4yka/bitesizereader/presentation/viewmodel/SearchViewModel.kt:70-78 | trending topics are shown on success and a failure changes nothing |
| SearchViewModel.ShownTopicsAreTheTrendingOnes | shared/src/commonMain/kotlin/com/po4yka/bitesizereader/presentation/viewmodel/SearchViewModel.kt:72-75 | the topics shown are the repository's ranking: at most ten, all distinct |
| SearchViewModel.ClearSearch | shared/src/commonMain/kotlin/com/po4yka/bitesizereader/presentation/viewmodel/SearchViewModel.kt:80-83 | clearing resets every field except the trending topics and cancels a pending search |
| SearchViewModel.ClearedScreenStaysEmpty | shared/src/commonMain/kotlin/com/po4yka/bitesizereader/presentation/viewmodel/SearchViewModel.kt:80-83 | after clearing, a search launches nothing and changes nothing, the debounce has nothing to run, and clearing again changes nothing |
| LoginViewModel.OnAuthChecked | shared/src/commonMain/kotlin/com/po4yka/bitesizereader/presentation/viewmodel/LoginViewModel.kt:27-36 | the flag shown is whether the stored tokens authenticate, the user is loaded exactly then, and nothing else changes |
| LoginViewModel.OnUserLoaded | shared/src/commonMain/kotlin/com/po4yka/bitesizereader/presentation/viewmodel/LoginViewModel.kt:38-46 | a loaded user is shown and a failure changes nothing |
| LoginViewModel.StartLogin | shared/src/commonMain/kotlin/com/po4yka/bitesizereader/presentation/viewmodel/LoginViewModel.kt:58 | a login marks the screen loading with no error, keeping the flag and user |
| LoginViewModel.OnLoginResult | shared/src/commonMain/kotlin/com/po4yka/bitesizereader/presentation/viewmodel/LoginViewModel.kt:72-85 | loading ends; success authenticates and shows the returned user with no error; failure shows its message and keeps the flag and user |
| LoginViewModel.LoginAgreesWithStorage | shared/src/commonMain/kotlin/com/po4yka/bitesizereader/presentation/viewmodel/LoginViewModel.kt:48-86 | a login the server accepts with non-empty tokens shows its user as authenticated and a later check on the storage it left confirms it; a failed login leaves the check's outcome unchanged |
| LoginViewModel.OnLoggedOut | shared/src/commonMain/kotlin/com/po4yka/bitesizereader/presentation/viewmodel/LoginViewModel.kt:88-93 | after logout the screen is unauthenticated, with no user, not loading and no error |
| LoginViewModel.LogoutIsFinal | shared/src/commonMain/kotlin/com/po4yka/bitesizereader/presentation/viewmodel/LoginViewModel.kt:88-93 | after logout, checking the storage again finds no session and loads no user |
| LoginViewModel.PlaceholderLogin | shared/src/commonMain/kotlin/com/po4yka/bitesizereader/presentation/viewmodel/LoginViewModel.kt:99-108 | the argument-less login only shows the not-implemented message |
| ShareText.AppendBullets | shared/src/commonMain/kotlin/com/po4yka/bitesizereader/util/share/ShareManager.kt:64-66 | each key idea becomes its own bullet line, in order |
| ShareText.HashTags | shared/src/commonMain/kotlin/com/po4yka/bitesizereader/util/share/ShareManager.kt:74 | each tag is prefixed with #, in order |
| ShareText.AppendTags | shared/src/commonMain/kotlin/com/po4yka/bitesizereader/util/share/ShareManager.kt:72-75 | without tags nothing is added; with tags an empty line and the unterminated "Tags:" line follow |
| ShareText.ShareTextLayout | shared/src/commonMain/kotlin/com/po4yka/bitesizereader/util/share/ShareManager.kt:46-77 | the shared text is its lines each ended by a line break, except that a tags line, when there are tags, ends the text without one |
| ShareText.ShareLinesOpening | shared/src/commonMain/kotlin/com/po4yka/bitesizereader/util/share/ShareManager.kt:48-54 | a non-blank custom message opens the text followed by an empty line; then the title and an empty line |
| ShareText.ShareLinesSummary | shared/src/commonMain/kotlin/com/po4yka/bitesizereader/util/share/ShareManager.kt:56-60 | the "Summary:" line follows the title block iff the tl;dr is not blank, and then carries the tl;dr and an empty line |
| ShareText.ShareLinesIdeas | shared/src/commonMain/kotlin/com/po4yka/bitesizereader/util/share/ShareManager.kt:62-68 | the "Key Points:" line comes next iff there are key ideas, followed by one bullet per idea in order and an empty line |
| ShareText.ShareLinesEnding | shared/src/commonMain/kotlin/com/po4yka/bitesizereader/util/share/ShareManager.kt:70-75 | "Read more:" with the URL always follows; the text ends there without tags, and otherwise after an empty line and the tags line |
| Accessibility.Topics | composeApp/src/androidMain/kotlin/com/po4yka/bitesizereader/ui/accessibility/AccessibilityExt.kt:40-45 | the topics part is empty iff there are no tags |
| Accessibility.CardDescription | composeApp/src/androidMain/kotlin/com/po4yka/bitesizereader/ui/accessibility/AccessibilityExt.kt:32-56 | the card description opens with the read status, and the topics part is added exactly when there are tags |
| Accessibility.CardTellsReadStatus | composeApp/src/androidMain/kotlin/com/po4yka/bitesizereader/ui/accessibility/AccessibilityExt.kt:39-48 | a card description opens with "Read article. " iff the summary is read and with "Unread article. " iff it is not |
| Accessibility.TopicsOnlyExtend | composeApp/src/androidMain/kotlin/com/po4yka/bitesizereader/ui/accessibility/AccessibilityExt.kt:47-55 | the description without tags is a prefix of the one with tags, strictly shorter iff there are tags |
| Accessibility.ButtonStateOf | composeApp/src/androidMain/kotlin/com/po4yka/bitesizereader/ui/accessibility/AccessibilityExt.kt:68-71 | a loading button is loading whatever its enabled flag; a disabled state needs it not loading |
| Accessibility.ButtonDescription | composeApp/src/androidMain/kotlin/com/po4yka/bitesizereader/ui/accessibility/AccessibilityExt.kt:61-73 | the caption is followed by ". Loading" when loading, else by ". Disabled" when disabled, else by nothing |
| Accessibility.ButtonDescriptionsAgree | composeApp/src/androidMain/kotlin/com/po4yka/bitesizereader/ui/accessibility/AccessibilityExt.kt:61-73 | two descriptions of one caption are equal iff the buttons are in the same state |
| Accessibility.FilterChipDescription | composeApp/src/androidMain/kotlin/com/po4yka/bitesizereader/ui/accessibility/AccessibilityExt.kt:78-84 | the chip description is the filter, " filter, ", then "selected" or "not selected" |
| Accessibility.FilterChipRoundTrip | composeApp/src/androidMain/kotlin/com/po4yka/bitesizereader/ui/accessibility/AccessibilityExt.kt:78-84 | the filter and the selection can be read back from a chip description |
| Accessibility.FilterChipsAreDistinguishable | composeApp/src/androidMain/kotlin/com/po4yka/bitesizereader/ui/accessibility/AccessibilityExt.kt:78-84 | chips that differ in filter or selection have different descriptions |
| NetworkMonitor.Message | shared/src/commonMain/kotlin/com/po4yka/bitesizereader/util/network/NetworkMonitor.kt:37-41 | every status has a non-empty message |
| NetworkMonitor.IsConnected | shared/src/commonMain/kotlin/com/po4yka/bitesizereader/util/network/NetworkMonitor.kt:46 | connected iff the status's message is "Connected"; an unknown status is not connected |
| NetworkMonitor.MessageRoundTrip | shared/src/commonMain/kotlin/com/po4yka/bitesizereader/util/network/NetworkMonitor.kt:37-41 | the status can be read back from its message |
| NetworkMonitor.MessagesAreDistinct | shared/src/commonMain/kotlin/com/po4yka/bitesizereader/util/network/NetworkMonitor.kt:37-41 | different statuses have different messages |
| QueryPerformance.TrackQuery | shared/src/commonMain/kotlin/com/po4yka/bitesizereader/util/performance/PerformanceMonitor.kt:104-106 | the time is appended to the query's list, created empty when missing; other queries are untouched |
| QueryPerformance.GetStats | shared/src/commonMain/kotlin/com/po4yka/bitesizereader/util/performance/PerformanceMonitor.kt:108-117 | no stats iff the query was never tracked; otherwise the count is the number of times and min and max are times it recorded that bound all of them |
| QueryPerformance.GetAllStats | shared/src/commonMain/kotlin/com/po4yka/bitesizereader/util/performance/PerformanceMonitor.kt:119-121 | one stats entry per tracked query, in the order the queries were first tracked, each equal to that query's stats |
| QueryPerformance.Reset | shared/src/commonMain/kotlin/com/po4yka/bitesizereader/util/performance/PerformanceMonitor.kt:123-125 | after a reset no query has stats |
| QueryPerformance.TrackUpdatesStats | shared/src/commonMain/kotlin/com/po4yka/bitesizereader/util/performance/PerformanceMonitor.kt:104-117 | tracking one more time raises the count by one and moves min and max to include it; a first time gives count 1 with min and max that time |
| QueryPerformance.ReplayRecordsEveryCall | shared/src/commonMain/kotlin/com/po4yka/bitesizereader/util/performance/PerformanceMonitor.kt:104-117 | after a run of calls each query's stats count exactly the calls made for it, with their times in order |
| QueryPerformance.ResetForgetsEarlierCalls | shared/src/commonMain/kotlin/com/po4yka/bitesizereader/util/performance/PerformanceMonitor.kt:123-125 | whatever the tracker held, after a reset a name has stats exactly when it was tracked since, counting only those calls; the tracker stays valid |
| UrlExtraction.FirstMatch | composeApp/src/androidMain/kotlin/com/po4yka/bitesizereader/MainActivity.kt:81-92 | the leftmost position where an http(s) URL pattern matches, or none when there is none |
| UrlExtraction.MatchText | composeApp/src/androidMain/kotlin/com/po4yka/bitesizereader/MainActivity.kt:81-92 | a match runs from its scheme to the next whitespace or the end of the text |
| UrlExtraction.LeadingToken | composeApp/src/androidMain/kotlin/com/po4yka/bitesizereader/MainActivity.kt:81-92 | the first whitespace-free token of a text that starts with a scheme, which keeps that scheme |
| UrlExtraction.ExtractUrl | composeApp/src/androidMain/kotlin/com/po4yka/bitesizereader/MainActivity.kt:81-92 | a trimmed text starting with a scheme yields its first token; otherwise the leftmost http(s) match, or nothing exactly when there is no match; any result is an http(s) URL without whitespace |
| UrlExtraction.NoSchemeNoUrl | composeApp/src/androidMain/kotlin/com/po4yka/bitesizereader/MainActivity.kt:81-92 | a text that contains neither http:// nor https:// yields nothing |
| UrlExtraction.WholeUrlIsKept | composeApp/src/androidMain/kotlin/com/po4yka/bitesizereader/MainActivity.kt:81-92 | a text that is just an http(s) URL yields that URL unchanged |
| UrlExtraction.SharedUrlIsSubmitted | composeApp/src/androidMain/kotlin/com/po4yka/bitesizereader/MainActivity.kt:81-92 | a URL extracted from shared text passes the submit screen's checks and is launched |

## Left out

- `Instant.parse` and the ISO text of an `Instant` are library calls. `InstantText` stands for the text, and a stamp is assumed to parse back to its instant wherever a lemma needs that.
- The JSON codec of the list and object columns is a library call. A column holds its decoded value, so decoding a column never fails in the model.
- The SQL queries are not modelled. What a query returns is an input: the rows of `search`, `selectAll` or `selectById`, or the rows a cached read selects.
- Kotlin `Int`/`Long` widths are not modelled, except in `RetryUtil.BackoffAsWritten`. There the overflow is the point.
- `Double` arithmetic is not modelled: `pow` in the backoff, the retry factor, and the average query time. The backoff multiplier is a natural number, and the retry factor a rational.
- `AppError.cause` is not modelled. No branch reads it.
- The default message of `RateLimitError()` is declared outside the modelled files. `AppErrors.RateLimitDefaultMessage` stands in for it.
- `RetryUtil.RetryWithStrategy`: the exponential strategy's delays come from `getDelayForAttempt`, whose body is not part of this model. The model keeps it as the uninterpreted `delayFor` and says nothing about its values; `RetryUtil.Backoff` models `calculateExponentialBackoff` on its own.
- `RetryUtil.RetryWithStrategy`: the Kotlin loop catches `Exception`, so an `Error` thrown by the operation escapes the loop. The model has no `Throwable` outside `Exception` and treats every raised outcome as caught. The repositories' `catch (e: Exception)` blocks are modelled the same way. `RetryPolicies.RetryWithBackoff` catches `Throwable`, as modelled.
- `Database.UpdateReadStatus`: the `updateReadStatus` query is SQL that is not part of this model. The model assumes it sets only that row's `is_read` column, to 1 or 0, and changes nothing else.
- `Database.MarkAsSynced`: the `markAsSynced` query is SQL that is not part of this model. The model assumes it sets only the listed rows' sync status to SYNCED and changes nothing else.
- `markAsFavorite`, `deleteSummary`, `getUnreadCount`, `getAllRequests`, `getPendingRequests` and `deleteRequest` are left out. They are thin wrappers over single SQL statements, and no view model in the model calls them.
- The delegating use cases (get summaries, get by id, mark as read, login) are left out. They only forward to the repositories, which are modelled.
- Coroutine timing is not modelled: the 300 ms search debounce, the 3-second polling wait and the retry delays. Waits appear only as events in a schedule or a count. Concurrent access to `isSyncing` and to the view-model state is not modelled.
- `SyncRepository.PerformDeltaSync` counts `deletedIds` but does not delete them, as in the source.
- `SyncRepository.PerformDeltaSync` and `SyncRepository.PerformFullSync`: the cache writes are assumed not to throw. In the source, `insertSummary` and `setSyncMetadata` run inside the `try`. If the k-th insert of a delta sync threw, the first k inserts would stay, the flow would emit a retryable DELTA error with the exception's message or "Delta sync failed", and last_sync would keep its old value. The model only has the server call and the wipe as fallible steps, so it does not promise that partial cache.
- The same assumption covers the other cache writes: `insertRequest` in `RequestRepository.SubmitUrl` and the other request caches, the `insertSummary` loop in `SummaryRepository.GetSummaries` and `SummaryRepository.Refresh`, and `updateReadStatus` and `markAsSynced` in `SummaryRepository.MarkAsRead`. A throwing write would leave the writes before it in place and raise instead of returning the modelled result.
- `SummaryRepository.UnknownSyncStatus`: the message is the text the JVM's `Enum.valueOf` builds, which is library code. The model states that text for the enum's fully qualified name.
- `SummaryListViewModel.ListState` keeps only the `SummaryListState` fields the view model writes.
- `SearchViewModel.ClearSearch` cancels only the pending debounced job, as the source does. A search already launched can still deliver its results after a clear. That is a timing question and is not modelled.
- `QueryPerformance.GetStats` leaves out `avgTimeMs`, a `Double` average.
- Logging is not modelled. It has no effect on results.
- The `measure`, `measureSuspend` and `measureFlow` helpers of `PerformanceMonitor`, `MemoryMonitor` and `StartupTracker` only time and log. They are left out.
- The `accessibilityHeading` and `accessibilityLabel` modifiers only attach strings to the UI and are left out.
- The `NetworkMonitor` interface and its `networkStatus` flow are platform code and are left out.
- Navigation from `MainActivity` to the submit screen is left out. `UrlExtraction.SharedUrlIsSubmitted` starts from the submit screen's initial state with the extracted URL set.

## Findings

| source | as written | input that shows it | evidently intended | confidence | as-written member | corrected member |
|---|---|---|---|---|---|---|
| shared/src/commonMain/kotlin/com/po4yka/bitesizereader/util/error/RetryUtil.kt:97-105 | `initialDelayMs * multiplier.pow(attempt).toLong()` is a 64-bit product that wraps | attempt 54 with the defaults 1000 ms, 32 000 ms and ×2 gives -432345564227567616 | the delay is capped at `maxDelayMs`, so 32 000 ms | not executed | RetryUtil.AsWrittenOverflowsAtAttempt54 | RetryUtil.BackoffGrows |
| shared/src/commonMain/kotlin/com/po4yka/bitesizereader/data/repository/AuthRepositoryImpl.kt:69-91 | a refresh answer with no new refresh token is stored as the empty string (`AuthMapper.kt:43`), replacing the stored refresh token | a signed-in storage, then a successful refresh answer whose `refreshToken` is null | the session survives a successful refresh, keeping the old refresh token | not executed | AuthRepository.RefreshWithoutRotationLogsOut | AuthRepository.RefreshKeepsSession |
| shared/src/commonMain/kotlin/com/po4yka/bitesizereader/presentation/viewmodel/SummaryListViewModel.kt:50-67 | each emission of `getSummaries` is appended once the offset has left 0, and the flow emits the cached page and then the fresh page | a first load whose cached page is [s] and whose fresh page is [s] shows [s, s] with offset 2 | the fresh page replaces the cached one, giving [s] with offset 1 | not executed | SummaryListViewModel.AsWrittenDuplicatesCachedPage | SummaryListViewModel.LastEmissionWins |
| shared/src/commonMain/kotlin/com/po4yka/bitesizereader/presentation/viewmodel/SummaryListViewModel.kt:65-67 | the offset is not advanced for a refresh page | a refresh that shows a full page of 20, followed by `loadMore`, asks for offset 0 again | `loadMore` asks for the page after the shown list, offset 20 | not executed | SummaryListViewModel.AsWrittenReloadsFirstPageAfterRefresh | SummaryListViewModel.OffsetTracksList |

=== FILE: accessibility.dfy ===
/** The screen-reader descriptions built in `AccessibilityExt.kt`: the
    summary card, stateful buttons and filter chips. The `Modifier`
    extensions only attach these strings to the UI and are not modelled. */
module Accessibility {
  import opened Text

  /** `if (isRead) "Read" else "Unread"`. */
  function ReadStatus(isRead: bool): string {
    if isRead then "Read" else "Unread"
  }

  /** The topics part: empty without tags, else the tags joined by ", ". */
  function Topics(topicTags: seq<string>): (r: string)
    ensures topicTags == [] <==> r == ""
  {
    if topicTags != [] then "Topics: " + Join(topicTags, ", ") else ""
  }

  /** `createSummaryCardDescription(…)`. The status opens it, and the
      topics close it exactly when there are tags. */
  function CardDescription(title: string, domain: string, readingTime: int, isRead: bool,
                           topicTags: seq<string>): (r: string)
    ensures StartsWith(r, ReadStatus(isRead) + " article. ")
    ensures topicTags == [] ==> r == CardHead(title, domain, readingTime, isRead)
    ensures topicTags != [] ==> r == CardHead(title, domain, readingTime, isRead) + "Topics: " + Join(topicTags, ", ")
  {
    var topics := Topics(topicTags);
    var head := CardHead(title, domain, readingTime, isRead);
    assert head[..|ReadStatus(isRead) + " article. "|] == ReadStatus(isRead) + " article. ";
    if topics != [] then head + topics else head
  }

  /** Everything before the topics. */
  function CardHead(title: string, domain: string, readingTime: int, isRead: bool): string {
    ReadStatus(isRead) + " article. " + title + ". From " + domain + ". "
    + IntToString(readingTime) + " minute read. "
  }

  /** A listener can tell a read card from an unread one by its first
      words: the description starts with "Read article. " exactly when the
      summary is read, and with "Unread article. " exactly when it is not. */
  lemma CardTellsReadStatus(title: string, domain: string, readingTime: int, isRead: bool,
                            topicTags: seq<string>)
    ensures var r := CardDescription(title, domain, readingTime, isRead, topicTags);
            && (StartsWith(r, "Read article. ") <==> isRead)
            && (StartsWith(r, "Unread article. ") <==> !isRead)
  {
    StatusOpening(CardDescription(title, domain, readingTime, isRead, topicTags), isRead);
  }

  /** Any text opened by a status phrase: its first letter tells which. */
  lemma StatusOpening(r: string, isRead: bool)
    requires StartsWith(r, ReadStatus(isRead) + " article. ")
    ensures StartsWith(r, "Read article. ") <==> isRead
    ensures StartsWith(r, "Unread article. ") <==> !isRead
  {
    var opening := ReadStatus(isRead) + " article. ";
    assert r[0] == r[..|opening|][0] == opening[0];
    if StartsWith(r, "Read article. ") {
      assert r[0] == r[..14][0] == 'R';
    }
    if StartsWith(r, "Unread article. ") {
      assert r[0] == r[..16][0] == 'U';
    }
  }

  /** Tags only ever extend the description: the tag-free description is a
      prefix of every other, and a strict one exactly when there are tags. */
  lemma TopicsOnlyExtend(title: string, domain: string, readingTime: int, isRead: bool,
                         topicTags: seq<string>)
    ensures var bare := CardDescription(title, domain, readingTime, isRead, []);
            var r := CardDescription(title, domain, readingTime, isRead, topicTags);
            && StartsWith(r, bare)
            && (|r| > |bare| <==> topicTags != [])
  {
    var bare := CardDescription(title, domain, readingTime, isRead, []);
    var r := CardDescription(title, domain, readingTime, isRead, topicTags);
    if topicTags != [] {
      var tail := "Topics: " + Join(topicTags, ", ");
      assert r == bare + tail;
      assert r[..|bare|] == bare;
    } else {
      assert r[..|bare|] == bare;
    }
  }

  /** What a button announces besides its label. Loading wins over
      disabled. */
  datatype ButtonState = Loading | Disabled | Ready

  function ButtonStateOf(isLoading: bool, isEnabled: bool): (r: ButtonState)
    ensures r == Loading <==> isLoading
    ensures r == Disabled <==> !isLoading && !isEnabled
  {
    if isLoading then Loading else if !isEnabled then Disabled else Ready
  }

  /** `createButtonDescription(label, isLoading, isEnabled)`: the label,
      then ". Loading" while loading, else ". Disabled" when disabled. */
  function ButtonDescription(caption: string, isLoading: bool, isEnabled: bool): (r: string)
    ensures StartsWith(r, caption)
    ensures isLoading ==> r[|caption|..] == ". Loading"
    ensures !isLoading && !isEnabled ==> r[|caption|..] == ". Disabled"
    ensures !isLoading && isEnabled ==> r == caption
  {
    var suffix := match ButtonStateOf(isLoading, isEnabled)
      case Loading => ". Loading"
      case Disabled => ". Disabled"
      case Ready => "";
    assert (caption + suffix)[..|caption|] == caption;
    assert (caption + suffix)[|caption|..] == suffix;
    caption + suffix
  }

  /** For one label, two descriptions are equal exactly when they announce
      the same state: enabledness is not heard while loading. */
  lemma ButtonDescriptionsAgree(caption: string, isLoading1: bool, isEnabled1: bool,
                                isLoading2: bool, isEnabled2: bool)
    ensures ButtonDescription(caption, isLoading1, isEnabled1) == ButtonDescription(caption, isLoading2, isEnabled2)
            <==> ButtonStateOf(isLoading1, isEnabled1) == ButtonStateOf(isLoading2, isEnabled2)
  {
    var r1 := ButtonDescription(caption, isLoading1, isEnabled1);
    var r2 := ButtonDescription(caption, isLoading2, isEnabled2);
    if ButtonStateOf(isLoading1, isEnabled1) != ButtonStateOf(isLoading2, isEnabled2) {
      assert |r1| != |r2|;
    }
  }

  /** `createFilterChipDescription(filter, isSelected)`. */
  function FilterChipDescription(filter: string, isSelected: bool): (r: string)
    ensures StartsWith(r, filter + " filter, ")
    ensures isSelected ==> r[|filter| + 9..] == "selected"
    ensures !isSelected ==> r[|filter| + 9..] == "not selected"
  {
    var state := if isSelected then "selected" else "not selected";
    var r := filter + " filter, " + state;
    assert r[..|filter| + 9] == filter + " filter, ";
    assert r[|filter| + 9..] == state;
    r
  }

  /** Reading a chip's description back: whether it says "selected" with
      nothing before it. */
  predicate SaysSelected(r: string) {
    |r| >= 10 && r[|r| - 10..] != "t selected"
  }

  /** Reading a chip's description back: the filter name before the
      " filter, " part. */
  function FilterOf(r: string): string {
    var cut := if SaysSelected(r) then 17 else 21;
    if |r| >= cut then r[..|r| - cut] else ""
  }

  /** A chip's description announces its filter and its state, both
      recoverable from the words alone. */
  lemma FilterChipRoundTrip(filter: string, isSelected: bool)
    ensures SaysSelected(FilterChipDescription(filter, isSelected)) == isSelected
    ensures FilterOf(FilterChipDescription(filter, isSelected)) == filter
  {
    var r := FilterChipDescription(filter, isSelected);
    var n := |filter|;
    if isSelected {
      assert |r| == n + 17;
      assert r[|r| - 10..][0] == ',';
    } else {
      assert |r| == n + 21;
      assert r[|r| - 10..] == "t selected";
    }
    assert r[..n] == filter;
  }

  /** Distinct chips are announced differently. */
  lemma FilterChipsAreDistinguishable(f1: string, s1: bool, f2: string, s2: bool)
    requires f1 != f2 || s1 != s2
    ensures FilterChipDescription(f1, s1) != FilterChipDescription(f2, s2)
  {
    FilterChipRoundTrip(f1, s1);
    FilterChipRoundTrip(f2, s2);
  }
}

=== FILE: app_error.dfy ===
/** The application's error taxonomy, the mapping from a caught exception to
    it, and which errors are worth retrying. */
module AppErrors {
  import opened Wrappers
  import opened Text

  const NetworkDefaultMessage := "Network error. Please check your connection."
  const ServerDefaultMessage := "Server error. Please try again later."
  const UnauthorizedDefaultMessage := "Session expired. Please login again."
  const NotFoundDefaultMessage := "Resource not found."
  const DatabaseDefaultMessage := "Database error occurred."
  const UnknownDefaultMessage := "An unexpected error occurred."
  /** The default message of a rate-limit error; its declaration is not part
      of this model, so this text stands in for it. */
  const RateLimitDefaultMessage := "Too many requests. Please try again later."

  /** `AppError`: every variant carries the message shown to the user. The
      `isTimeout` flag and the rate-limit variant are the ones the HTTP
      status table constructs. */
  datatype AppError =
    | NetworkError(message: string, isTimeout: bool)
    | ServerError(message: string, statusCode: Option<int>)
    | UnauthorizedError(message: string)
    | NotFoundError(message: string)
    | ValidationError(message: string, field: Option<string>)
    | DatabaseError(message: string)
    | RateLimitError(message: string)
    | UnknownError(message: string)

  /** `Throwable.toAppError()` on an exception with the given message: the
      first of "network", "401", "404" and "5" the message contains, ignoring
      case, picks the error; without a match (or a message) the error is
      unknown and carries the message, or "Unknown error". */
  function ThrowableToAppError(message: Option<string>): (r: AppError)
    ensures r.NetworkError? <==> message.Some? && ContainsIgnoreCase(message.value, "network")
    ensures r.UnauthorizedError? <==>
              message.Some? && !ContainsIgnoreCase(message.value, "network")
              && ContainsIgnoreCase(message.value, "401")
    ensures r.NotFoundError? <==>
              message.Some? && !ContainsIgnoreCase(message.value, "network")
              && !ContainsIgnoreCase(message.value, "401") && ContainsIgnoreCase(message.value, "404")
    ensures r.ServerError? <==>
              message.Some? && !ContainsIgnoreCase(message.value, "network")
              && !ContainsIgnoreCase(message.value, "401") && !ContainsIgnoreCase(message.value, "404")
              && ContainsIgnoreCase(message.value, "5")
    ensures r.UnknownError? ==> r.message == message.GetOr("Unknown error")
    ensures r.NetworkError? ==> r == NetworkError(NetworkDefaultMessage, false)
    ensures r.ServerError? ==> r == ServerError(ServerDefaultMessage, None)
    ensures r.NetworkError? || r.UnauthorizedError? || r.NotFoundError? || r.ServerError? || r.UnknownError?
  {
    match message
    case None => UnknownError("Unknown error")
    case Some(m) =>
      if ContainsIgnoreCase(m, "network") then NetworkError(NetworkDefaultMessage, false)
      else if ContainsIgnoreCase(m, "401") then UnauthorizedError(UnauthorizedDefaultMessage)
      else if ContainsIgnoreCase(m, "404") then NotFoundError(NotFoundDefaultMessage)
      else if ContainsIgnoreCase(m, "5") then ServerError(ServerDefaultMessage, None)
      else UnknownError(m)
  }

  /** `AppError.getUserMessage()`. */
  function UserMessage(e: AppError): (r: string)
    ensures r == e.message
  {
    e.message
  }

  /** `AppError.isRetryable()`: network errors always; server errors only
      when they carry a 5xx status code; nothing else. */
  predicate IsRetryable(e: AppError) {
    match e
    case NetworkError(_, _) => true
    case ServerError(_, code) => code.Some? && 500 <= code.value <= 599
    case _ => false
  }

  /** A server error made from an exception has no status code, so it is
      never retried: of the errors an exception maps to, only the network
      one is retryable. */
  lemma ThrownRetryableIffNetwork(message: Option<string>)
    ensures ThrowableToAppError(message).ServerError? ==> !IsRetryable(ThrowableToAppError(message))
    ensures IsRetryable(ThrowableToAppError(message)) <==>
              message.Some? && ContainsIgnoreCase(message.value, "network")
  {
  }

  /** The user message of any mapped exception is the one the error carries;
      an exception no keyword matches shows its own message. */
  lemma UnmatchedMessageShownVerbatim(m: string)
    requires !ContainsIgnoreCase(m, "network") && !ContainsIgnoreCase(m, "401")
    requires !ContainsIgnoreCase(m, "404") && !ContainsIgnoreCase(m, "5")
    ensures UserMessage(ThrowableToAppError(Some(m))) == m
  {
  }

  /** A message mentioning "NETWORK" in any letter case is a network error,
      even when it also names a status code. */
  lemma NetworkWinsOverCodes(prefix: string, w: string, suffix: string)
    requires Lower(w) == "network"
    ensures ThrowableToAppError(Some(prefix + w + suffix)).NetworkError?
  {
    var m := prefix + w + suffix;
    assert Lower(m)[|prefix|..|prefix| + 7] == Lower(w);
    assert Lower("network") == "network";
    assert OccursAt(Lower(m), Lower("network"), |prefix|);
  }
}

=== FILE: auth_mapper.dfy ===
/** Authentication DTOs to tokens and users, and the two request bodies of
    the auth endpoints. `now` is the clock reading the mappers take. */
module AuthMapper {
  import opened Wrappers
  import opened Domain
  import opened Dto

  const MillisPerSecond := 1000

  function UserDtoToDomain(dto: UserDto): (r: User)
    ensures r.id == dto.id && r.username == dto.username && r.firstName == dto.firstName
    ensures r.lastName == dto.lastName && r.photoUrl == dto.photoUrl && r.isOwner == dto.isOwner
  {
    User(dto.id, dto.username, dto.firstName, dto.lastName, dto.photoUrl, dto.isOwner)
  }

  /** The user a `UserDto` was made from: the mapping loses nothing. */
  function UserToDto(user: User): UserDto {
    UserDto(user.id, user.username, user.firstName, user.lastName, user.photoUrl, user.isOwner)
  }

  lemma UserMappingRoundTrip(dto: UserDto, user: User)
    ensures UserToDto(UserDtoToDomain(dto)) == dto
    ensures UserDtoToDomain(UserToDto(user)) == user
  {
  }

  /** The instant a token issued at `now` expires, `expiresIn` seconds later. */
  function ExpiryAfter(now: Instant, expiresIn: int): (r: Instant)
    ensures r - now == expiresIn * MillisPerSecond
  {
    now + expiresIn * MillisPerSecond
  }

  /** `AuthResponseDto.toDomain()`: both tokens are kept as sent, and the
      user is mapped field for field. */
  function AuthResponseToDomain(dto: AuthResponseDto, now: Instant): (r: (AuthTokens, User))
    ensures r.0.accessToken == dto.accessToken && r.0.refreshToken == dto.refreshToken
    ensures r.0.tokenType == dto.tokenType && r.0.expiresIn == dto.expiresIn
    ensures r.0.expiresAt - now == dto.expiresIn * MillisPerSecond
    ensures UserToDto(r.1) == dto.user
  {
    (AuthTokens(dto.accessToken, dto.refreshToken, dto.tokenType, dto.expiresIn, ExpiryAfter(now, dto.expiresIn)),
     UserDtoToDomain(dto.user))
  }

  /** `TokenRefreshResponseDto.toAuthTokens(currentTime)`: a refresh that
      issues no new refresh token yields an empty one. */
  function RefreshToAuthTokens(dto: TokenRefreshResponseDto, now: Instant): (r: AuthTokens)
    ensures r.accessToken == dto.accessToken && r.tokenType == dto.tokenType && r.expiresIn == dto.expiresIn
    ensures dto.refreshToken.Some? ==> r.refreshToken == dto.refreshToken.value
    ensures dto.refreshToken.None? ==> r.refreshToken == ""
    ensures r.expiresAt - now == dto.expiresIn * MillisPerSecond
  {
    AuthTokens(dto.accessToken, dto.refreshToken.GetOr(""), dto.tokenType, dto.expiresIn, ExpiryAfter(now, dto.expiresIn))
  }

  /** A refresh response and a login response with the same tokens and
      lifetime give the same tokens. */
  lemma RefreshAgreesWithLogin(refresh: TokenRefreshResponseDto, login: AuthResponseDto, now: Instant)
    requires refresh.refreshToken == Some(login.refreshToken)
    requires refresh.accessToken == login.accessToken && refresh.tokenType == login.tokenType
    requires refresh.expiresIn == login.expiresIn
    ensures RefreshToAuthTokens(refresh, now) == AuthResponseToDomain(login, now).0
  {
  }

  /** `createTelegramLoginRequest(…)`. */
  function CreateTelegramLoginRequest(
    telegramUserId: int, authHash: string, authDate: int, username: Option<string>,
    firstName: Option<string>, lastName: Option<string>, photoUrl: Option<string>, clientId: string)
    : (r: TelegramLoginRequestDto)
    ensures r.telegramUserId == telegramUserId && r.authHash == authHash && r.authDate == authDate
    ensures r.username == username && r.firstName == firstName && r.lastName == lastName
    ensures r.photoUrl == photoUrl && r.clientId == clientId
  {
    TelegramLoginRequestDto(telegramUserId, authHash, authDate, username, firstName, lastName, photoUrl, clientId)
  }

  /** `String.toTokenRefreshRequest()`. */
  function ToTokenRefreshRequest(refreshToken: string): (r: TokenRefreshRequestDto)
    ensures r.refreshToken == refreshToken
  {
    TokenRefreshRequestDto(refreshToken)
  }
}

=== FILE: auth_repository.dfy ===
/** `AuthRepositoryImpl`: login, token refresh and logout over the secure
    key/value storage. Calls to the auth endpoints are inputs; `now` is the
    clock reading the token mapper takes. */
module AuthRepository {
  import opened Wrappers
  import opened Text
  import opened Domain
  import opened Dto
  import opened SecureStorage
  import opened AuthMapper

  const UserIdKey := "user_id"
  const TokenExpiresAtKey := "token_expires_at"

  /** `isNullOrEmpty()`. */
  predicate IsNullOrEmpty(s: Option<string>) {
    s.None? || s.value == ""
  }

  /** `isAuthenticated()`: both tokens are stored and non-empty. */
  predicate IsAuthenticated(st: Storage) {
    !IsNullOrEmpty(GetAccessToken(st)) && !IsNullOrEmpty(GetRefreshToken(st))
  }

  /** `getTokens()`: the (access, refresh) pair exactly when authenticated. */
  function GetTokens(st: Storage): (r: Option<(string, string)>)
    ensures r.Some? <==> IsAuthenticated(st)
    ensures r.Some? ==> Some(r.value.0) == GetAccessToken(st) && Some(r.value.1) == GetRefreshToken(st)
    ensures r.Some? ==> r.value.0 != "" && r.value.1 != ""
  {
    if IsAuthenticated(st) then Some((GetAccessToken(st).value, GetRefreshToken(st).value)) else None
  }

  /** `storeTokens(authTokens)`: both tokens and the expiry instant. */
  function StoreTokens(st: Storage, tokens: AuthTokens): (r: Storage)
    ensures GetAccessToken(r) == Some(tokens.accessToken)
    ensures GetRefreshToken(r) == Some(tokens.refreshToken)
    ensures GetString(r, TokenExpiresAtKey) == Some(InstantText(tokens.expiresAt))
    ensures forall k :: k != AccessTokenKey && k != RefreshTokenKey && k != TokenExpiresAtKey ==>
              GetString(r, k) == GetString(st, k)
  {
    SaveString(SaveRefreshToken(SaveAccessToken(st, tokens.accessToken), tokens.refreshToken),
               TokenExpiresAtKey, InstantText(tokens.expiresAt))
  }

  /** After storing tokens the user is authenticated exactly when both are non-empty. */
  lemma StoredTokensAuthenticate(st: Storage, tokens: AuthTokens)
    ensures IsAuthenticated(StoreTokens(st, tokens)) <==> tokens.accessToken != "" && tokens.refreshToken != ""
    ensures IsAuthenticated(StoreTokens(st, tokens)) ==>
              GetTokens(StoreTokens(st, tokens)) == Some((tokens.accessToken, tokens.refreshToken))
  {
  }

  /** `logout()`: the tokens, the user id and the expiry are removed. */
  function Logout(st: Storage): (r: Storage)
    ensures GetAccessToken(r) == None && GetRefreshToken(r) == None
    ensures GetString(r, UserIdKey) == None && GetString(r, TokenExpiresAtKey) == None
    ensures forall k :: k !in {AccessTokenKey, RefreshTokenKey, UserIdKey, TokenExpiresAtKey} ==>
              GetString(r, k) == GetString(st, k)
  {
    Remove(Remove(ClearTokens(st), UserIdKey), TokenExpiresAtKey)
  }

  /** Logging out always leaves the user unauthenticated, whatever was stored. */
  lemma LogoutDeauthenticates(st: Storage)
    ensures !IsAuthenticated(Logout(st))
    ensures GetTokens(Logout(st)).None?
  {
  }

  /** `loginWithTelegram(…)`: on a usable answer the tokens and the user's
      id are stored and returned; otherwise the storage is untouched and
      the failure carries the server's message, "Login failed", or the
      exception thrown. */
  function LoginWithTelegram(st: Storage, call: ApiCall<AuthResponseDto>, now: Instant)
    : (r: (Result<(AuthTokens, User)>, Storage))
    ensures call.Answered? && Usable(call.response) ==>
              r.0 == Success(AuthResponseToDomain(call.response.data.value, now))
              && r.1 == SaveString(StoreTokens(st, r.0.value.0), UserIdKey, IntToString(r.0.value.1.id))
    ensures call.Answered? && !Usable(call.response) ==>
              r.0 == Failure(PlainException(call.response.errorMessage.GetOr("Login failed"))) && r.1 == st
    ensures call.Threw? ==> r.0 == Failure(call.exception) && r.1 == st
  {
    match call
    case Threw(e) => (Failure(e), st)
    case Answered(response) =>
      if Usable(response) then
        var (tokens, user) := AuthResponseToDomain(response.data.value, now);
        (Success((tokens, user)), SaveString(StoreTokens(st, tokens), UserIdKey, IntToString(user.id)))
      else (ServerFailure(response, "Login failed"), st)
  }

  /** A successful login with non-empty tokens authenticates the user and
      records their id. */
  lemma LoginAuthenticates(st: Storage, call: ApiCall<AuthResponseDto>, now: Instant)
    requires call.Answered? && Usable(call.response)
    requires call.response.data.value.accessToken != "" && call.response.data.value.refreshToken != ""
    ensures IsAuthenticated(LoginWithTelegram(st, call, now).1)
    ensures GetString(LoginWithTelegram(st, call, now).1, UserIdKey) == Some(IntToString(call.response.data.value.user.id))
  {
  }

  /** `refreshToken(refreshToken)` as written: the refreshed tokens replace
      the stored ones, an absent new refresh token included. */
  function RefreshTokenAsWritten(st: Storage, call: ApiCall<TokenRefreshResponseDto>, now: Instant)
    : (r: (Result<AuthTokens>, Storage))
    ensures call.Answered? && Usable(call.response) ==>
              r.0 == Success(RefreshToAuthTokens(call.response.data.value, now)) && r.1 == StoreTokens(st, r.0.value)
    ensures !(call.Answered? && Usable(call.response)) ==> r.0.Failure? && r.1 == st
    ensures call.Answered? && !Usable(call.response) ==>
              r.0 == Failure(PlainException(call.response.errorMessage.GetOr("Token refresh failed")))
    ensures call.Threw? ==> r.0 == Failure(call.exception)
  {
    match call
    case Threw(e) => (Failure(e), st)
    case Answered(response) =>
      if Usable(response) then
        var tokens := RefreshToAuthTokens(response.data.value, now);
        (Success(tokens), StoreTokens(st, tokens))
      else (ServerFailure(response, "Token refresh failed"), st)
  }

  /** A refresh whose answer issues no new refresh token overwrites the
      stored one with "", so a user who was authenticated no longer is. */
  lemma RefreshWithoutRotationLogsOut(st: Storage, refreshToken: string, now: Instant)
    requires IsAuthenticated(st)
    ensures var call := Answered(ApiResponse(true, Some(TokenRefreshResponseDto("new-access", "Bearer", 3600, None)), None));
            !IsAuthenticated(RefreshTokenAsWritten(st, call, now).1)
  {
  }

  /** `refreshToken(refreshToken)` keeping the refresh token it was given
      when the server issues no new one. */
  function RefreshTokenIntended(st: Storage, refreshToken: string, call: ApiCall<TokenRefreshResponseDto>, now: Instant)
    : (r: (Result<AuthTokens>, Storage))
    ensures call.Answered? && Usable(call.response) ==>
              var dto := call.response.data.value;
              r.0.Success? && r.1 == StoreTokens(st, r.0.value)
              && r.0.value.refreshToken == dto.refreshToken.GetOr(refreshToken)
              && r.0.value.accessToken == dto.accessToken
              && r.0.value.expiresAt - now == dto.expiresIn * MillisPerSecond
    ensures call.Answered? && !Usable(call.response) ==>
              r.0 == Failure(PlainException(call.response.errorMessage.GetOr("Token refresh failed"))) && r.1 == st
    ensures call.Threw? ==> r.0 == Failure(call.exception) && r.1 == st
  {
    match call
    case Threw(e) => (Failure(e), st)
    case Answered(response) =>
      if Usable(response) then
        var dto := response.data.value;
        var tokens := RefreshToAuthTokens(dto, now).(refreshToken := dto.refreshToken.GetOr(refreshToken));
        (Success(tokens), StoreTokens(st, tokens))
      else (ServerFailure(response, "Token refresh failed"), st)
  }

  /** Refreshing with the stored refresh token keeps an authenticated user
      authenticated whenever the new access token is non-empty. */
  lemma RefreshKeepsSession(st: Storage, call: ApiCall<TokenRefreshResponseDto>, now: Instant)
    requires IsAuthenticated(st)
    requires call.Answered? && Usable(call.response) && call.response.data.value.accessToken != ""
    requires call.response.data.value.refreshToken != Some("")
    ensures IsAuthenticated(RefreshTokenIntended(st, GetRefreshToken(st).value, call, now).1)
  {
  }

  /** `getCurrentUser()`. */
  function GetCurrentUser(call: ApiCall<UserDto>): (r: Result<User>)
    ensures call.Answered? && Usable(call.response) ==> r == Success(UserDtoToDomain(call.response.data.value))
    ensures call.Answered? && !Usable(call.response) ==>
              r == Failure(PlainException(call.response.errorMessage.GetOr("Failed to get user")))
    ensures call.Threw? ==> r == Failure(call.exception)
  {
    match call
    case Threw(e) => Failure(e)
    case Answered(response) =>
      if Usable(response) then Success(UserDtoToDomain(response.data.value))
      else ServerFailure(response, "Failed to get user")
  }

  /** The user `getCurrentUser()` returns for a user record is the one a
      login answer carrying the same record returns. */
  lemma CurrentUserMatchesLogin(st: Storage, login: ApiCall<AuthResponseDto>, me: ApiCall<UserDto>, now: Instant)
    requires login.Answered? && Usable(login.response)
    requires me.Answered? && Usable(me.response)
    requires me.response.data.value == login.response.data.value.user
    ensures GetCurrentUser(me) == Success(LoginWithTelegram(st, login, now).0.value.1)
  {
  }
}

=== FILE: collections.dfy ===
/** The Kotlin collection operations the repositories rely on:
    `distinctBy`, `take` and counting occurrences. */
module Collections {
  import Text

  /** `xs[i]` is the first element of `xs` with its key. */
  predicate FirstOf<T, K(==)>(xs: seq<T>, key: T -> K, i: int)
    requires 0 <= i < |xs|
  {
    forall k :: 0 <= k < i ==> key(xs[k]) != key(xs[i])
  }

  /** No two elements of `ys` share a key. */
  predicate DistinctKeys<T, K(==)>(ys: seq<T>, key: T -> K) {
    forall i, j :: 0 <= i < j < |ys| ==> key(ys[i]) != key(ys[j])
  }

  /** The first occurrences among the first `n` elements, in order. */
  function DistinctPrefix<T, K(==)>(xs: seq<T>, key: T -> K, n: nat): seq<T>
    requires n <= |xs|
  {
    if n == 0 then []
    else DistinctPrefix(xs, key, n - 1) + (if FirstOf(xs, key, n - 1) then [xs[n - 1]] else [])
  }

  /** The positions `DistinctPrefix` keeps: increasing, each a first
      occurrence, and every first occurrence below `n` among them. */
  lemma {:induction false} DistinctPrefixIndices<T, K>(xs: seq<T>, key: T -> K, n: nat) returns (idx: seq<nat>)
    requires n <= |xs|
    ensures |idx| == |DistinctPrefix(xs, key, n)|
    ensures forall m :: 0 <= m < |idx| ==>
              idx[m] < n && FirstOf(xs, key, idx[m]) && DistinctPrefix(xs, key, n)[m] == xs[idx[m]]
    ensures forall a, b :: 0 <= a < b < |idx| ==> idx[a] < idx[b]
    ensures forall j :: 0 <= j < n && FirstOf(xs, key, j) ==> j in idx
  {
    if n == 0 {
      idx := [];
    } else {
      var prev := DistinctPrefixIndices(xs, key, n - 1);
      var d := DistinctPrefix(xs, key, n - 1);
      if FirstOf(xs, key, n - 1) {
        idx := prev + [n - 1];
        assert DistinctPrefix(xs, key, n) == d + [xs[n - 1]];
        forall m | 0 <= m < |prev|
          ensures idx[m] == prev[m] && DistinctPrefix(xs, key, n)[m] == d[m]
        {
        }
      } else {
        idx := prev;
        assert DistinctPrefix(xs, key, n) == d;
      }
    }
  }

  /** Every element has a first occurrence of its key at or before it. */
  lemma {:induction false} FirstOccurrence<T, K>(xs: seq<T>, key: T -> K, j: int) returns (i: nat)
    requires 0 <= j < |xs|
    ensures i <= j && key(xs[i]) == key(xs[j]) && FirstOf(xs, key, i)
    decreases j
  {
    if FirstOf(xs, key, j) {
      i := j;
    } else {
      var k :| 0 <= k < j && key(xs[k]) == key(xs[j]);
      i := FirstOccurrence(xs, key, k);
    }
  }

  /** What the kept positions mean for the kept elements. */
  lemma DistinctPrefixFacts<T, K>(xs: seq<T>, key: T -> K)
    ensures var r := DistinctPrefix(xs, key, |xs|);
            && DistinctKeys(r, key)
            && (forall x :: x in r ==> x in xs)
            && (forall j :: 0 <= j < |xs| && FirstOf(xs, key, j) ==> xs[j] in r)
            && (forall x, j :: x in r && 0 <= j < |xs| && FirstOf(xs, key, j) && key(xs[j]) == key(x) ==> x == xs[j])
  {
    var r := DistinctPrefix(xs, key, |xs|);
    var idx := DistinctPrefixIndices(xs, key, |xs|);
    forall j | 0 <= j < |xs| && FirstOf(xs, key, j)
      ensures xs[j] in r
    {
      var m :| 0 <= m < |idx| && idx[m] == j;
      assert r[m] == xs[j];
    }
    forall x | x in r
      ensures x in xs
    {
      var m :| 0 <= m < |r| && r[m] == x;
      assert x == xs[idx[m]];
    }
    forall a, b | 0 <= a < b < |r|
      ensures key(r[a]) != key(r[b])
    {
      assert idx[a] < idx[b] && FirstOf(xs, key, idx[b]);
    }
    forall x, j | x in r && 0 <= j < |xs| && FirstOf(xs, key, j) && key(xs[j]) == key(x)
      ensures x == xs[j]
    {
      var m :| 0 <= m < |r| && r[m] == x;
      var i := idx[m];
      assert x == xs[i] && FirstOf(xs, key, i);
      assert !(i < j) && !(j < i);
    }
  }

  /** `distinctBy(key)`: the first element of each key, in order. */
  function DistinctBy<T(==), K(==)>(xs: seq<T>, key: T -> K): (r: seq<T>)
    ensures DistinctKeys(r, key)
    ensures forall x :: x in r ==> x in xs
    ensures forall j :: 0 <= j < |xs| && FirstOf(xs, key, j) ==> xs[j] in r
    ensures forall x, j :: x in r && 0 <= j < |xs| && FirstOf(xs, key, j) && key(xs[j]) == key(x) ==> x == xs[j]
  {
    DistinctPrefixFacts(xs, key);
    DistinctPrefix(xs, key, |xs|)
  }

  /** Every key of `xs` survives `distinctBy`, carried by its first element. */
  lemma DistinctByKeepsEveryKey<T, K>(xs: seq<T>, key: T -> K, j: int) returns (i: nat)
    requires 0 <= j < |xs|
    ensures i <= j && key(xs[i]) == key(xs[j]) && xs[i] in DistinctBy(xs, key)
  {
    i := FirstOccurrence(xs, key, j);
  }

  /** `take(n)` for a count the caller has checked to be non-negative. */
  function Take<T>(xs: seq<T>, n: nat): (r: seq<T>)
    ensures |r| <= n && |r| <= |xs|
    ensures |r| < n ==> r == xs
    ensures r == xs[..|r|]
    ensures forall i :: 0 <= i < |r| ==> r[i] == xs[i]
    ensures forall x :: x in r ==> x in xs
  {
    if n < |xs| then xs[..n] else xs
  }

  /** The message `take` throws with for a negative count. */
  function NegativeTakeMessage(n: int): string
    requires n < 0
  {
    "Requested element count " + Text.IntToString(n) + " is less than zero."
  }

  /** Occurrences of `x` among the first `n` elements of `xs`. */
  function CountPrefix<T(==)>(xs: seq<T>, n: nat, x: T): nat
    requires n <= |xs|
  {
    if n == 0 then 0 else CountPrefix(xs, n - 1, x) + (if xs[n - 1] == x then 1 else 0)
  }

  /** Occurrences of `x` in `xs`. */
  function Count<T(==)>(xs: seq<T>, x: T): nat {
    CountPrefix(xs, |xs|, x)
  }

  /** A prefix count is zero exactly when `x` is absent from that prefix. */
  lemma {:induction false} CountPrefixZero<T>(xs: seq<T>, n: nat, x: T)
    requires n <= |xs|
    ensures CountPrefix(xs, n, x) == 0 <==> forall j :: 0 <= j < n ==> xs[j] != x
  {
    if n > 0 {
      CountPrefixZero(xs, n - 1, x);
    }
  }

  /** `x` occurs in `xs` exactly when it is counted. */
  lemma CountPositive<T>(xs: seq<T>, x: T)
    ensures Count(xs, x) > 0 <==> x in xs
  {
    CountPrefixZero(xs, |xs|, x);
  }
}

=== FILE: database.dfy ===
/** The local SQL cache: summary and request rows as `DatabaseHelper`
    writes them and the repositories read them back, plus the sync
    metadata table. Booleans are stored as 1/0, enums by name; JSON columns
    hold the decoded lists and records, timestamps the parsed instants. */
module Database {
  import opened Wrappers
  import opened Text
  import opened Domain
  import RequestMapper

  /** A Kotlin `Boolean` in an integer column. */
  function EncodeBool(b: bool): (r: int)
    ensures r == 0 || r == 1
  {
    if b then 1 else 0
  }

  /** The repositories' `column == 1L` test. */
  predicate DecodeBool(n: int) {
    n == 1
  }

  /** Storing a flag and reading it back gives the flag; any stored value
      other than 1 reads as false. */
  lemma BoolRoundTrip(b: bool, n: int)
    ensures DecodeBool(EncodeBool(b)) == b
    ensures DecodeBool(n) <==> n == 1
  {
  }

  /** `Enum.name` of each stored enum. */
  function TypeName(t: RequestType): string {
    match t
    case Url => "URL"
    case YoutubeVideo => "YOUTUBE_VIDEO"
  }

  function StatusName(s: RequestStatus): string {
    match s
    case Pending => "PENDING"
    case Processing => "PROCESSING"
    case Completed => "COMPLETED"
    case Error => "ERROR"
    case Cancelled => "CANCELLED"
  }

  function StageName(s: ProcessingStage): string {
    match s
    case ContentExtraction => "CONTENT_EXTRACTION"
    case LlmSummarization => "LLM_SUMMARIZATION"
    case Validation => "VALIDATION"
    case Done => "DONE"
  }

  function SyncStatusName(s: SyncStatus): string {
    match s
    case Synced => "SYNCED"
    case PendingUpload => "PENDING_UPLOAD"
    case Conflict => "CONFLICT"
  }

  /** `Enum.valueOf(name)`: the constant with exactly that name; any other
      string throws, which is `None` here. */
  function TypeValueOf(name: string): (r: Option<RequestType>)
    ensures r.Some? ==> TypeName(r.value) == name
    ensures forall t :: TypeName(t) == name ==> r == Some(t)
  {
    if name == "URL" then Some(Url)
    else if name == "YOUTUBE_VIDEO" then Some(YoutubeVideo)
    else None
  }

  function StatusValueOf(name: string): (r: Option<RequestStatus>)
    ensures r.Some? ==> StatusName(r.value) == name
    ensures forall s :: StatusName(s) == name ==> r == Some(s)
  {
    if name == "PENDING" then Some(Pending)
    else if name == "PROCESSING" then Some(Processing)
    else if name == "COMPLETED" then Some(Completed)
    else if name == "ERROR" then Some(Error)
    else if name == "CANCELLED" then Some(Cancelled)
    else None
  }

  function StageValueOf(name: string): (r: Option<ProcessingStage>)
    ensures r.Some? ==> StageName(r.value) == name
    ensures forall s :: StageName(s) == name ==> r == Some(s)
  {
    if name == "CONTENT_EXTRACTION" then Some(ContentExtraction)
    else if name == "LLM_SUMMARIZATION" then Some(LlmSummarization)
    else if name == "VALIDATION" then Some(Validation)
    else if name == "DONE" then Some(Done)
    else None
  }

  function SyncStatusValueOf(name: string): (r: Option<SyncStatus>)
    ensures r.Some? ==> SyncStatusName(r.value) == name
    ensures forall s :: SyncStatusName(s) == name ==> r == Some(s)
  {
    if name == "SYNCED" then Some(Synced)
    else if name == "PENDING_UPLOAD" then Some(PendingUpload)
    else if name == "CONFLICT" then Some(Conflict)
    else None
  }

  /** The stored names are the upper-case forms of the wire names, so a
      stored name read by the case-insensitive wire reader gives back the
      same constant, while a wire name is not a valid stored name. */
  lemma StoredStatusNamesMatchWireNames(s: RequestStatus)
    ensures Lower(StatusName(s)) == RequestMapper.StatusWireName(s)
    ensures RequestMapper.ToRequestStatus(StatusName(s)) == s
    ensures StatusValueOf(RequestMapper.StatusWireName(s)).None?
  {
    StatusNamesLower(s);
    assert RequestMapper.StatusWireName(s) != StatusName(s);
  }

  lemma StatusNamesLower(s: RequestStatus)
    ensures Lower(StatusName(s)) == RequestMapper.StatusWireName(s)
  {
    match s
    case Pending => assert Lower("PENDING") == "pending";
    case Processing => assert Lower("PROCESSING") == "processing";
    case Completed => assert Lower("COMPLETED") == "completed";
    case Error => assert Lower("ERROR") == "error";
    case Cancelled => assert Lower("CANCELLED") == "cancelled";
  }

  lemma StoredTypeNamesMatchWireNames(t: RequestType)
    ensures RequestMapper.ToRequestType(TypeName(t)) == t
  {
    match t
    case Url => assert Lower("URL") == "url";
    case YoutubeVideo => assert Lower("YOUTUBE_VIDEO") == "youtube_video";
  }

  /** The stored stage names are the upper-case wire names. */
  lemma StoredStageNamesLowerToWireNames(g: ProcessingStage)
    ensures Lower(StageName(g)) == RequestMapper.StageWireName(g)
  {
    match g
    case ContentExtraction => assert Lower("CONTENT_EXTRACTION") == "content_extraction";
    case LlmSummarization => assert Lower("LLM_SUMMARIZATION") == "llm_summarization";
    case Validation => assert Lower("VALIDATION") == "validation";
    case Done => assert Lower("DONE") == "done";
  }

  lemma StoredStageNamesMatchWireNames(g: ProcessingStage)
    ensures RequestMapper.ToProcessingStage(StageName(g)) == g
  {
    StoredStageNamesLowerToWireNames(g);
  }

  /** A row of the `Summary` table. */
  datatype SummaryRow = SummaryRow(
    id: int,
    requestId: int,
    title: string,
    url: string,
    domain: Option<string>,
    tldr: string,
    summary250: string,
    summary1000: Option<string>,
    keyIdeas: seq<string>,
    topicTags: seq<string>,
    answeredQuestions: seq<string>,
    seoKeywords: seq<string>,
    readingTimeMin: int,
    lang: string,
    entities: Option<Entities>,
    keyStats: seq<KeyStat>,
    readability: Option<Readability>,
    isRead: int,
    isFavorite: int,
    createdAt: Instant,
    updatedAt: Option<Instant>,
    syncStatus: string,
    locallyModified: int)

  /** A row of the `Request` table. */
  datatype RequestRow = RequestRow(
    id: int,
    inputUrl: string,
    requestType: string,
    status: string,
    stage: Option<string>,
    progress: int,
    langPreference: string,
    summaryId: Option<int>,
    errorMessage: Option<string>,
    canRetry: int,
    estimatedSecondsRemaining: Option<int>,
    createdAt: Instant,
    updatedAt: Option<Instant>,
    completedAt: Option<Instant>)

  /** The column values `insertSummary` writes for a summary. */
  function SummaryToRow(s: Summary): (r: SummaryRow)
    ensures r.id == s.id && r.syncStatus == SyncStatusName(s.syncStatus)
    ensures r.isRead == EncodeBool(s.isRead) && r.isFavorite == EncodeBool(s.isFavorite)
    ensures r.locallyModified == EncodeBool(s.locallyModified)
  {
    SummaryRow(
      s.id, s.requestId, s.title, s.url, s.domain, s.tldr, s.summary250, s.summary1000,
      s.keyIdeas, s.topicTags, s.answeredQuestions, s.seoKeywords, s.readingTimeMin, s.lang,
      s.entities, s.keyStats, s.readability, EncodeBool(s.isRead), EncodeBool(s.isFavorite),
      s.createdAt, s.updatedAt, SyncStatusName(s.syncStatus), EncodeBool(s.locallyModified))
  }

  /** `mapDbSummaryToDomain(row)`: flags are `== 1`, the sync status goes
      through `valueOf`, which throws (`None`) on an unknown name. */
  function RowToSummary(row: SummaryRow): (r: Option<Summary>)
    ensures r.None? <==> SyncStatusValueOf(row.syncStatus).None?
    ensures r.Some? ==> r.value.id == row.id && r.value.isRead == DecodeBool(row.isRead)
    ensures r.Some? ==> r.value.isFavorite == DecodeBool(row.isFavorite)
    ensures r.Some? ==> r.value.locallyModified == DecodeBool(row.locallyModified)
    ensures r.Some? ==> SyncStatusName(r.value.syncStatus) == row.syncStatus
  {
    match SyncStatusValueOf(row.syncStatus)
    case None => None
    case Some(status) =>
      Some(Summary(
        row.id, row.requestId, row.title, row.url, row.domain, row.tldr, row.summary250,
        row.summary1000, row.keyIdeas, row.topicTags, row.answeredQuestions, row.seoKeywords,
        row.readingTimeMin, row.lang, row.entities, row.keyStats, row.readability,
        DecodeBool(row.isRead), DecodeBool(row.isFavorite), row.createdAt, row.updatedAt,
        status, DecodeBool(row.locallyModified)))
  }

  /** A stored summary reads back as itself. */
  lemma SummaryRowRoundTrip(s: Summary)
    ensures RowToSummary(SummaryToRow(s)) == Some(s)
  {
  }

  /** The column values `insertRequest` writes for a request. */
  function RequestToRow(q: Request): (r: RequestRow)
    ensures r.id == q.id && r.inputUrl == q.inputUrl
    ensures r.requestType == TypeName(q.requestType) && r.status == StatusName(q.status)
    ensures q.stage.None? <==> r.stage.None?
    ensures q.stage.Some? ==> r.stage.value == StageName(q.stage.value)
    ensures r.canRetry == EncodeBool(q.canRetry)
  {
    RequestRow(
      q.id, q.inputUrl, TypeName(q.requestType), StatusName(q.status),
      if q.stage.Some? then Some(StageName(q.stage.value)) else None,
      q.progress, q.langPreference, q.summaryId, q.errorMessage, EncodeBool(q.canRetry),
      q.estimatedSecondsRemaining, q.createdAt, q.updatedAt, q.completedAt)
  }

  /** `mapDbRequestToDomain(row)`: type, status and stage through
      `valueOf` (any unknown name fails the whole read), `canRetry == 1`. */
  function RowToRequest(row: RequestRow): (r: Option<Request>)
    ensures r.Some? <==>
              TypeValueOf(row.requestType).Some? && StatusValueOf(row.status).Some?
              && (row.stage.Some? ==> StageValueOf(row.stage.value).Some?)
    ensures r.Some? ==> r.value.id == row.id && r.value.inputUrl == row.inputUrl
    ensures r.Some? ==> r.value.canRetry == DecodeBool(row.canRetry)
    ensures r.Some? ==> StatusName(r.value.status) == row.status && TypeName(r.value.requestType) == row.requestType
  {
    var t := TypeValueOf(row.requestType);
    var s := StatusValueOf(row.status);
    var g := if row.stage.Some? then StageValueOf(row.stage.value) else Some(ContentExtraction);
    if t.None? || s.None? || g.None? then None
    else
      Some(Request(
        row.id, row.inputUrl, t.value, s.value,
        if row.stage.Some? then Some(g.value) else None,
        row.progress, row.langPreference, row.summaryId, row.errorMessage,
        DecodeBool(row.canRetry), row.estimatedSecondsRemaining, row.createdAt,
        row.updatedAt, row.completedAt))
  }

  /** A stored request reads back as itself. */
  lemma RequestRowRoundTrip(q: Request)
    ensures RowToRequest(RequestToRow(q)) == Some(q)
  {
  }

  /** The cache: summary rows and request rows by id, and the key/value
      sync metadata. */
  datatype Db = Db(summaries: map<int, SummaryRow>, requests: map<int, RequestRow>, metadata: map<string, string>)

  const EmptyDb := Db(map[], map[], map[])

  /** `insertSummary`: an upsert keyed by id. */
  function InsertSummary(db: Db, s: Summary): (r: Db)
    ensures s.id in r.summaries && RowToSummary(r.summaries[s.id]) == Some(s)
    ensures r.summaries.Keys == db.summaries.Keys + {s.id}
    ensures forall id :: id in db.summaries && id != s.id ==> r.summaries[id] == db.summaries[id]
    ensures r.requests == db.requests && r.metadata == db.metadata
  {
    SummaryRowRoundTrip(s);
    db.(summaries := db.summaries[s.id := SummaryToRow(s)])
  }

  /** Inserting the summaries of a list one after the other. */
  function InsertSummaries(db: Db, ss: seq<Summary>): (r: Db)
    decreases |ss|
    ensures r.summaries.Keys == db.summaries.Keys + set s | s in ss :: s.id
    ensures r.requests == db.requests && r.metadata == db.metadata
    ensures forall id :: id in db.summaries && (forall s :: s in ss ==> s.id != id) ==>
              r.summaries[id] == db.summaries[id]
  {
    if ss == [] then db
    else InsertSummaries(InsertSummary(db, ss[0]), ss[1..])
  }

  /** The last summary a list holds for an id is the one stored under it. */
  lemma {:induction false} InsertSummariesLastWins(db: Db, ss: seq<Summary>, i: nat)
    requires i < |ss|
    requires forall j :: i < j < |ss| ==> ss[j].id != ss[i].id
    ensures RowToSummary(InsertSummaries(db, ss).summaries[ss[i].id]) == Some(ss[i])
    decreases |ss|
  {
    if i == 0 {
      var db1 := InsertSummary(db, ss[0]);
      assert forall s :: s in ss[1..] ==> s.id != ss[0].id;
    } else {
      InsertSummariesLastWins(InsertSummary(db, ss[0]), ss[1..], i - 1);
    }
  }

  /** `insertRequest`: an upsert keyed by id. */
  function InsertRequest(db: Db, q: Request): (r: Db)
    ensures q.id in r.requests && RowToRequest(r.requests[q.id]) == Some(q)
    ensures r.requests.Keys == db.requests.Keys + {q.id}
    ensures forall id :: id in db.requests && id != q.id ==> r.requests[id] == db.requests[id]
    ensures r.summaries == db.summaries && r.metadata == db.metadata
  {
    RequestRowRoundTrip(q);
    db.(requests := db.requests[q.id := RequestToRow(q)])
  }

  /** `clearAllSummaries`: only the summary table is emptied. */
  function ClearAllSummaries(db: Db): (r: Db)
    ensures r.summaries == map[]
    ensures r.requests == db.requests && r.metadata == db.metadata
  {
    db.(summaries := map[])
  }

  /** `updateReadStatus(isRead, id)`: the stored flag of that row, if any. */
  function UpdateReadStatus(db: Db, id: int, isRead: bool): (r: Db)
    ensures r.summaries.Keys == db.summaries.Keys
    ensures id in db.summaries ==> r.summaries[id] == db.summaries[id].(isRead := EncodeBool(isRead))
    ensures forall other :: other in db.summaries && other != id ==> r.summaries[other] == db.summaries[other]
    ensures r.requests == db.requests && r.metadata == db.metadata
  {
    if id in db.summaries then db.(summaries := db.summaries[id := db.summaries[id].(isRead := EncodeBool(isRead))])
    else db
  }

  /** `markAsSynced(ids)`: the listed rows are marked synced. */
  function MarkAsSynced(db: Db, ids: seq<int>): (r: Db)
    ensures r.summaries.Keys == db.summaries.Keys
    ensures forall id :: id in db.summaries ==>
              r.summaries[id] == if id in ids then db.summaries[id].(syncStatus := SyncStatusName(Synced)) else db.summaries[id]
    ensures r.requests == db.requests && r.metadata == db.metadata
  {
    db.(summaries := map id | id in db.summaries ::
          if id in ids then db.summaries[id].(syncStatus := SyncStatusName(Synced)) else db.summaries[id])
  }

  /** Marking a row synced leaves what it reads back as, except the sync status. */
  lemma MarkAsSyncedReadsBack(db: Db, id: int)
    requires id in db.summaries && RowToSummary(db.summaries[id]).Some?
    ensures RowToSummary(MarkAsSynced(db, [id]).summaries[id])
            == Some(RowToSummary(db.summaries[id]).value.(syncStatus := Synced))
  {
  }

  /** `getSyncMetadata(key)`. */
  function GetSyncMetadata(db: Db, key: string): (r: Option<string>)
    ensures r.Some? <==> key in db.metadata
    ensures r.Some? ==> r.value == db.metadata[key]
  {
    if key in db.metadata then Some(db.metadata[key]) else None
  }

  /** `setSyncMetadata(key, value)`: an upsert of one key. */
  function SetSyncMetadata(db: Db, key: string, value: string): (r: Db)
    ensures r.metadata.Keys == db.metadata.Keys + {key}
    ensures r.summaries == db.summaries && r.requests == db.requests
  {
    db.(metadata := db.metadata[key := value])
  }

  /** Reading a key after setting it gives the value set; other keys read
      as before. */
  lemma MetadataGetAfterSet(db: Db, key: string, value: string, other: string)
    ensures GetSyncMetadata(SetSyncMetadata(db, key, value), key) == Some(value)
    ensures other != key ==> GetSyncMetadata(SetSyncMetadata(db, key, value), other) == GetSyncMetadata(db, other)
  {
  }
}

=== FILE: domain.dfy ===
/** The domain entities of the shared module: requests, summaries, users,
    tokens, sync states and search filters. Instants are epoch milliseconds. */
module Domain {
  import opened Wrappers
  import opened Text

  /** A `kotlinx.datetime.Instant`, as epoch milliseconds. */
  type Instant = int

  /** `Instant.DISTANT_PAST` (-3217862419201 s + 999 999 999 ns), to the millisecond. */
  const DistantPast: Instant := -3217862419200001

  /** `Instant.toString()`, rendered as its epoch milliseconds (the ISO-8601
      layout is not part of this model). */
  function InstantText(i: Instant): string {
    IntToString(i)
  }

  /** A `Double` the app only copies, kept as its IEEE-754 bit pattern. */
  type Double = bv64

  datatype RequestType = Url | YoutubeVideo

  datatype RequestStatus = Pending | Processing | Completed | Error | Cancelled

  datatype ProcessingStage = ContentExtraction | LlmSummarization | Validation | Done

  /** A submitted URL being processed into a summary. */
  datatype Request = Request(
    id: int,
    inputUrl: string,
    requestType: RequestType,
    status: RequestStatus,
    stage: Option<ProcessingStage>,
    progress: int,
    langPreference: string,
    summaryId: Option<int>,
    errorMessage: Option<string>,
    canRetry: bool,
    estimatedSecondsRemaining: Option<int>,
    createdAt: Instant,
    updatedAt: Option<Instant>,
    completedAt: Option<Instant>)

  /** The statuses after which the backend does no more work on a request. */
  predicate IsTerminal(status: RequestStatus) {
    status == Completed || status == Error || status == Cancelled
  }

  datatype Entities = Entities(people: seq<string>, organizations: seq<string>, locations: seq<string>)

  datatype KeyStat = KeyStat(statLabel: string, value: Double, unit: Option<string>, sourceExcerpt: Option<string>)

  datatype Readability = Readability(scoringMethod: string, score: Double, level: string)

  datatype SyncStatus = Synced | PendingUpload | Conflict

  /** An AI-generated digest of an article. */
  datatype Summary = Summary(
    id: int,
    requestId: int,
    title: string,
    url: string,
    domain: Option<string>,
    tldr: string,
    summary250: string,
    summary1000: Option<string>,
    keyIdeas: seq<string>,
    topicTags: seq<string>,
    answeredQuestions: seq<string>,
    seoKeywords: seq<string>,
    readingTimeMin: int,
    lang: string,
    entities: Option<Entities>,
    keyStats: seq<KeyStat>,
    readability: Option<Readability>,
    isRead: bool,
    isFavorite: bool,
    createdAt: Instant,
    updatedAt: Option<Instant>,
    syncStatus: SyncStatus,
    locallyModified: bool)

  /** An authenticated Telegram user. */
  datatype User = User(
    id: int,
    username: Option<string>,
    firstName: Option<string>,
    lastName: Option<string>,
    photoUrl: Option<string>,
    isOwner: bool)

  /** The name shown for a user: "first last", else the first name, else
      "@username", else "User <id>". */
  function DisplayName(user: User): (r: string)
    ensures user.firstName.Some? && user.lastName.Some? ==>
              r == user.firstName.value + " " + user.lastName.value
    ensures user.firstName.Some? && user.lastName.None? ==> r == user.firstName.value
    ensures user.firstName.None? && user.username.Some? ==> r == "@" + user.username.value
    ensures user.firstName.None? && user.username.None? ==> r == "User " + IntToString(user.id)
  {
    match (user.firstName, user.lastName, user.username)
    case (Some(first), Some(last), _) => first + " " + last
    case (Some(first), None, _) => first
    case (None, _, Some(name)) => "@" + name
    case (None, _, None) => "User " + IntToString(user.id)
  }

  /** A present first name decides the display name alone: the username,
      id, photo and owner flag are never consulted, and the name starts
      with the first name. */
  lemma FirstNameTakesPriority(user: User, other: User)
    requires user.firstName.Some?
    requires other.firstName == user.firstName && other.lastName == user.lastName
    ensures DisplayName(other) == DisplayName(user)
    ensures StartsWith(DisplayName(user), user.firstName.value)
  {
  }

  /** Without a first name the last name is ignored, even when present. */
  lemma LastNameNeedsFirstName(user: User, lastName: Option<string>)
    requires user.firstName.None?
    ensures DisplayName(user.(lastName := lastName)) == DisplayName(user)
  {
  }

  /** JWT tokens with their lifetime. */
  datatype AuthTokens = AuthTokens(
    accessToken: string,
    refreshToken: string,
    tokenType: string,
    expiresIn: int,
    expiresAt: Instant)

  datatype SyncType = Full | Delta | Upload

  /** The progress states a synchronisation flow emits. */
  datatype SyncState =
    | Idle
    | Syncing(syncType: SyncType, progress: int, currentStep: string)
    | SyncSuccess(syncType: SyncType, syncedAt: Instant, itemsSynced: int)
    | SyncError(syncType: SyncType, error: string, canRetry: bool)
    | Retrying(syncType: SyncType, attemptNumber: int, maxAttempts: int)

  datatype SortField = CreatedAt | ReadingTime | Title

  datatype SortOrder = Asc | Desc

  datatype SearchFilters = SearchFilters(
    isRead: Option<bool>,
    lang: Option<string>,
    topicTags: seq<string>,
    fromDate: Option<string>,
    toDate: Option<string>,
    sortBy: SortField,
    sortOrder: SortOrder)

  /** `SearchFilters()`: no filter, newest first. */
  const DefaultFilters := SearchFilters(None, None, [], None, None, CreatedAt, Desc)
}

=== FILE: dto.dfy ===
/** The JSON transfer objects of the REST API, field for field. Timestamps
    arrive already parsed (see `Domain.Instant`). */
module Dto {
  import opened Wrappers
  import opened Domain

  datatype SubmitUrlRequestDto = SubmitUrlRequestDto(requestType: string, inputUrl: string, langPreference: string)

  datatype RequestResponseDto = RequestResponseDto(
    requestId: int,
    status: string,
    stage: Option<string>,
    progress: int,
    createdAt: Instant)

  datatype RequestStatusDto = RequestStatusDto(
    requestId: int,
    status: string,
    stage: Option<string>,
    progress: int,
    estimatedSecondsRemaining: Option<int>,
    errorMessage: Option<string>,
    canRetry: bool,
    summaryId: Option<int>)

  datatype SummaryCompactDto = SummaryCompactDto(
    id: int,
    requestId: int,
    title: string,
    domain: Option<string>,
    url: string,
    tldr: string,
    summary250: string,
    readingTimeMin: int,
    topicTags: seq<string>,
    isRead: bool,
    lang: string,
    createdAt: Instant)

  datatype EntitiesDto = EntitiesDto(people: seq<string>, organizations: seq<string>, locations: seq<string>)

  datatype KeyStatDto = KeyStatDto(statLabel: string, value: Double, unit: Option<string>, sourceExcerpt: Option<string>)

  datatype ReadabilityDto = ReadabilityDto(scoringMethod: string, score: Double, level: string)

  datatype SummaryDetailDto = SummaryDetailDto(
    id: int,
    requestId: int,
    title: string,
    domain: Option<string>,
    url: string,
    summary250: string,
    summary1000: Option<string>,
    tldr: string,
    keyIdeas: seq<string>,
    topicTags: seq<string>,
    entities: Option<EntitiesDto>,
    readingTimeMin: int,
    keyStats: seq<KeyStatDto>,
    answeredQuestions: seq<string>,
    readability: Option<ReadabilityDto>,
    seoKeywords: seq<string>,
    isRead: bool,
    lang: string,
    createdAt: Instant,
    updatedAt: Option<Instant>)

  datatype SummaryListResponseDto = SummaryListResponseDto(summaries: seq<SummaryCompactDto>)

  datatype SummaryUpdateRequestDto = SummaryUpdateRequestDto(isRead: Option<bool>)

  datatype SummaryUpdateResponseDto = SummaryUpdateResponseDto(id: int, isRead: bool, updatedAt: string)

  datatype SearchResultDto = SearchResultDto(
    id: int,
    title: string,
    url: string,
    snippet: string,
    relevanceScore: Double,
    topicTags: seq<string>)

  datatype SearchResponseDto = SearchResponseDto(results: seq<SearchResultDto>, total: int, query: string)

  datatype TelegramLoginRequestDto = TelegramLoginRequestDto(
    telegramUserId: int,
    authHash: string,
    authDate: int,
    username: Option<string>,
    firstName: Option<string>,
    lastName: Option<string>,
    photoUrl: Option<string>,
    clientId: string)

  datatype UserDto = UserDto(
    id: int,
    username: Option<string>,
    firstName: Option<string>,
    lastName: Option<string>,
    photoUrl: Option<string>,
    isOwner: bool)

  datatype AuthResponseDto = AuthResponseDto(
    accessToken: string,
    refreshToken: string,
    tokenType: string,
    expiresIn: int,
    user: UserDto)

  datatype TokenRefreshRequestDto = TokenRefreshRequestDto(refreshToken: string)

  datatype TokenRefreshResponseDto = TokenRefreshResponseDto(
    accessToken: string,
    tokenType: string,
    expiresIn: int,
    refreshToken: Option<string>)

  datatype SyncChangeDto = SyncChangeDto(id: int, action: string, data: Option<SummaryDetailDto>)

  datatype SyncDeltaResponseDto = SyncDeltaResponseDto(
    summaries: seq<SyncChangeDto>,
    deletedIds: seq<int>,
    syncTimestamp: string)
}

=== FILE: http_error_mapper.dfy ===
/** HTTP status codes and HTTP-client exceptions to `AppError`. */
module HttpErrorMapper {
  import opened Wrappers
  import opened Text
  import opened AppErrors

  /** The messages of the statuses the table names one by one. */
  const BadRequestMessage := "Bad request. Please check your input."
  const ForbiddenMessage := "Access forbidden. You don't have permission for this action."
  const RequestTimeoutMessage := "Request timeout. Please try again."
  const BadGatewayMessage := "Bad gateway. The server is having trouble processing your request."
  const ServiceUnavailableMessage := "Service unavailable. The server is temporarily down for maintenance."
  const GatewayTimeoutMessage := "Gateway timeout. The server took too long to respond."

  /** `HttpStatusCode.toAppError()`: the status table. */
  function HttpStatusToAppError(code: int): (r: AppError)
    ensures r.UnauthorizedError? <==> code == 401 || code == 403
    ensures r.NotFoundError? <==> code == 404
    ensures r.NetworkError? <==> code == 408
    ensures r.NetworkError? ==> r.isTimeout
    ensures r.RateLimitError? <==> code == 429
    ensures r.ServerError? <==> 500 <= code <= 599
    ensures r.ServerError? ==> r.statusCode == Some(code)
    ensures r.ValidationError? <==>
              400 <= code <= 499 && code != 401 && code != 403 && code != 404 && code != 408 && code != 429
    ensures r.UnknownError? <==> !(400 <= code <= 599)
    ensures !r.DatabaseError?
  {
    if code == 400 then ValidationError(BadRequestMessage, None)
    else if code == 401 then UnauthorizedError(UnauthorizedDefaultMessage)
    else if code == 403 then UnauthorizedError(ForbiddenMessage)
    else if code == 404 then NotFoundError(NotFoundDefaultMessage)
    else if code == 408 then NetworkError(RequestTimeoutMessage, true)
    else if code == 429 then RateLimitError(RateLimitDefaultMessage)
    else if code == 500 then ServerError(ServerDefaultMessage, Some(500))
    else if code == 502 then ServerError(BadGatewayMessage, Some(502))
    else if code == 503 then ServerError(ServiceUnavailableMessage, Some(503))
    else if code == 504 then ServerError(GatewayTimeoutMessage, Some(504))
    else if 400 <= code <= 499 then ValidationError("Request failed with code " + IntToString(code), None)
    else if 500 <= code <= 599 then ServerError(ServerDefaultMessage, Some(code))
    else UnknownError("Unexpected response code: " + IntToString(code))
  }

  /** A status is worth retrying exactly when it is a timeout or a 5xx. */
  lemma RetryableStatuses(code: int)
    ensures IsRetryable(HttpStatusToAppError(code)) <==> code == 408 || 500 <= code <= 599
  {
  }

  /** A generic 4xx or out-of-range status names the code in its message. */
  lemma UnlistedStatusMessages(code: int)
    ensures 400 <= code <= 499 && code !in {400, 401, 403, 404, 408, 429} ==>
              HttpStatusToAppError(code).message == "Request failed with code " + IntToString(code)
    ensures !(400 <= code <= 599) ==>
              HttpStatusToAppError(code).message == "Unexpected response code: " + IntToString(code)
  {
  }

  /** What a block run under `handleApiError` threw: a 4xx response
      exception, a 5xx response exception, or any other exception. */
  datatype CallFailure =
    | ClientRequestException(status: int)
    | ServerResponseException(status: int)
    | OtherException(message: Option<string>)

  /** The result of such a block. */
  datatype BlockOutcome<+T> = Completed(value: T) | Failed(failure: CallFailure)

  /** `Result<T>` carrying an `AppError` on failure. */
  datatype AppResult<+T> = Ok(value: T) | Err(error: AppError)

  /** `Exception.toKtorError()`: response exceptions map by their status,
      anything else by its message. */
  function ToKtorError(f: CallFailure): (r: AppError)
    ensures f.OtherException? ==> r == ThrowableToAppError(f.message)
    ensures !f.OtherException? ==> r == HttpStatusToAppError(f.status)
  {
    match f
    case ClientRequestException(status) => HttpStatusToAppError(status)
    case ServerResponseException(status) => HttpStatusToAppError(status)
    case OtherException(message) => ThrowableToAppError(message)
  }

  /** `handleApiError(block)`: success passes through; a failure becomes the
      error `toKtorError` names, so both agree on every exception. */
  function HandleApiError<T>(outcome: BlockOutcome<T>): (r: AppResult<T>)
    ensures outcome.Completed? <==> r.Ok?
    ensures outcome.Completed? ==> r.value == outcome.value
    ensures outcome.Failed? ==> r.error == ToKtorError(outcome.failure)
  {
    match outcome
    case Completed(v) => Ok(v)
    case Failed(f) => Err(ToKtorError(f))
  }

  /** A 5xx response exception handled by `handleApiError` is retryable,
      whichever of the two response exception classes carries it. */
  lemma ServerResponsesRetryable<T>(status: int)
    requires 500 <= status <= 599
    ensures IsRetryable(HandleApiError<T>(Failed(ServerResponseException(status))).error)
    ensures IsRetryable(HandleApiError<T>(Failed(ClientRequestException(status))).error)
  {
    RetryableStatuses(status);
  }
}

=== FILE: login_view_model.dfy ===
/** `LoginViewModel`: the login screen. The repository calls it launches
    are inputs; each of their outcomes is a transition of its own. */
module LoginViewModel {
  import opened Wrappers
  import opened Domain
  import opened Dto
  import opened SecureStorage
  import AuthRepository

  /** `LoginState`. */
  datatype LoginState = LoginState(
    isLoading: bool,
    error: Option<string>,
    isAuthenticated: bool,
    user: Option<User>)

  /** `LoginState()`. */
  const Initial := LoginState(false, None, false, None)

  const NotImplementedMessage := "Telegram login not yet implemented. This will be added in Phase 8."

  /** `checkAuthentication()`, run by `init`: the stored tokens decide the
      flag, and the current user is loaded exactly when they authenticate. */
  function OnAuthChecked(s: LoginState, st: Storage): (r: (LoginState, bool))
    ensures r.0.isAuthenticated <==> AuthRepository.IsAuthenticated(st)
    ensures r.1 <==> AuthRepository.IsAuthenticated(st)
    ensures r.0.(isAuthenticated := s.isAuthenticated) == s
  {
    var authenticated := AuthRepository.IsAuthenticated(st);
    (s.(isAuthenticated := authenticated), authenticated)
  }

  /** `loadCurrentUser()`'s outcome: the user is shown on success; a
      failure is ignored. */
  function OnUserLoaded(s: LoginState, result: Result<User>): (r: LoginState)
    ensures result.Success? ==> r.user == Some(result.value)
    ensures result.Failure? ==> r == s
    ensures r.(user := s.user) == s
  {
    if result.Success? then s.(user := Some(result.value)) else s
  }

  /** `loginWithTelegram(…)` before its call: busy, with no error. */
  function StartLogin(s: LoginState): (r: LoginState)
    ensures r.isLoading && r.error.None?
    ensures r.isAuthenticated == s.isAuthenticated && r.user == s.user
  {
    s.(isLoading := true, error := None)
  }

  /** The login call's outcome: success authenticates and shows the user;
      a failure shows its message and leaves the flag and user alone. */
  function OnLoginResult(s: LoginState, result: Result<(AuthTokens, User)>): (r: LoginState)
    ensures !r.isLoading
    ensures result.Success? ==> r.isAuthenticated && r.user == Some(result.value.1) && r.error.None?
    ensures result.Failure? ==>
              r.error == result.error.message && r.isAuthenticated == s.isAuthenticated && r.user == s.user
  {
    match result
    case Success((_, user)) => s.(isLoading := false, isAuthenticated := true, user := Some(user), error := None)
    case Failure(e) => s.(isLoading := false, error := e.message)
  }

  /** The screen and the storage agree after a login: a login the server
      accepts with non-empty tokens shows the user it returned as
      authenticated, and a later `checkAuthentication` on the storage it
      left confirms it and reloads that user. A failed login writes
      nothing, so the check sees what it saw before. */
  lemma LoginAgreesWithStorage(s: LoginState, st: Storage, call: ApiCall<AuthResponseDto>, now: Instant)
    ensures var (result, after) := AuthRepository.LoginWithTelegram(st, call, now);
            result.Failure? ==> OnAuthChecked(s, after) == OnAuthChecked(s, st)
    ensures call.Answered? && Usable(call.response)
            && call.response.data.value.accessToken != "" && call.response.data.value.refreshToken != "" ==>
              var (result, after) := AuthRepository.LoginWithTelegram(st, call, now);
              var shown := OnLoginResult(StartLogin(s), result);
              && shown.isAuthenticated && shown.user == Some(result.value.1)
              && OnAuthChecked(shown, after) == (shown, true)
  {
    if call.Answered? && Usable(call.response)
       && call.response.data.value.accessToken != "" && call.response.data.value.refreshToken != "" {
      AuthRepository.LoginAuthenticates(st, call, now);
    }
  }

  /** `logout()` once the repository has logged out: the default state. */
  function OnLoggedOut(s: LoginState): (r: LoginState)
    ensures !r.isAuthenticated && r.user.None? && !r.isLoading && r.error.None?
  {
    Initial
  }

  /** After logging out, checking the storage again finds no session and
      loads no user. */
  lemma LogoutIsFinal(s: LoginState, st: Storage)
    ensures OnAuthChecked(OnLoggedOut(s), AuthRepository.Logout(st)) == (Initial, false)
  {
    AuthRepository.LogoutDeauthenticates(st);
  }

  /** The argument-less `loginWithTelegram()`: only shows that the flow is
      not available. */
  function PlaceholderLogin(s: LoginState): (r: LoginState)
    ensures r.error == Some(NotImplementedMessage)
    ensures r.(error := s.error) == s
  {
    s.(error := Some(NotImplementedMessage))
  }
}

=== FILE: network_monitor.dfy ===
/** `NetworkStatus` and its two extensions. The `NetworkMonitor`
    interface itself is a platform flow and is not modelled. */
module NetworkMonitor {
  import opened Wrappers

  /** `NetworkStatus`. */
  datatype NetworkStatus = Connected | Disconnected | Unknown

  /** `getMessage()`: the text shown for a status. */
  function Message(status: NetworkStatus): (r: string)
    ensures r != ""
  {
    match status
    case Connected => "Connected"
    case Disconnected => "You are offline"
    case Unknown => "Connection status unknown"
  }

  /** `isConnected()`: only a known connection counts; an unknown state is
      treated as offline. */
  function IsConnected(status: NetworkStatus): (r: bool)
    ensures r <==> Message(status) == "Connected"
    ensures status == Unknown ==> !r
  {
    status == Connected
  }

  /** The status a shown message stands for, if any. */
  function StatusOf(message: string): (r: Option<NetworkStatus>)
    ensures r.Some? ==> Message(r.value) == message
  {
    if message == "Connected" then Some(Connected)
    else if message == "You are offline" then Some(Disconnected)
    else if message == "Connection status unknown" then Some(Unknown)
    else None
  }

  /** Every status has its own message: reading it back gives the status. */
  lemma MessageRoundTrip(status: NetworkStatus)
    ensures StatusOf(Message(status)) == Some(status)
  {
    match status
    case Connected =>
    case Disconnected =>
      assert Message(status)[0] == 'Y';
    case Unknown =>
      assert Message(status)[1] == 'o';
      assert |Message(status)| != |"You are offline"|;
  }

  /** Hence distinct statuses are shown differently. */
  lemma MessagesAreDistinct(s1: NetworkStatus, s2: NetworkStatus)
    requires s1 != s2
    ensures Message(s1) != Message(s2)
  {
    MessageRoundTrip(s1);
    MessageRoundTrip(s2);
  }
}

=== FILE: query_performance.dfy ===
/** `QueryPerformanceTracker`: per query name, the times recorded for it.
    The backing map keeps its keys in insertion order, so the tracker is a
    list of names in first-tracked order plus the times of each. */
module QueryPerformance {
  import opened Wrappers

  datatype Tracker = Tracker(names: seq<string>, times: map<string, seq<int>>)

  /** The tracker's invariant: every name once, exactly the map's keys, and
      only names with at least one time. */
  ghost predicate Valid(t: Tracker) {
    && (forall i, j :: 0 <= i < j < |t.names| ==> t.names[i] != t.names[j])
    && (forall n :: n in t.times <==> n in t.names)
    && (forall n :: n in t.times ==> t.times[n] != [])
  }

  /** A new tracker. */
  const Empty := Tracker([], map[])

  /** `trackQuery(queryName, timeMs)`: the time is added after the name's
      earlier ones, a new name goes last, and every other name keeps its
      times. */
  function TrackQuery(t: Tracker, name: string, time: int): (r: Tracker)
    ensures name in r.times && r.times[name] == (if name in t.times then t.times[name] else []) + [time]
    ensures forall n :: n != name ==> (n in r.times <==> n in t.times)
    ensures forall n :: n != name && n in t.times ==> r.times[n] == t.times[n]
    ensures Valid(t) ==> Valid(r)
  {
    if name in t.times then Tracker(t.names, t.times[name := t.times[name] + [time]])
    else Tracker(t.names + [name], t.times[name := [time]])
  }

  /** `minOrNull() ?: 0`. */
  function MinOr0(xs: seq<int>): (r: int)
    ensures xs == [] ==> r == 0
    ensures xs != [] ==> r in xs && forall x :: x in xs ==> r <= x
  {
    if xs == [] then 0
    else if |xs| == 1 then xs[0]
    else
      var m := MinOr0(xs[1..]);
      assert xs == [xs[0]] + xs[1..];
      if xs[0] <= m then xs[0] else m
  }

  /** `maxOrNull() ?: 0`. */
  function MaxOr0(xs: seq<int>): (r: int)
    ensures xs == [] ==> r == 0
    ensures xs != [] ==> r in xs && forall x :: x in xs ==> x <= r
  {
    if xs == [] then 0
    else if |xs| == 1 then xs[0]
    else
      var m := MaxOr0(xs[1..]);
      assert xs == [xs[0]] + xs[1..];
      if xs[0] >= m then xs[0] else m
  }

  /** `QueryStats`, without the average. */
  datatype QueryStats = QueryStats(queryName: string, count: nat, minTimeMs: int, maxTimeMs: int)

  /** `getStats(queryName)`: nothing for a name never tracked; otherwise
      how often it was tracked and its least and greatest time. */
  function GetStats(t: Tracker, name: string): (r: Option<QueryStats>)
    ensures name !in t.times <==> r.None?
    ensures r.Some? ==> var ts := t.times[name];
              && r.value.queryName == name && r.value.count == |ts|
              && (ts != [] ==> r.value.minTimeMs in ts && r.value.maxTimeMs in ts)
              && forall x :: x in ts ==> r.value.minTimeMs <= x <= r.value.maxTimeMs
  {
    if name !in t.times then None
    else var ts := t.times[name]; Some(QueryStats(name, |ts|, MinOr0(ts), MaxOr0(ts)))
  }

  /** `getAllStats()`: the stats of every name, in first-tracked order. */
  function GetAllStats(t: Tracker): (r: seq<QueryStats>)
    ensures Valid(t) ==> |r| == |t.names|
                         && forall i :: 0 <= i < |r| ==> Some(r[i]) == GetStats(t, t.names[i])
  {
    StatsOf(t, t.names)
  }

  /** `mapNotNull { getStats(it) }` over some of the names. */
  function StatsOf(t: Tracker, names: seq<string>): (r: seq<QueryStats>)
    ensures (forall n :: n in names ==> n in t.times) ==>
              |r| == |names| && forall i :: 0 <= i < |r| ==> Some(r[i]) == GetStats(t, names[i])
  {
    if names == [] then []
    else
      var rest := StatsOf(t, names[1..]);
      match GetStats(t, names[0])
      case None => rest
      case Some(st) =>
        assert forall n :: n in names[1..] ==> n in names;
        [st] + rest
  }

  /** `reset()`. */
  function Reset(t: Tracker): (r: Tracker)
    ensures Valid(r) && GetAllStats(r) == []
    ensures forall n :: GetStats(r, n).None?
  {
    Empty
  }

  /** Tracking one more time updates that name's stats incrementally: one
      more call, and the new time folded into the least and greatest. A
      first time stands alone. */
  lemma TrackUpdatesStats(t: Tracker, name: string, time: int)
    ensures var before := GetStats(t, name);
            var after := GetStats(TrackQuery(t, name, time), name);
            && (before.None? ==> after == Some(QueryStats(name, 1, time, time)))
            && (before.Some? && t.times[name] != [] ==>
                  after == Some(QueryStats(name, before.value.count + 1,
                                           Min(before.value.minTimeMs, time), Max(before.value.maxTimeMs, time))))
  {
    if name in t.times && t.times[name] != [] {
      MinOfAppend(t.times[name], time);
      MaxOfAppend(t.times[name], time);
    }
  }

  function Min(a: int, b: int): int { if a <= b then a else b }
  function Max(a: int, b: int): int { if a >= b then a else b }

  lemma MinOfAppend(xs: seq<int>, x: int)
    requires xs != []
    ensures MinOr0(xs + [x]) == Min(MinOr0(xs), x)
  {
    var m := MinOr0(xs + [x]);
    assert MinOr0(xs) in xs + [x] && x in xs + [x];
    assert m in xs || m == x by {
      assert m in xs + [x];
    }
  }

  lemma MaxOfAppend(xs: seq<int>, x: int)
    requires xs != []
    ensures MaxOr0(xs + [x]) == Max(MaxOr0(xs), x)
  {
    var m := MaxOr0(xs + [x]);
    assert MaxOr0(xs) in xs + [x] && x in xs + [x];
    assert m in xs || m == x by {
      assert m in xs + [x];
    }
  }

  /** A run of `trackQuery` calls, starting from the tracker `t`. */
  function Replay(t: Tracker, calls: seq<(string, int)>): (r: Tracker)
    ensures Valid(t) ==> Valid(r)
  {
    if calls == [] then t
    else TrackQuery(Replay(t, calls[..|calls| - 1]), calls[|calls| - 1].0, calls[|calls| - 1].1)
  }

  /** The times passed with `name`, in call order. */
  function TimesOf(calls: seq<(string, int)>, name: string): seq<int> {
    if calls == [] then []
    else
      var last := calls[|calls| - 1];
      TimesOf(calls[..|calls| - 1], name) + (if last.0 == name then [last.1] else [])
  }

  /** After a run of calls, a name has exactly the times passed with it, in
      order: so `getStats` is absent exactly for names never passed, and
      its count is the number of calls with that name. */
  lemma {:induction false} ReplayRecordsEveryCall(calls: seq<(string, int)>, name: string)
    ensures name in Replay(Empty, calls).times <==> TimesOf(calls, name) != []
    ensures name in Replay(Empty, calls).times ==> Replay(Empty, calls).times[name] == TimesOf(calls, name)
    ensures var st := GetStats(Replay(Empty, calls), name);
            && (st.None? <==> TimesOf(calls, name) == [])
            && (st.Some? ==> st.value.count == |TimesOf(calls, name)|)
  {
    if calls != [] {
      ReplayRecordsEveryCall(calls[..|calls| - 1], name);
    }
  }

  /** After `reset()`, tracking starts over: whatever the tracker held,
      the calls made since are all that its stats count, and a name tracked
      only before the reset has no stats. */
  lemma ResetForgetsEarlierCalls(t: Tracker, calls: seq<(string, int)>, name: string)
    ensures Valid(Replay(Reset(t), calls))
    ensures var st := GetStats(Replay(Reset(t), calls), name);
            && (st.None? <==> TimesOf(calls, name) == [])
            && (st.Some? ==> st.value.count == |TimesOf(calls, name)|)
  {
    assert Reset(t) == Empty;
    ReplayRecordsEveryCall(calls, name);
  }
}

=== FILE: request_mapper.dfy ===
/** Wire strings to request enums, request DTOs to `Request`, and the body
    of a submission. */
module RequestMapper {
  import opened Wrappers
  import opened Text
  import opened Domain
  import opened Dto

  /** The lower-case wire name the backend uses for a request type. */
  function TypeWireName(t: RequestType): string {
    match t
    case Url => "url"
    case YoutubeVideo => "youtube_video"
  }

  /** The lower-case wire name the backend uses for a status. */
  function StatusWireName(s: RequestStatus): string {
    match s
    case Pending => "pending"
    case Processing => "processing"
    case Completed => "completed"
    case Error => "error"
    case Cancelled => "cancelled"
  }

  /** The lower-case wire name the backend uses for a processing stage. */
  function StageWireName(s: ProcessingStage): string {
    match s
    case ContentExtraction => "content_extraction"
    case LlmSummarization => "llm_summarization"
    case Validation => "validation"
    case Done => "done"
  }

  /** `String.toRequestType()`: a case-insensitive match on the wire names;
      anything else is a plain URL request. */
  function ToRequestType(s: string): (r: RequestType)
    ensures r == YoutubeVideo <==> Lower(s) == "youtube_video"
  {
    var k := Lower(s);
    if k == "url" then Url
    else if k == "youtube_video" then YoutubeVideo
    else Url
  }

  /** `String.toRequestStatus()`: a case-insensitive match on the five wire
      names; anything else reads as PENDING. */
  function ToRequestStatus(s: string): (r: RequestStatus)
    ensures forall st :: Lower(s) == StatusWireName(st) ==> r == st
    ensures r != Pending ==> Lower(s) == StatusWireName(r)
  {
    var k := Lower(s);
    if k == "pending" then Pending
    else if k == "processing" then Processing
    else if k == "completed" then Completed
    else if k == "error" then Error
    else if k == "cancelled" then Cancelled
    else Pending
  }

  /** `String.toProcessingStage()`: a case-insensitive match on the four
      wire names; anything else reads as CONTENT_EXTRACTION. */
  function ToProcessingStage(s: string): (r: ProcessingStage)
    ensures forall st :: Lower(s) == StageWireName(st) ==> r == st
    ensures r != ContentExtraction ==> Lower(s) == StageWireName(r)
  {
    var k := Lower(s);
    if k == "content_extraction" then ContentExtraction
    else if k == "llm_summarization" then LlmSummarization
    else if k == "validation" then Validation
    else if k == "done" then Done
    else ContentExtraction
  }

  /** Every wire name reads back as its own value. */
  lemma WireNamesRoundTrip(t: RequestType, s: RequestStatus, g: ProcessingStage)
    ensures ToRequestType(TypeWireName(t)) == t
    ensures ToRequestStatus(StatusWireName(s)) == s
    ensures ToProcessingStage(StageWireName(g)) == g
  {
    TypeWireNameIsLower(t);
    StatusWireNameIsLower(s);
    StageWireNameIsLower(g);
  }

  lemma TypeWireNameIsLower(t: RequestType)
    ensures Lower(TypeWireName(t)) == TypeWireName(t)
  {
    assert Lower(TypeWireName(t)) == TypeWireName(t);
  }

  lemma StatusWireNameIsLower(s: RequestStatus)
    ensures Lower(StatusWireName(s)) == StatusWireName(s)
  {
    assert Lower(StatusWireName(s)) == StatusWireName(s);
  }

  lemma StageWireNameIsLower(g: ProcessingStage)
    ensures Lower(StageWireName(g)) == StageWireName(g)
  {
    assert Lower(StageWireName(g)) == StageWireName(g);
  }

  /** The three readers ignore letter case. */
  lemma MappersIgnoreCase(s: string)
    ensures ToRequestType(Lower(s)) == ToRequestType(s)
    ensures ToRequestStatus(Lower(s)) == ToRequestStatus(s)
    ensures ToProcessingStage(Lower(s)) == ToProcessingStage(s)
  {
    LowerIdempotent(s);
  }

  /** The default language preference of a submission. */
  const DefaultLangPreference := "auto"

  /** `String.toSubmitURLRequestDto(langPreference)`: the URL is sent verbatim. */
  function ToSubmitUrlRequestDto(url: string, langPreference: string): (r: SubmitUrlRequestDto)
    ensures r.inputUrl == url && r.langPreference == langPreference && r.requestType == "url"
  {
    SubmitUrlRequestDto("url", url, langPreference)
  }

  /** `RequestResponseDto.toDomain()`: the response does not echo the URL,
      so it is left empty and the type is URL. */
  function ResponseToRequest(dto: RequestResponseDto): (r: Request)
    ensures r.id == dto.requestId && r.inputUrl == "" && r.requestType == Url
    ensures r.status == ToRequestStatus(dto.status) && r.progress == dto.progress
    ensures dto.stage.Some? ==> r.stage == Some(ToProcessingStage(dto.stage.value))
    ensures dto.stage.None? ==> r.stage.None?
    ensures r.langPreference == DefaultLangPreference && r.createdAt == dto.createdAt
    ensures r.summaryId.None? && r.errorMessage.None? && !r.canRetry && r.estimatedSecondsRemaining.None?
    ensures r.updatedAt.None? && r.completedAt.None?
  {
    Request(
      id := dto.requestId,
      inputUrl := "",
      requestType := Url,
      status := ToRequestStatus(dto.status),
      stage := if dto.stage.Some? then Some(ToProcessingStage(dto.stage.value)) else None,
      progress := dto.progress,
      langPreference := DefaultLangPreference,
      summaryId := None,
      errorMessage := None,
      canRetry := false,
      estimatedSecondsRemaining := None,
      createdAt := dto.createdAt,
      updatedAt := None,
      completedAt := None)
  }

  /** `RequestStatusDto.toDomain()`: the server's id, result and error fields
      are copied; URL, type and creation time are not in a status response,
      so they are "", URL and DISTANT_PAST; `now` is the update time. */
  function StatusToRequest(dto: RequestStatusDto, now: Instant): (r: Request)
    ensures r.id == dto.requestId && r.summaryId == dto.summaryId
    ensures r.errorMessage == dto.errorMessage && r.canRetry == dto.canRetry
    ensures r.estimatedSecondsRemaining == dto.estimatedSecondsRemaining
    ensures r.status == ToRequestStatus(dto.status) && r.progress == dto.progress
    ensures r.inputUrl == "" && r.requestType == Url && r.langPreference == DefaultLangPreference
    ensures dto.stage.Some? ==> r.stage == Some(ToProcessingStage(dto.stage.value))
    ensures dto.stage.None? ==> r.stage.None?
    ensures r.createdAt == DistantPast && r.updatedAt == Some(now) && r.completedAt.None?
  {
    Request(
      id := dto.requestId,
      inputUrl := "",
      requestType := Url,
      status := ToRequestStatus(dto.status),
      stage := if dto.stage.Some? then Some(ToProcessingStage(dto.stage.value)) else None,
      progress := dto.progress,
      langPreference := DefaultLangPreference,
      summaryId := dto.summaryId,
      errorMessage := dto.errorMessage,
      canRetry := dto.canRetry,
      estimatedSecondsRemaining := dto.estimatedSecondsRemaining,
      createdAt := DistantPast,
      updatedAt := Some(now),
      completedAt := None)
  }

  /** A status the server spells in any case is read as the same status. */
  lemma StatusDtoIgnoresCase(dto: RequestStatusDto, now: Instant)
    ensures StatusToRequest(dto.(status := Lower(dto.status)), now) == StatusToRequest(dto, now)
  {
    MappersIgnoreCase(dto.status);
  }
}

=== FILE: request_repository.dfy ===
/** `RequestRepositoryImpl`: submitting a URL, reading, retrying and
    cancelling a request, and polling its status until it settles. Every
    successful answer is cached as a request row. Endpoint calls are
    inputs; `now` is the clock reading a status mapping takes. */
module RequestRepository {
  import opened Wrappers
  import opened Domain
  import opened Dto
  import opened RequestMapper
  import opened Database

  /** `submitURL(url, langPreference)`: the request the server answers with,
      carrying the URL as submitted, is cached and returned. The second
      component is the body sent. */
  function SubmitUrl(db: Db, url: string, langPreference: string, call: ApiCall<RequestResponseDto>)
    : (r: (Result<Request>, SubmitUrlRequestDto, Db))
    ensures r.1.inputUrl == url && r.1.langPreference == langPreference
    ensures r.0.Success? <==> call.Answered? && Usable(call.response)
    ensures r.0.Success? ==> r.0.value == ResponseToRequest(call.response.data.value).(inputUrl := url)
    ensures r.0.Success? ==> r.0.value.inputUrl == url && r.2 == InsertRequest(db, r.0.value)
    ensures call.Answered? && !Usable(call.response) ==>
              r.0 == Failure(PlainException(call.response.errorMessage.GetOr("Failed to submit URL")))
    ensures call.Threw? ==> r.0 == Failure(call.exception)
    ensures r.0.Failure? ==> r.2 == db
  {
    var sent := ToSubmitUrlRequestDto(url, langPreference);
    match call
    case Threw(e) => (Failure(e), sent, db)
    case Answered(response) =>
      if Usable(response) then
        var request := ResponseToRequest(response.data.value).(inputUrl := url);
        (Success(request), sent, InsertRequest(db, request))
      else (ServerFailure(response, "Failed to submit URL"), sent, db)
  }

  /** The cache then holds the submitted URL under the request's id. */
  lemma SubmittedUrlIsCached(db: Db, url: string, langPreference: string, call: ApiCall<RequestResponseDto>)
    requires call.Answered? && Usable(call.response)
    ensures var (result, _, db2) := SubmitUrl(db, url, langPreference, call);
            result.value.id in db2.requests && db2.requests[result.value.id].inputUrl == url
  {
  }

  /** A call whose usable answer is mapped by `convert` and cached; an
      unusable answer fails with the server's message or `fallback`. */
  function FetchAndCache<D>(db: Db, call: ApiCall<D>, convert: D -> Request, fallback: string)
    : (r: (Result<Request>, Db))
    ensures r.0.Success? <==> call.Answered? && Usable(call.response)
    ensures r.0.Success? ==> r.0.value == convert(call.response.data.value) && r.1 == InsertRequest(db, r.0.value)
    ensures call.Answered? && !Usable(call.response) ==>
              r.0 == Failure(PlainException(call.response.errorMessage.GetOr(fallback)))
    ensures call.Threw? ==> r.0 == Failure(call.exception)
    ensures r.0.Failure? ==> r.1 == db
  {
    match call
    case Threw(e) => (Failure(e), db)
    case Answered(response) =>
      if Usable(response) then
        var request := convert(response.data.value);
        (Success(request), InsertRequest(db, request))
      else (ServerFailure(response, fallback), db)
  }

  /** `getRequestStatus(requestId)`. */
  function GetRequestStatus(db: Db, call: ApiCall<RequestStatusDto>, now: Instant): (r: (Result<Request>, Db))
    ensures r.0.Success? <==> call.Answered? && Usable(call.response)
    ensures r.0.Success? ==> r.0.value == StatusToRequest(call.response.data.value, now) && r.1 == InsertRequest(db, r.0.value)
    ensures r.0.Failure? ==> r.1 == db
    ensures call.Answered? && !Usable(call.response) ==>
              r.0 == Failure(PlainException(call.response.errorMessage.GetOr("Failed to get status")))
    ensures call.Threw? ==> r.0 == Failure(call.exception)
  {
    FetchAndCache(db, call, (dto: RequestStatusDto) => StatusToRequest(dto, now), "Failed to get status")
  }

  /** A status read overwrites the cached request with one whose URL is
      empty, so the URL a request was submitted with does not survive its
      first successful status read. */
  lemma StatusReadForgetsSubmittedUrl(db: Db, url: string, lang: string,
                                      submit: ApiCall<RequestResponseDto>, status: ApiCall<RequestStatusDto>, now: Instant)
    requires submit.Answered? && Usable(submit.response)
    requires status.Answered? && Usable(status.response)
    requires status.response.data.value.requestId == submit.response.data.value.requestId
    ensures var db1 := SubmitUrl(db, url, lang, submit).2;
            var db2 := GetRequestStatus(db1, status, now).1;
            var id := submit.response.data.value.requestId;
            id in db1.requests && db1.requests[id].inputUrl == url
            && id in db2.requests && db2.requests[id].inputUrl == ""
  {
  }

  /** `retryRequest(requestId)`. */
  function RetryRequest(db: Db, call: ApiCall<RequestResponseDto>): (r: (Result<Request>, Db))
    ensures r.0.Success? <==> call.Answered? && Usable(call.response)
    ensures r.0.Success? ==> r.0.value == ResponseToRequest(call.response.data.value) && r.1 == InsertRequest(db, r.0.value)
    ensures call.Answered? && !Usable(call.response) ==>
              r.0 == Failure(PlainException(call.response.errorMessage.GetOr("Failed to retry")))
    ensures call.Threw? ==> r.0 == Failure(call.exception)
    ensures r.0.Failure? ==> r.1 == db
  {
    FetchAndCache(db, call, ResponseToRequest, "Failed to retry")
  }

  /** `cancelRequest(requestId)`. */
  function CancelRequest(db: Db, call: ApiCall<RequestResponseDto>): (r: (Result<Request>, Db))
    ensures r.0.Success? <==> call.Answered? && Usable(call.response)
    ensures r.0.Success? ==> r.0.value == ResponseToRequest(call.response.data.value) && r.1 == InsertRequest(db, r.0.value)
    ensures call.Answered? && !Usable(call.response) ==>
              r.0 == Failure(PlainException(call.response.errorMessage.GetOr("Failed to cancel")))
    ensures call.Threw? ==> r.0 == Failure(call.exception)
    ensures r.0.Failure? ==> r.1 == db
  {
    FetchAndCache(db, call, ResponseToRequest, "Failed to cancel")
  }

  /** A successful retry or cancel leaves the server's answer, mapped, under
      the request's id while every other cached request is kept; on the same
      answer both write the same cache. */
  lemma RetriedOrCancelledRequestIsCached(db: Db, call: ApiCall<RequestResponseDto>)
    requires call.Answered? && Usable(call.response)
    ensures var id := call.response.data.value.requestId;
            var db2 := RetryRequest(db, call).1;
            id in db2.requests && RowToRequest(db2.requests[id]) == Some(ResponseToRequest(call.response.data.value))
            && (forall other :: other in db.requests && other != id ==> other in db2.requests && db2.requests[other] == db.requests[other])
    ensures CancelRequest(db, call).1 == RetryRequest(db, call).1
  {
  }

  /** One status read of a poll: the call and the clock reading it maps with. */
  datatype StatusFetch = StatusFetch(call: ApiCall<RequestStatusDto>, now: Instant)

  predicate Succeeded(f: StatusFetch) {
    f.call.Answered? && Usable(f.call.response)
  }

  function PolledRequest(f: StatusFetch): Request
    requires Succeeded(f)
  {
    StatusToRequest(f.call.response.data.value, f.now)
  }

  /** The status a successful read reports. */
  function PolledStatus(f: StatusFetch): RequestStatus
    requires Succeeded(f)
  {
    ToRequestStatus(f.call.response.data.value.status)
  }

  /** A read after which polling goes on: a success with a non-terminal status. */
  predicate Continues(f: StatusFetch)
    ensures Continues(f) ==> Succeeded(f)
  {
    Succeeded(f) && !IsTerminal(PolledStatus(f))
  }

  /** The cache after one status read: a successful read caches its request. */
  function CacheRead(cache: Db, f: StatusFetch): Db {
    if Succeeded(f) then InsertRequest(cache, PolledRequest(f)) else cache
  }

  /** The cache after the first `k` status reads of `fs`. */
  function DbAfterPolls(db: Db, fs: seq<StatusFetch>, k: nat): Db
    requires k <= |fs|
  {
    if k == 0 then db else CacheRead(DbAfterPolls(db, fs, k - 1), fs[k - 1])
  }

  /** How a poll ended: it stopped, its cached fallback failed to decode
      (`valueOf` threw), or the modelled reads ran out while it still polled. */
  datatype PollEnd = Stopped | Crashed | OutOfReads

  /** The first `k` reads of `fs` all let polling go on. */
  predicate AllContinue(fs: seq<StatusFetch>, k: nat)
    requires k <= |fs|
  {
    k == 0 || (AllContinue(fs, k - 1) && Continues(fs[k - 1]))
  }

  /** The requests the first `k` reads of `fs` emit, one per read, when all
      of them let polling go on. */
  function PolledRequests(fs: seq<StatusFetch>, k: nat): (r: seq<Request>)
    requires k <= |fs| && AllContinue(fs, k)
    ensures |r| == k
  {
    if k == 0 then [] else PolledRequests(fs, k - 1) + [PolledRequest(fs[k - 1])]
  }

  /** Every read of a run that lets polling go on is emitted, in order. */
  lemma {:induction false} PolledRequestsEach(fs: seq<StatusFetch>, k: nat)
    requires k <= |fs| && AllContinue(fs, k)
    ensures forall i :: 0 <= i < k ==> Continues(fs[i]) && PolledRequests(fs, k)[i] == PolledRequest(fs[i])
  {
    if k > 0 {
      PolledRequestsEach(fs, k - 1);
      var prev := PolledRequests(fs, k - 1);
      assert PolledRequests(fs, k) == prev + [PolledRequest(fs[k - 1])];
      assert forall i :: 0 <= i < k - 1 ==> PolledRequests(fs, k)[i] == prev[i];
    }
  }

  /** One more read that lets polling go on extends the emitted requests by
      its request. */
  lemma PollStep(fs: seq<StatusFetch>, k: nat)
    requires k < |fs| && AllContinue(fs, k) && Continues(fs[k])
    ensures AllContinue(fs, k + 1)
    ensures PolledRequests(fs, k + 1) == PolledRequests(fs, k) + [PolledRequest(fs[k])]
  {
  }

  /** One more read extends the cache by that read's row, if any. */
  lemma CacheStep(db: Db, fs: seq<StatusFetch>, k: nat)
    requires k < |fs|
    ensures DbAfterPolls(db, fs, k + 1) == CacheRead(DbAfterPolls(db, fs, k), fs[k])
  {
  }

  /** The reads of a poll that keep it going: every read before the first
      terminal status or failure is emitted and cached, and followed by a wait. */
  method PollWhileContinuing(db: Db, fetches: seq<StatusFetch>)
    returns (emitted: seq<Request>, fetched: nat, dbAfter: Db)
    ensures fetched <= |fetches| && dbAfter == DbAfterPolls(db, fetches, fetched)
    ensures AllContinue(fetches, fetched)
    ensures fetched < |fetches| ==> !Continues(fetches[fetched])
    ensures emitted == PolledRequests(fetches, fetched)
  {
    emitted := [];
    fetched := 0;
    dbAfter := db;
    while fetched < |fetches| && Continues(fetches[fetched])
      invariant fetched <= |fetches| && dbAfter == DbAfterPolls(db, fetches, fetched)
      invariant AllContinue(fetches, fetched)
      invariant emitted == PolledRequests(fetches, fetched)
    {
      var f := fetches[fetched];
      var request := PolledRequest(f);
      PollStep(fetches, fetched);
      CacheStep(db, fetches, fetched);
      dbAfter := CacheRead(dbAfter, f);
      emitted := emitted + [request];
      fetched := fetched + 1;
    }
  }

  /** The read that ends a poll: a terminal status is emitted and cached;
      a failed read emits the cached request for `requestId` if there is
      one, and throws if that row does not decode. */
  function FinalRead(cache: Db, requestId: int, f: StatusFetch): (r: (seq<Request>, Db, PollEnd))
    requires !Continues(f)
    ensures r.1 == CacheRead(cache, f)
    ensures Succeeded(f) ==> r.0 == [PolledRequest(f)] && r.2 == Stopped
    ensures !Succeeded(f) && requestId !in cache.requests ==> r.0 == [] && r.2 == Stopped
    ensures !Succeeded(f) && requestId in cache.requests ==>
              match RowToRequest(cache.requests[requestId])
              case Some(cached) => r.0 == [cached] && r.2 == Stopped
              case None => r.0 == [] && r.2 == Crashed
  {
    if Succeeded(f) then ([PolledRequest(f)], InsertRequest(cache, PolledRequest(f)), Stopped)
    else if requestId !in cache.requests then ([], cache, Stopped)
    else match RowToRequest(cache.requests[requestId])
      case Some(cached) => ([cached], cache, Stopped)
      case None => ([], cache, Crashed)
  }

  /** `pollRequestStatus(requestId)` over the status reads `fetches`:
      every successful read is emitted; polling stops after the first
      terminal status, or after the first failed read, which emits the
      cached request if there is one. A 3-second wait follows each read
      after which polling continues, and no other. */
  method PollRequestStatus(db: Db, requestId: int, fetches: seq<StatusFetch>)
    returns (emitted: seq<Request>, waits: nat, fetched: nat, end: PollEnd, dbAfter: Db)
    ensures fetched <= |fetches| && dbAfter == DbAfterPolls(db, fetches, fetched)
    ensures end == OutOfReads ==>
              fetched == |fetches| && AllContinue(fetches, fetched)
              && emitted == PolledRequests(fetches, fetched) && waits == fetched
    ensures end != OutOfReads ==>
              1 <= fetched && AllContinue(fetches, fetched - 1) && !Continues(fetches[fetched - 1])
              && waits == fetched - 1
              && var (tail, _, last) := FinalRead(DbAfterPolls(db, fetches, fetched - 1), requestId, fetches[fetched - 1]);
                 emitted == PolledRequests(fetches, fetched - 1) + tail && end == last
  {
    emitted, fetched, dbAfter := PollWhileContinuing(db, fetches);
    waits := fetched;
    if fetched == |fetches| {
      end := OutOfReads;
      return;
    }
    var (tail, cache, last) := FinalRead(dbAfter, requestId, fetches[fetched]);
    CacheStep(db, fetches, fetched);
    emitted := emitted + tail;
    dbAfter := cache;
    end := last;
    fetched := fetched + 1;
  }

  /** When the read before a failed one succeeded for the same id, the
      cached request emitted on failure is that last polled status. */
  lemma FailureReemitsLastStatus(db: Db, requestId: int, fs: seq<StatusFetch>)
    requires |fs| >= 2 && Succeeded(fs[|fs| - 2]) && !Succeeded(fs[|fs| - 1])
    requires PolledRequest(fs[|fs| - 2]).id == requestId
    ensures requestId in DbAfterPolls(db, fs, |fs|).requests
    ensures RowToRequest(DbAfterPolls(db, fs, |fs|).requests[requestId]) == Some(PolledRequest(fs[|fs| - 2]))
  {
  }
}

=== FILE: retry_policy.dfy ===
/** `RetryPolicy` and `retryWithBackoff`: a block retried with a delay that
    starts at `initialDelay` and is multiplied by `factor` after each wait,
    capped at `maxDelay`. Durations are in nanoseconds; the factor is a
    positive rational. */
module RetryPolicies {
  import opened Wrappers
  import opened RetryUtil

  const NanosPerMilli: int := 1_000_000
  const NanosPerSecond: int := 1_000_000_000

  type PosNat = n: nat | n > 0 witness 1

  /** A `Double` factor written as `num / den`. */
  datatype Factor = Factor(num: nat, den: PosNat)

  /** `RetryPolicy(maxAttempts, initialDelay, maxDelay, factor, shouldRetry)`. */
  datatype RetryPolicy = RetryPolicy(
    maxAttempts: int,
    initialDelay: int,
    maxDelay: int,
    factor: Factor,
    shouldRetry: Throwable -> bool)

  /** `Duration * Double`: the scaled duration rounded to the nearest
      nanosecond, halves rounding up. */
  function Scale(d: int, f: Factor): (r: int)
    ensures r * 2 * f.den <= 2 * d * f.num + f.den < (r + 1) * 2 * f.den
  {
    (2 * d * f.num + f.den) / (2 * f.den)
  }

  /** The wait before attempt `k + 1`: the initial delay, then each wait
      scaled by the factor and capped at the maximum. */
  function DelayBefore(p: RetryPolicy, k: nat): int {
    if k == 0 then p.initialDelay else Min(Scale(DelayBefore(p, k - 1), p.factor), p.maxDelay)
  }

  /** The first wait is the initial delay, uncapped; every later wait is at
      most the maximum, and is the previous one scaled and capped. */
  lemma DelaysCapped(p: RetryPolicy, k: nat)
    ensures DelayBefore(p, 0) == p.initialDelay
    ensures k > 0 ==> DelayBefore(p, k) <= p.maxDelay
    ensures k > 0 ==> DelayBefore(p, k) == p.maxDelay || DelayBefore(p, k) == Scale(DelayBefore(p, k - 1), p.factor)
  {
  }

  /** Scaling by a factor of at least one never shortens a non-negative duration. */
  lemma ScaleGrows(d: int, f: Factor)
    requires d >= 0 && f.num >= f.den
    ensures Scale(d, f) >= d
  {
    var r := Scale(d, f);
    MulMonotone(f.den, f.num, 2 * d);
    assert 2 * d * f.num + f.den > d * 2 * f.den;
    if r + 1 <= d {
      MulMonotone(r + 1, d, 2 * f.den);
      assert false;
    }
  }

  lemma MulMonotone(a: int, b: int, c: nat)
    requires a <= b
    ensures a * c <= b * c
  {
  }

  /** With a factor of at least one and an initial delay no longer than the
      maximum, the waits never shrink and never exceed the maximum. */
  lemma {:induction false} DelaysGrow(p: RetryPolicy, k: nat)
    requires 0 <= p.initialDelay <= p.maxDelay && p.factor.num >= p.factor.den
    ensures 0 <= DelayBefore(p, k) <= DelayBefore(p, k + 1) <= p.maxDelay
  {
    if k > 0 {
      DelaysGrow(p, k - 1);
    }
    ScaleGrows(DelayBefore(p, k), p.factor);
  }

  /** The events of a run that made `calls` attempts. */
  function PolicySchedule(p: RetryPolicy, calls: nat): (r: seq<RetryEvent>)
    ensures calls == 0 <==> r == []
  {
    if calls == 0 then []
    else PolicySchedule(p, calls - 1)
         + (if calls == 1 then [] else [Wait(DelayBefore(p, calls - 2))])
         + [Invoke(calls - 1)]
  }

  /** The events a policy run adds with its `calls`-th attempt: the wait
      before it, if any, then the attempt. */
  function PolicyNextEvents(p: RetryPolicy, calls: nat): seq<RetryEvent>
    requires calls > 0
  {
    (if calls == 1 then [] else [Wait(DelayBefore(p, calls - 2))]) + [Invoke(calls - 1)]
  }

  lemma PolicyNextEventsShape(p: RetryPolicy, calls: nat)
    requires calls > 0
    ensures PolicySchedule(p, calls) == PolicySchedule(p, calls - 1) + PolicyNextEvents(p, calls)
    ensures Attempts(PolicyNextEvents(p, calls)) == [calls - 1]
    ensures WaitCount(PolicyNextEvents(p, calls)) == if calls > 1 then 1 else 0
    ensures PolicyNextEvents(p, calls)[|PolicyNextEvents(p, calls)| - 1] == Invoke(calls - 1)
  {
    var pause := if calls == 1 then [] else [Wait(DelayBefore(p, calls - 2))];
    assert PolicySchedule(p, calls) == PolicySchedule(p, calls - 1) + pause + [Invoke(calls - 1)];
    if calls > 1 {
      assert pause[..0] == [];
    } else {
      assert pause + [Invoke(calls - 1)] == [Invoke(calls - 1)];
    }
    AttemptsAppend(pause, [Invoke(calls - 1)]);
    AttemptsOfInvoke(calls - 1);
  }

  /** A run of `calls` attempts makes attempts 0, …, calls-1 in order. */
  lemma {:induction false} PolicyScheduleAttempts(p: RetryPolicy, calls: nat)
    ensures |Attempts(PolicySchedule(p, calls))| == calls
    ensures forall i :: 0 <= i < calls ==> Attempts(PolicySchedule(p, calls))[i] == i
  {
    if calls > 0 {
      var prev := PolicySchedule(p, calls - 1);
      var next := PolicyNextEvents(p, calls);
      PolicyScheduleAttempts(p, calls - 1);
      PolicyNextEventsShape(p, calls);
      AttemptsExtend(prev, next, calls - 1);
    }
  }

  /** A run of `calls` attempts waits exactly once between two attempts. */
  lemma {:induction false} PolicyScheduleWaits(p: RetryPolicy, calls: nat)
    ensures calls > 0 ==> WaitCount(PolicySchedule(p, calls)) == calls - 1
  {
    if calls > 0 {
      var prev := PolicySchedule(p, calls - 1);
      var next := PolicyNextEvents(p, calls);
      PolicyScheduleWaits(p, calls - 1);
      PolicyNextEventsShape(p, calls);
      AttemptsAppend(prev, next);
      assert WaitCount(PolicySchedule(p, calls)) == WaitCount(prev) + WaitCount(next);
    }
  }

  /** A policy run never waits after its last attempt. */
  lemma PolicyScheduleEndsWithAttempt(p: RetryPolicy, calls: nat)
    requires calls > 0
    ensures PolicySchedule(p, calls)[|PolicySchedule(p, calls)| - 1] == Invoke(calls - 1)
  {
    var next := PolicyNextEvents(p, calls);
    PolicyNextEventsShape(p, calls);
    assert PolicySchedule(p, calls)[|PolicySchedule(p, calls)| - 1] == next[|next| - 1];
  }

  /** Thrown when the policy allows no attempt at all. */
  const RetryFailed := Throwable("RuntimeException", Some("Retry failed"))

  /** `retryWithBackoff(policy, block)`: `block(k)` is what the k-th call of
      the block does. The outcome is the first value returned, or the first
      exception the policy declines to retry, or the last attempt's
      exception; a policy that allows no attempt throws "Retry failed". */
  method RetryWithBackoff<T>(policy: RetryPolicy, block: nat -> Outcome<T>)
    returns (r: Outcome<T>, events: seq<RetryEvent>, calls: nat)
    ensures policy.maxAttempts <= 0 ==> calls == 0 && r == Raised(RetryFailed)
    ensures policy.maxAttempts > 0 ==> 1 <= calls <= policy.maxAttempts
    ensures events == PolicySchedule(policy, calls)
    ensures forall k :: 0 <= k < calls - 1 ==> block(k).Raised? && policy.shouldRetry(block(k).exception)
    ensures calls > 0 ==> r == block(calls - 1)
    ensures 0 < calls < policy.maxAttempts ==>
              block(calls - 1).Returned? || !policy.shouldRetry(block(calls - 1).exception)
  {
    var currentDelay := policy.initialDelay;
    var lastException: Option<Throwable> := None;
    events := [];
    calls := 0;
    var attempt: nat := 0;
    while attempt < policy.maxAttempts
      invariant attempt == calls
      invariant policy.maxAttempts > 0 ==> attempt < policy.maxAttempts
      invariant policy.maxAttempts <= 0 ==> attempt == 0 && lastException.None?
      invariant currentDelay == DelayBefore(policy, attempt)
      invariant events == PolicySchedule(policy, attempt) + (if attempt == 0 then [] else [Wait(DelayBefore(policy, attempt - 1))])
      invariant forall k :: 0 <= k < attempt ==> block(k).Raised? && policy.shouldRetry(block(k).exception)
    {
      events := events + [Invoke(attempt)];
      calls := attempt + 1;
      var outcome := block(attempt);
      if outcome.Returned? {
        return outcome, events, calls;
      }
      lastException := Some(outcome.exception);
      if !policy.shouldRetry(outcome.exception) || attempt == policy.maxAttempts - 1 {
        return outcome, events, calls;
      }
      events := events + [Wait(currentDelay)];
      currentDelay := Min(Scale(currentDelay, policy.factor), policy.maxDelay);
      attempt := attempt + 1;
    }
    r := Raised(lastException.GetOr(RetryFailed));
  }

  /** `RetryPolicy.DEFAULT`: 3 attempts, 1 s initial, 10 s cap, factor 2.0. */
  const DefaultPolicy := RetryPolicy(3, 1 * NanosPerSecond, 10 * NanosPerSecond, Factor(2, 1), (e: Throwable) => true)

  /** `RetryPolicy.AGGRESSIVE`: 5 attempts, 500 ms initial, 30 s cap, factor 2.5. */
  const AggressivePolicy := RetryPolicy(5, 500 * NanosPerMilli, 30 * NanosPerSecond, Factor(5, 2), (e: Throwable) => true)

  /** `RetryPolicy.CONSERVATIVE`: 2 attempts, 2 s initial, 5 s cap, factor 1.5. */
  const ConservativePolicy := RetryPolicy(2, 2 * NanosPerSecond, 5 * NanosPerSecond, Factor(3, 2), (e: Throwable) => true)

  /** The presets' attempt counts and `DelayBefore` values: DEFAULT's are
      1 s and 2 s and its fifth is the 10 s cap; AGGRESSIVE's fourth is
      7.8125 s; CONSERVATIVE's second is 3 s. A run of at most `maxAttempts`
      attempts takes only the first `maxAttempts - 1` of them. */
  lemma PresetDelays()
    ensures DefaultPolicy.maxAttempts == 3 && AggressivePolicy.maxAttempts == 5 && ConservativePolicy.maxAttempts == 2
    ensures DelayBefore(DefaultPolicy, 0) == 1_000_000_000 && DelayBefore(DefaultPolicy, 1) == 2_000_000_000
    ensures DelayBefore(AggressivePolicy, 3) == 7_812_500_000
    ensures DelayBefore(ConservativePolicy, 1) == 3_000_000_000
    ensures DelayBefore(DefaultPolicy, 4) == 10_000_000_000
  {
    assert DelayBefore(AggressivePolicy, 1) == 1_250_000_000;
    assert DelayBefore(AggressivePolicy, 2) == 3_125_000_000;
  }

  /** The waits a preset run takes when every attempt fails: DEFAULT waits
      1 s then 2 s; AGGRESSIVE waits 0.5, 1.25, 3.125 and 7.8125 s;
      CONSERVATIVE waits 2 s once. */
  lemma PresetRuns()
    ensures PolicySchedule(DefaultPolicy, 3)
            == [Invoke(0), Wait(1_000_000_000), Invoke(1), Wait(2_000_000_000), Invoke(2)]
    ensures PolicySchedule(ConservativePolicy, 2) == [Invoke(0), Wait(2_000_000_000), Invoke(1)]
    ensures PolicySchedule(AggressivePolicy, 5)
            == [Invoke(0), Wait(500_000_000), Invoke(1), Wait(1_250_000_000), Invoke(2),
                Wait(3_125_000_000), Invoke(3), Wait(7_812_500_000), Invoke(4)]
  {
    PresetDelays();
    assert DelayBefore(AggressivePolicy, 0) == 500_000_000;
    assert DelayBefore(AggressivePolicy, 1) == 1_250_000_000;
    assert DelayBefore(AggressivePolicy, 2) == 3_125_000_000;
    var a := AggressivePolicy;
    assert PolicySchedule(a, 1) == [Invoke(0)];
    assert PolicySchedule(a, 2) == [Invoke(0), Wait(500_000_000), Invoke(1)];
    assert PolicySchedule(a, 3) == PolicySchedule(a, 2) + [Wait(1_250_000_000), Invoke(2)];
    assert PolicySchedule(a, 4) == PolicySchedule(a, 3) + [Wait(3_125_000_000), Invoke(3)];
    assert PolicySchedule(a, 5) == PolicySchedule(a, 4) + [Wait(7_812_500_000), Invoke(4)];
  }

  /** The policy `retry(times, initialDelayMillis, factor)` builds: the
      default 10 s cap and every exception retried. */
  function SimplePolicy(times: int, initialDelayMillis: int, factor: Factor): (p: RetryPolicy)
    ensures p.maxAttempts == times && p.initialDelay == initialDelayMillis * NanosPerMilli
    ensures p.maxDelay == DefaultPolicy.maxDelay && p.factor == factor
    ensures forall e :: p.shouldRetry(e)
  {
    RetryPolicy(times, initialDelayMillis * NanosPerMilli, 10 * NanosPerSecond, factor, (e: Throwable) => true)
  }

  /** `retry(times, initialDelayMillis, factor, block)`: since every
      exception is retried, it stops early only on success, and runs out of
      attempts only when all `times` failed. */
  method Retry<T>(times: int, initialDelayMillis: int, factor: Factor, block: nat -> Outcome<T>)
    returns (r: Outcome<T>, events: seq<RetryEvent>, calls: nat)
    ensures times <= 0 ==> calls == 0 && r == Raised(RetryFailed)
    ensures times > 0 ==> 1 <= calls <= times
    ensures events == PolicySchedule(SimplePolicy(times, initialDelayMillis, factor), calls)
    ensures forall k :: 0 <= k < calls - 1 ==> block(k).Raised?
    ensures calls > 0 ==> r == block(calls - 1)
    ensures 0 < calls < times ==> r.Returned?
    ensures r.Raised? && times > 0 ==> calls == times
  {
    r, events, calls := RetryWithBackoff(SimplePolicy(times, initialDelayMillis, factor), block);
  }
}

=== FILE: retry_util.dfy ===
/** `retryWithStrategy`: running an operation under one of five retry
    strategies, and the exponential backoff delay formula. An operation is a
    function from the attempt number to what that attempt produced; the
    waits it would perform are recorded as events instead of taken. */
module RetryUtil {
  import opened Wrappers

  const LongMax: int := 0x7FFF_FFFF_FFFF_FFFF
  const LongMin: int := -0x8000_0000_0000_0000

  /** Two's-complement wrap-around of a 64-bit `Long` result. */
  function WrapLong(x: int): (r: int)
    ensures LongMin <= r <= LongMax
    ensures LongMin <= x <= LongMax ==> r == x
  {
    (x - LongMin) % 0x1_0000_0000_0000_0000 + LongMin
  }

  /** `Double.toLong()` on an integral value: saturates at the `Long` range. */
  function SaturateLong(x: int): (r: int)
    ensures LongMin <= r <= LongMax
    ensures LongMin <= x <= LongMax ==> r == x
    ensures x > LongMax ==> r == LongMax
  {
    if x > LongMax then LongMax else if x < LongMin then LongMin else x
  }

  function Pow(b: int, e: nat): int {
    if e == 0 then 1 else b * Pow(b, e - 1)
  }

  function Min(a: int, b: int): int {
    if a <= b then a else b
  }

  /** A `RetryStrategy`. Its declaration is not part of this model; the
      variants and fields are the ones `retryWithStrategy` reads. An
      exponential strategy's `getDelayForAttempt` is kept uninterpreted as
      `delayFor`. */
  datatype RetryStrategy =
    | NoRetry
    | Immediate(maxAttempts: int)
    | ExponentialBackoff(maxAttempts: int, delayFor: nat -> int)
    | FixedDelay(maxAttempts: int, delayMs: int)
    | WhenOnline

  /** One step of a retry loop: an attempt made, or a wait taken. */
  datatype RetryEvent = Invoke(attempt: nat) | Wait(duration: int)

  /** How many attempts a strategy allows; the single-shot strategies make exactly one. */
  function AttemptLimit(s: RetryStrategy): int {
    match s
    case NoRetry => 1
    case WhenOnline => 1
    case Immediate(m) => m
    case ExponentialBackoff(m, _) => m
    case FixedDelay(m, _) => m
  }

  /** The wait a strategy takes after a failed, non-final attempt. */
  function PauseAfter(s: RetryStrategy, attempt: nat): seq<RetryEvent> {
    match s
    case ExponentialBackoff(_, delayFor) => [Wait(delayFor(attempt))]
    case FixedDelay(_, d) => [Wait(d)]
    case _ => []
  }

  /** The events of a run that made `calls` attempts: attempt 0, then for
      each later attempt the pause after its predecessor and the attempt. */
  function Schedule(s: RetryStrategy, calls: nat): (r: seq<RetryEvent>)
    ensures calls == 0 <==> r == []
  {
    if calls == 0 then []
    else Schedule(s, calls - 1) + (if calls == 1 then [] else PauseAfter(s, calls - 2)) + [Invoke(calls - 1)]
  }

  /** The attempts recorded in a list of events, in order. */
  function Attempts(events: seq<RetryEvent>): seq<nat> {
    if events == [] then []
    else Attempts(events[..|events| - 1])
         + (match events[|events| - 1] case Invoke(a) => [a] case Wait(_) => [])
  }

  function WaitCount(events: seq<RetryEvent>): nat {
    if events == [] then 0
    else WaitCount(events[..|events| - 1]) + (if events[|events| - 1].Wait? then 1 else 0)
  }

  lemma AttemptsAppend(a: seq<RetryEvent>, b: seq<RetryEvent>)
    ensures Attempts(a + b) == Attempts(a) + Attempts(b)
    ensures WaitCount(a + b) == WaitCount(a) + WaitCount(b)
    decreases |b|
  {
    if b == [] {
      assert a + b == a;
    } else {
      assert (a + b)[..|a + b| - 1] == a + b[..|b| - 1];
      AttemptsAppend(a, b[..|b| - 1]);
    }
  }

  lemma AttemptsOfInvoke(a: nat)
    ensures Attempts([Invoke(a)]) == [a] && WaitCount([Invoke(a)]) == 0
  {
    assert [Invoke(a)][..0] == [];
  }

  lemma AttemptsOfPause(s: RetryStrategy, attempt: nat)
    ensures Attempts(PauseAfter(s, attempt)) == []
    ensures WaitCount(PauseAfter(s, attempt)) == if s.ExponentialBackoff? || s.FixedDelay? then 1 else 0
  {
    if s.ExponentialBackoff? || s.FixedDelay? {
      assert PauseAfter(s, attempt)[..0] == [];
    }
  }

  /** The events a run adds with its `calls`-th attempt: the pause after the
      previous attempt, if any, then the attempt. */
  function NextEvents(s: RetryStrategy, calls: nat): seq<RetryEvent>
    requires calls > 0
  {
    (if calls == 1 then [] else PauseAfter(s, calls - 2)) + [Invoke(calls - 1)]
  }

  lemma NextEventsShape(s: RetryStrategy, calls: nat)
    requires calls > 0
    ensures Schedule(s, calls) == Schedule(s, calls - 1) + NextEvents(s, calls)
    ensures Attempts(NextEvents(s, calls)) == [calls - 1]
    ensures WaitCount(NextEvents(s, calls)) ==
              if calls > 1 && (s.ExponentialBackoff? || s.FixedDelay?) then 1 else 0
    ensures NextEvents(s, calls)[|NextEvents(s, calls)| - 1] == Invoke(calls - 1)
  {
    var pause := if calls == 1 then [] else PauseAfter(s, calls - 2);
    var prev := Schedule(s, calls - 1);
    var next := NextEvents(s, calls);
    assert next == pause + [Invoke(calls - 1)];
    assert Schedule(s, calls) == prev + pause + [Invoke(calls - 1)];
    assert prev + pause + [Invoke(calls - 1)] == prev + next;
    if calls > 1 {
      AttemptsOfPause(s, calls - 2);
    } else {
      assert pause == [];
    }
    AttemptsAppend(pause, [Invoke(calls - 1)]);
    AttemptsOfInvoke(calls - 1);
    assert next[|next| - 1] == Invoke(calls - 1);
  }

  /** A run of `calls` attempts makes attempts 0, 1, …, calls-1, in order. */
  lemma {:induction false} ScheduleAttempts(s: RetryStrategy, calls: nat)
    ensures |Attempts(Schedule(s, calls))| == calls
    ensures forall i :: 0 <= i < calls ==> Attempts(Schedule(s, calls))[i] == i
  {
    if calls > 0 {
      var prev := Schedule(s, calls - 1);
      var next := NextEvents(s, calls);
      ScheduleAttempts(s, calls - 1);
      NextEventsShape(s, calls);
      AttemptsExtend(prev, next, calls - 1);
    }
  }

  /** Events that record attempts 0, …, n-1, followed by events that record
      attempt n, record attempts 0, …, n. */
  lemma AttemptsExtend(prev: seq<RetryEvent>, next: seq<RetryEvent>, n: nat)
    requires |Attempts(prev)| == n && forall i :: 0 <= i < n ==> Attempts(prev)[i] == i
    requires Attempts(next) == [n]
    ensures |Attempts(prev + next)| == n + 1
    ensures forall i :: 0 <= i <= n ==> Attempts(prev + next)[i] == i
  {
    AttemptsAppend(prev, next);
  }

  /** A run never waits after its last attempt. */
  lemma ScheduleEndsWithAttempt(s: RetryStrategy, calls: nat)
    requires calls > 0
    ensures Schedule(s, calls)[|Schedule(s, calls)| - 1] == Invoke(calls - 1)
  {
    var next := NextEvents(s, calls);
    NextEventsShape(s, calls);
    assert Schedule(s, calls)[|Schedule(s, calls)| - 1] == next[|next| - 1];
  }

  /** Backoff and fixed-delay runs wait once between every two attempts;
      immediate runs never wait. */
  lemma {:induction false} ScheduleWaits(s: RetryStrategy, calls: nat)
    ensures (s.ExponentialBackoff? || s.FixedDelay?) && calls > 0 ==> WaitCount(Schedule(s, calls)) == calls - 1
    ensures s.Immediate? ==> WaitCount(Schedule(s, calls)) == 0
  {
    if calls > 0 {
      var prev := Schedule(s, calls - 1);
      var next := NextEvents(s, calls);
      ScheduleWaits(s, calls - 1);
      NextEventsShape(s, calls);
      AttemptsAppend(prev, next);
      assert WaitCount(Schedule(s, calls)) == WaitCount(prev) + WaitCount(next);
    }
  }

  /** Every wait of a fixed-delay run lasts its `delayMs`. */
  lemma {:induction false} FixedDelayWaits(s: RetryStrategy, calls: nat)
    requires s.FixedDelay?
    ensures forall e :: e in Schedule(s, calls) && e.Wait? ==> e.duration == s.delayMs
  {
    if calls > 0 {
      FixedDelayWaits(s, calls - 1);
    }
  }

  /** In an exponential run the wait just before attempt n lasts the
      strategy's delay for attempt n-1. */
  lemma BackoffWaitBeforeAttempt(s: RetryStrategy, calls: nat)
    requires s.ExponentialBackoff? && calls > 1
    ensures Schedule(s, calls)[|Schedule(s, calls)| - 2] == Wait(s.delayFor(calls - 2))
  {
    var prev := Schedule(s, calls - 1);
    assert Schedule(s, calls) == prev + [Wait(s.delayFor(calls - 2)), Invoke(calls - 1)];
  }

  /** The failure returned when a counted strategy allows no attempt. */
  const RetryLogicError := Throwable("IllegalStateException", Some("Retry logic error"))

  /** The `Result` an attempt's outcome settles into. */
  function Settle<T>(o: Outcome<T>): (r: Result<T>)
    ensures o.Returned? <==> r.Success?
    ensures o.Returned? ==> r.value == o.value
    ensures o.Raised? ==> r.error == o.exception
  {
    match o
    case Returned(v) => Success(v)
    case Raised(e) => Failure(e)
  }

  /** The events before attempt `n` followed by that attempt are the run of
      `n + 1` attempts. */
  lemma ScheduleStep(s: RetryStrategy, n: nat)
    ensures Schedule(s, n) + (if n == 0 then [] else PauseAfter(s, n - 1)) + [Invoke(n)] == Schedule(s, n + 1)
  {
  }

  /** `retryWithStrategy(strategy, operation)`. The result is the first
      success, or the last attempt's exception when every allowed attempt
      failed; a counted strategy that allows no attempt fails with "Retry
      logic error" without calling the operation. */
  method RetryWithStrategy<T>(strategy: RetryStrategy, operation: nat -> Outcome<T>)
    returns (r: Result<T>, events: seq<RetryEvent>, calls: nat)
    ensures AttemptLimit(strategy) <= 0 ==> calls == 0 && r == Failure(RetryLogicError)
    ensures AttemptLimit(strategy) > 0 ==> 1 <= calls <= AttemptLimit(strategy)
    ensures (strategy.NoRetry? || strategy.WhenOnline?) ==> calls == 1 && events == [Invoke(0)]
    ensures events == Schedule(strategy, calls)
    ensures forall k :: 0 <= k < calls - 1 ==> operation(k).Raised?
    ensures calls > 0 ==> r == Settle(operation(calls - 1))
    ensures 0 < calls < AttemptLimit(strategy) ==> operation(calls - 1).Returned?
  {
    var limit := AttemptLimit(strategy);
    events := [];
    calls := 0;
    var attempt: nat := 0;
    while attempt < limit
      invariant attempt == calls
      invariant limit > 0 ==> attempt < limit
      invariant limit <= 0 ==> attempt == 0
      invariant events == Schedule(strategy, attempt) + (if attempt == 0 then [] else PauseAfter(strategy, attempt - 1))
      invariant forall k :: 0 <= k < attempt ==> operation(k).Raised?
    {
      ScheduleStep(strategy, attempt);
      events := events + [Invoke(attempt)];
      calls := attempt + 1;
      var outcome := operation(attempt);
      if outcome.Returned? {
        return Success(outcome.value), events, calls;
      }
      if attempt == limit - 1 {
        return Failure(outcome.exception), events, calls;
      }
      events := events + PauseAfter(strategy, attempt);
      attempt := attempt + 1;
    }
    r := Failure(RetryLogicError);
  }

  /** `calculateExponentialBackoff` as written, for an integral
      `multiplier`: the power goes through `Double.toLong()` (saturating),
      and the product with `initialDelayMs` is a 64-bit multiplication that
      wraps. */
  function BackoffAsWritten(attempt: int, initialDelayMs: int, maxDelayMs: int, multiplier: nat): (r: int)
    ensures r <= maxDelayMs
  {
    var power :=
      if attempt >= 0 then SaturateLong(Pow(multiplier, attempt))
      else if multiplier == 0 then LongMax
      else if multiplier == 1 then 1
      else 0;
    Min(WrapLong(initialDelayMs * power), maxDelayMs)
  }

  /** The delay the formula evidently intends: `initialDelayMs · multiplier^attempt`,
      capped at `maxDelayMs`, computed without overflow. */
  function Backoff(attempt: nat, initialDelayMs: nat, maxDelayMs: nat, multiplier: nat): (r: nat)
    ensures r <= maxDelayMs
    ensures r <= initialDelayMs * Pow(multiplier, attempt)
    ensures r == maxDelayMs || r == initialDelayMs * Pow(multiplier, attempt)
  {
    PowNonNegative(multiplier, attempt);
    Min(initialDelayMs * Pow(multiplier, attempt), maxDelayMs)
  }

  lemma {:induction false} PowNonNegative(b: nat, e: nat)
    ensures Pow(b, e) >= 0
    ensures b >= 1 ==> Pow(b, e) >= 1
  {
    if e > 0 {
      PowNonNegative(b, e - 1);
    }
  }

  lemma {:induction false} PowAdd(b: int, x: nat, y: nat)
    ensures Pow(b, x + y) == Pow(b, x) * Pow(b, y)
  {
    if y > 0 {
      PowAdd(b, x, y - 1);
    }
  }

  lemma {:induction false} PowMonotone(b: nat, e: nat)
    requires b >= 1
    ensures Pow(b, e) <= Pow(b, e + 1)
  {
    PowNonNegative(b, e);
  }

  /** With a multiplier of at least one the delay never shrinks from one
      attempt to the next, and with multiplier 2 it is `min(initial·2^attempt, max)`. */
  lemma BackoffGrows(attempt: nat, initialDelayMs: nat, maxDelayMs: nat, multiplier: nat)
    requires multiplier >= 1
    ensures Backoff(attempt, initialDelayMs, maxDelayMs, multiplier)
            <= Backoff(attempt + 1, initialDelayMs, maxDelayMs, multiplier)
  {
    PowMonotone(multiplier, attempt);
    PowNonNegative(multiplier, attempt);
    assert initialDelayMs * Pow(multiplier, attempt) <= initialDelayMs * Pow(multiplier, attempt + 1);
  }

  /** Whenever the product fits in a `Long`, the formula as written gives
      the intended delay. */
  lemma AsWrittenAgreesWithoutOverflow(attempt: nat, initialDelayMs: nat, maxDelayMs: nat, multiplier: nat)
    requires initialDelayMs * Pow(multiplier, attempt) <= LongMax
    ensures BackoffAsWritten(attempt, initialDelayMs, maxDelayMs, multiplier)
            == Backoff(attempt, initialDelayMs, maxDelayMs, multiplier)
  {
    PowNonNegative(multiplier, attempt);
    var power := Pow(multiplier, attempt);
    var product := initialDelayMs * power;
    SaturatedFactorFits(initialDelayMs, power);
    assert BackoffAsWritten(attempt, initialDelayMs, maxDelayMs, multiplier) == Min(WrapLong(product), maxDelayMs);
    assert Backoff(attempt, initialDelayMs, maxDelayMs, multiplier) == Min(product, maxDelayMs);
  }

  /** Saturating a factor changes nothing when the product already fits. */
  lemma SaturatedFactorFits(a: nat, p: nat)
    requires a * p <= LongMax
    ensures a * SaturateLong(p) == a * p
  {
    if a > 0 {
      assert p <= a * p;
    }
  }

  /** With the default arguments (1000 ms, 32 000 ms, ×2), attempt 54
      overflows the 64-bit product and the delay comes out negative
      instead of 32 000 ms. */
  lemma AsWrittenOverflowsAtAttempt54()
    ensures BackoffAsWritten(54, 1000, 32000, 2) == -432345564227567616
    ensures Backoff(54, 1000, 32000, 2) == 32000
  {
    PowAdd(2, 9, 9);
    PowAdd(2, 18, 9);
    PowAdd(2, 27, 27);
    assert Pow(2, 54) == 18014398509481984;
  }
}

=== FILE: search_repository.dfy ===
/** `SearchRepositoryImpl`: a search that merges the server's results with
    the local full-text matches, and the trending topics counted over the
    cached summaries. The rows the local queries return are inputs. */
module SearchRepository {
  import opened Wrappers
  import opened Domain
  import opened Dto
  import opened Database
  import opened SummaryMapper
  import opened Collections
  import SummaryRepository

  function SummaryId(s: Summary): int {
    s.id
  }

  /** The ids of a list of summaries. */
  function Ids(ss: seq<Summary>): set<int> {
    set x | x in ss :: x.id
  }

  /** `searchLocal(query)`: the rows the full-text query matched, mapped as
      the list reads map them; a row that does not decode fails the search. */
  function SearchLocal(rows: seq<SummaryRow>): (r: Result<seq<Summary>>)
    ensures r.Success? <==> forall i :: 0 <= i < |rows| ==> RowToSummary(rows[i]).Some?
    ensures r.Success? ==> |r.value| == |rows|
    ensures r.Success? ==> forall i :: 0 <= i < |rows| ==> Some(r.value[i]) == RowToSummary(rows[i])
    ensures r.Failure? ==>
              var i := SummaryRepository.FirstUndecodable(rows);
              r.error == SummaryRepository.UnknownSyncStatus(rows[i].syncStatus)
              && r.error.message.Some?
  {
    match SummaryRepository.ReadRows(rows)
    case Some(ss) => Success(ss)
    case None => Failure(SummaryRepository.ReadFailure(rows))
  }

  /** `searchLocal(query).getOrNull() ?: emptyList()`. */
  function LocalOrEmpty(rows: seq<SummaryRow>): (r: seq<Summary>)
    ensures SearchLocal(rows).Success? ==> r == SearchLocal(rows).value
    ensures SearchLocal(rows).Failure? ==> r == []
  {
    match SearchLocal(rows)
    case Success(ss) => ss
    case Failure(_) => []
  }

  /** `(remote + local).distinctBy { it.id }.take(limit)`. */
  function Merge(remote: seq<Summary>, local: seq<Summary>, limit: nat): (r: seq<Summary>)
    ensures |r| <= limit
    ensures DistinctKeys(r, SummaryId)
    ensures forall x :: x in r ==> x in remote || x in local
  {
    Take(DistinctBy(remote + local, SummaryId), limit)
  }

  /** On an id both sides return, the remote summary is the one kept. */
  lemma MergePrefersRemote(remote: seq<Summary>, local: seq<Summary>, limit: nat, x: Summary, i: int)
    requires x in Merge(remote, local, limit)
    requires 0 <= i < |remote| && x.id == remote[i].id
    ensures x in remote
  {
    var xs := remote + local;
    var j := FirstOccurrence(xs, SummaryId, i);
    assert x in DistinctBy(xs, SummaryId);
    assert x == xs[j] == remote[j];
  }

  /** Below the limit nothing is dropped: every id of either side is in the
      merge. */
  lemma MergeKeepsEveryIdBelowLimit(remote: seq<Summary>, local: seq<Summary>, limit: nat)
    requires |Merge(remote, local, limit)| < limit
    ensures Ids(Merge(remote, local, limit)) == Ids(remote) + Ids(local)
  {
    var xs := remote + local;
    var r := Merge(remote, local, limit);
    assert r == DistinctBy(xs, SummaryId);
    forall id | id in Ids(remote) + Ids(local)
      ensures id in Ids(r)
    {
      var y :| (y in remote || y in local) && y.id == id;
      assert y in xs;
      var j :| 0 <= j < |xs| && xs[j] == y;
      var i := DistinctByKeepsEveryKey(xs, SummaryId, j);
      assert xs[i] in r && xs[i].id == id;
    }
  }

  /** `search(query, limit, offset)`: the local matches are read first (a
      failure counts as none); a usable server answer is merged with them,
      remote first; an unusable one leaves the local matches; an exception,
      including the one `take` throws for a negative limit, falls back to a
      second local search whose failure is returned. */
  function Search(localRows: seq<SummaryRow>, limit: int, call: ApiCall<SearchResponseDto>, now: Instant)
    : (r: Result<seq<Summary>>)
    ensures call.Threw? ==> r == SearchLocal(localRows)
    ensures call.Answered? && !Usable(call.response) ==> r == Success(LocalOrEmpty(localRows))
    ensures call.Answered? && Usable(call.response) && limit < 0 ==> r == SearchLocal(localRows)
    ensures call.Answered? && Usable(call.response) && limit >= 0 ==>
              r.Success? && |r.value| <= limit && DistinctKeys(r.value, SummaryId)
              && r.value == Merge(SearchResultsToSummaries(call.response.data.value.results, now), LocalOrEmpty(localRows), limit)
  {
    var local := LocalOrEmpty(localRows);
    match call
    case Threw(_) => SearchLocal(localRows)
    case Answered(response) =>
      if Usable(response) then
        if limit < 0 then SearchLocal(localRows)
        else Success(Merge(SearchResultsToSummaries(response.data.value.results, now), local, limit))
      else Success(local)
  }

  /** Local rows that fail to decode change nothing while the server
      answers: the search is the one with no local matches. */
  lemma LocalFailureContributesNothing(localRows: seq<SummaryRow>, limit: int, call: ApiCall<SearchResponseDto>, now: Instant)
    requires SearchLocal(localRows).Failure?
    requires call.Answered? && (limit >= 0 || !Usable(call.response))
    ensures Search(localRows, limit, call, now) == Search([], limit, call, now)
  {
  }

  /** A topic and how many cached summaries carry it (with repeats). */
  datatype TopicCount = TopicCount(topic: string, count: nat)

  function TopicOf(e: TopicCount): string {
    e.topic
  }

  /** The `topicFrequency` map, a `LinkedHashMap`: its keys in insertion
      order, and the counts. */
  datatype Frequencies = Frequencies(order: seq<string>, counts: map<string, nat>)

  /** One `topicFrequency[topic] = (topicFrequency[topic] ?: 0) + 1`. */
  function Bump(f: Frequencies, t: string): Frequencies {
    if t in f.counts then f.(counts := f.counts[t := f.counts[t] + 1])
    else Frequencies(f.order + [t], f.counts[t := 1])
  }

  function Itself(t: string): string {
    t
  }

  /** The map after counting the first `n` tags: its keys are the distinct
      tags in order of first occurrence, each mapped to its count. */
  function FrequenciesAfter(tags: seq<string>, n: nat): (f: Frequencies)
    requires n <= |tags|
    ensures f.order == DistinctPrefix(tags, Itself, n)
    ensures forall t :: t in f.counts <==> CountPrefix(tags, n, t) > 0
    ensures forall t :: t in f.counts ==> f.counts[t] == CountPrefix(tags, n, t)
    ensures forall i :: 0 <= i < |f.order| ==> f.order[i] in f.counts
  {
    if n == 0 then Frequencies([], map[])
    else
      CountPrefixZero(tags, n - 1, tags[n - 1]);
      Bump(FrequenciesAfter(tags, n - 1), tags[n - 1])
  }

  /** The tags of every row, in row order. */
  function AllTopics(rows: seq<SummaryRow>): seq<string> {
    if rows == [] then [] else rows[0].topicTags + AllTopics(rows[1..])
  }

  lemma {:induction false} AllTopicsMember(rows: seq<SummaryRow>, t: string) returns (k: nat)
    requires t in AllTopics(rows)
    ensures k < |rows| && t in rows[k].topicTags
  {
    if t in rows[0].topicTags {
      k := 0;
    } else {
      var k' := AllTopicsMember(rows[1..], t);
      k := k' + 1;
    }
  }

  /** The entries of the map, in key order. */
  function Entries(f: Frequencies): (es: seq<TopicCount>)
    requires forall i :: 0 <= i < |f.order| ==> f.order[i] in f.counts
    ensures |es| == |f.order|
    ensures forall i :: 0 <= i < |es| ==> es[i] == TopicCount(f.order[i], f.counts[f.order[i]])
  {
    seq(|f.order|, i requires 0 <= i < |f.order| => TopicCount(f.order[i], f.counts[f.order[i]]))
  }

  predicate NonIncreasing(s: seq<TopicCount>) {
    forall i, j :: 0 <= i < j < |s| ==> s[i].count >= s[j].count
  }

  /** The entries of `s` with count `c`, in order. */
  function WithCount(s: seq<TopicCount>, c: nat): seq<TopicCount> {
    if s == [] then [] else (if s[0].count == c then [s[0]] else []) + WithCount(s[1..], c)
  }

  /** Puts `x` after every entry with a strictly larger count. */
  function Insert(x: TopicCount, s: seq<TopicCount>): seq<TopicCount> {
    if s == [] || s[0].count <= x.count then [x] + s else [s[0]] + Insert(x, s[1..])
  }

  /** `sortedByDescending { it.value }`, a stable sort. */
  function SortByCountDescending(es: seq<TopicCount>): seq<TopicCount> {
    if es == [] then [] else Insert(es[0], SortByCountDescending(es[1..]))
  }

  lemma {:induction false} InsertIsPermutation(x: TopicCount, s: seq<TopicCount>)
    ensures multiset(Insert(x, s)) == multiset(s) + multiset{x}
  {
    if s != [] && s[0].count > x.count {
      InsertIsPermutation(x, s[1..]);
      assert s == [s[0]] + s[1..];
    }
  }

  lemma {:induction false} InsertKeepsOrder(x: TopicCount, s: seq<TopicCount>)
    requires NonIncreasing(s)
    ensures NonIncreasing(Insert(x, s))
  {
    if s != [] && s[0].count > x.count {
      InsertKeepsOrder(x, s[1..]);
      InsertIsPermutation(x, s[1..]);
      var rest := Insert(x, s[1..]);
      forall j | 0 <= j < |rest|
        ensures s[0].count >= rest[j].count
      {
        assert rest[j] in multiset(rest);
      }
      assert Insert(x, s) == [s[0]] + rest;
    }
  }

  lemma {:induction false} InsertKeepsTopicsDistinct(x: TopicCount, s: seq<TopicCount>)
    requires DistinctKeys(s, TopicOf)
    requires forall y :: y in s ==> y.topic != x.topic
    ensures DistinctKeys(Insert(x, s), TopicOf)
  {
    if s != [] && s[0].count > x.count {
      InsertKeepsTopicsDistinct(x, s[1..]);
      InsertIsPermutation(x, s[1..]);
      var rest := Insert(x, s[1..]);
      forall j | 0 <= j < |rest|
        ensures s[0].topic != rest[j].topic
      {
        assert rest[j] in multiset(rest);
      }
    }
  }

  /** The entries with count `c` of a list with a given head. */
  lemma WithCountCons(y: TopicCount, t: seq<TopicCount>, c: nat)
    ensures WithCount([y] + t, c) == (if y.count == c then [y] else []) + WithCount(t, c)
  {
    assert ([y] + t)[1..] == t;
  }

  /** Inserting `x` adds it at the front of its own count's entries. */
  lemma {:induction false} InsertWithCount(x: TopicCount, s: seq<TopicCount>, c: nat)
    ensures WithCount(Insert(x, s), c) == (if x.count == c then [x] else []) + WithCount(s, c)
  {
    if s == [] || s[0].count <= x.count {
      WithCountCons(x, s, c);
    } else {
      var t := Insert(x, s[1..]);
      assert Insert(x, s) == [s[0]] + t;
      InsertWithCount(x, s[1..], c);
      WithCountCons(s[0], t, c);
      WithCountCons(s[0], s[1..], c);
      assert s == [s[0]] + s[1..];
    }
  }

  /** The sort is a permutation. */
  lemma {:induction false} SortIsPermutation(es: seq<TopicCount>)
    ensures multiset(SortByCountDescending(es)) == multiset(es)
  {
    if es != [] {
      SortIsPermutation(es[1..]);
      InsertIsPermutation(es[0], SortByCountDescending(es[1..]));
      assert es == [es[0]] + es[1..];
    }
  }

  /** The sort leaves the counts non-increasing. */
  lemma {:induction false} SortIsOrdered(es: seq<TopicCount>)
    ensures NonIncreasing(SortByCountDescending(es))
  {
    if es != [] {
      SortIsOrdered(es[1..]);
      InsertKeepsOrder(es[0], SortByCountDescending(es[1..]));
    }
  }

  /** The sort is stable: the entries of each count keep their order. */
  lemma {:induction false} SortIsStable(es: seq<TopicCount>, c: nat)
    ensures WithCount(SortByCountDescending(es), c) == WithCount(es, c)
  {
    if es != [] {
      SortIsStable(es[1..], c);
      InsertWithCount(es[0], SortByCountDescending(es[1..]), c);
    }
  }

  lemma {:induction false} SortKeepsTopicsDistinct(es: seq<TopicCount>)
    requires DistinctKeys(es, TopicOf)
    ensures DistinctKeys(SortByCountDescending(es), TopicOf)
  {
    if es != [] {
      SortKeepsTopicsDistinct(es[1..]);
      SortIsPermutation(es[1..]);
      var rest := SortByCountDescending(es[1..]);
      forall y | y in rest
        ensures y.topic != es[0].topic
      {
        assert y in multiset(es[1..]);
        var j :| 0 <= j < |es[1..]| && es[1..][j] == y;
        assert es[j + 1] == y;
      }
      InsertKeepsTopicsDistinct(es[0], rest);
    }
  }

  function Topics(es: seq<TopicCount>): (ts: seq<string>)
    ensures |ts| == |es| && forall i :: 0 <= i < |es| ==> ts[i] == es[i].topic
  {
    seq(|es|, i requires 0 <= i < |es| => es[i].topic)
  }

  /** The exception `take` throws for a negative count. */
  function NegativeTake(limit: int): Throwable
    requires limit < 0
  {
    Throwable("IllegalArgumentException", Some(NegativeTakeMessage(limit)))
  }

  /** The entries of the counted map, sorted by count, most frequent first. */
  function RankedTopics(rows: seq<SummaryRow>): seq<TopicCount> {
    var tags := AllTopics(rows);
    SortByCountDescending(Entries(FrequenciesAfter(tags, |tags|)))
  }

  /** What the ranking holds: every entry is a distinct tag with its true
      count, every tag has an entry, and counts do not increase. */
  lemma RankedTopicsFacts(rows: seq<SummaryRow>)
    ensures var ranked := RankedTopics(rows);
            && DistinctKeys(ranked, TopicOf)
            && NonIncreasing(ranked)
            && (forall i :: 0 <= i < |ranked| ==>
                  (ranked[i].topic in AllTopics(rows) && ranked[i].count == Count(AllTopics(rows), ranked[i].topic)))
            && (forall t :: t in AllTopics(rows) ==> t in Topics(ranked))
  {
    var tags := AllTopics(rows);
    var es := Entries(FrequenciesAfter(tags, |tags|));
    EntriesFacts(tags);
    SortIsPermutation(es);
    SortIsOrdered(es);
    SortKeepsTopicsDistinct(es);
    PermutedEntries(es, RankedTopics(rows), tags);
  }

  /** The counted map's entries: distinct tags, each with its true count,
      and every tag among them. */
  lemma EntriesFacts(tags: seq<string>)
    ensures var es := Entries(FrequenciesAfter(tags, |tags|));
            && DistinctKeys(es, TopicOf)
            && (forall k :: 0 <= k < |es| ==> es[k].topic in tags && es[k].count == Count(tags, es[k].topic))
            && (forall t :: t in tags ==> t in Topics(es))
  {
    var f := FrequenciesAfter(tags, |tags|);
    var es := Entries(f);
    assert f.order == DistinctBy(tags, Itself);
    forall i, j | 0 <= i < j < |es|
      ensures es[i].topic != es[j].topic
    {
      assert Itself(f.order[i]) != Itself(f.order[j]);
    }
    forall k | 0 <= k < |es|
      ensures es[k].topic in tags && es[k].count == Count(tags, es[k].topic)
    {
      assert f.order[k] in f.order;
    }
    forall t | t in tags
      ensures t in Topics(es)
    {
      var j :| 0 <= j < |tags| && tags[j] == t;
      var i := DistinctByKeepsEveryKey(tags, Itself, j);
      var k :| 0 <= k < |f.order| && f.order[k] == t;
      assert Topics(es)[k] == t;
    }
  }

  /** A reordering of such entries keeps those facts. */
  lemma PermutedEntries(es: seq<TopicCount>, ranked: seq<TopicCount>, tags: seq<string>)
    requires multiset(ranked) == multiset(es)
    requires forall k :: 0 <= k < |es| ==> es[k].topic in tags && es[k].count == Count(tags, es[k].topic)
    requires forall t :: t in tags ==> t in Topics(es)
    ensures forall i :: 0 <= i < |ranked| ==> ranked[i].topic in tags && ranked[i].count == Count(tags, ranked[i].topic)
    ensures forall t :: t in tags ==> t in Topics(ranked)
  {
    forall i | 0 <= i < |ranked|
      ensures ranked[i].topic in tags && ranked[i].count == Count(tags, ranked[i].topic)
    {
      assert ranked[i] in multiset(es);
      var k :| 0 <= k < |es| && es[k] == ranked[i];
    }
    forall t | t in tags
      ensures t in Topics(ranked)
    {
      var k :| 0 <= k < |es| && Topics(es)[k] == t;
      assert es[k] in multiset(ranked);
      var m :| 0 <= m < |ranked| && ranked[m] == es[k];
      assert Topics(ranked)[m] == t;
    }
  }

  /** `getTrendingTopics(limit)`: the `limit` most frequent tags of the
      cached summaries, most frequent first; a negative limit makes `take`
      throw. */
  function GetTrendingTopics(rows: seq<SummaryRow>, limit: int): (r: Result<seq<string>>)
    ensures r.Success? <==> limit >= 0
    ensures r.Failure? ==> r.error == NegativeTake(limit)
    ensures r.Success? ==> r.value == Topics(Take(RankedTopics(rows), limit))
  {
    if limit < 0 then Failure(NegativeTake(limit))
    else Success(Topics(Take(RankedTopics(rows), limit)))
  }

  /** The trending topics are distinct tags that some cached summary
      carries, at most `limit` of them, by non-increasing count; a tag left
      out is no more frequent than the last one shown. */
  lemma TrendingTopicsAreTheMostFrequent(rows: seq<SummaryRow>, limit: nat)
    ensures var ts := GetTrendingTopics(rows, limit).value;
            && |ts| <= limit
            && (forall i, j :: 0 <= i < j < |ts| ==> ts[i] != ts[j])
            && (forall i, j :: 0 <= i < j < |ts| ==> Count(AllTopics(rows), ts[i]) >= Count(AllTopics(rows), ts[j]))
            && (forall t :: t in AllTopics(rows) && t !in ts ==>
                  |ts| == limit && (limit > 0 ==> Count(AllTopics(rows), t) <= Count(AllTopics(rows), ts[limit - 1])))
  {
    RankedTopicsFacts(rows);
    TakeOfRanking(RankedTopics(rows), AllTopics(rows), limit);
  }

  /** The first `limit` topics of a ranking of `tags` by true count. */
  lemma TakeOfRanking(ranked: seq<TopicCount>, tags: seq<string>, limit: nat)
    requires DistinctKeys(ranked, TopicOf) && NonIncreasing(ranked)
    requires forall i :: 0 <= i < |ranked| ==> ranked[i].count == Count(tags, ranked[i].topic)
    requires forall t :: t in tags ==> t in Topics(ranked)
    ensures var ts := Topics(Take(ranked, limit));
            && |ts| <= limit
            && (forall i, j :: 0 <= i < j < |ts| ==> ts[i] != ts[j])
            && (forall i, j :: 0 <= i < j < |ts| ==> Count(tags, ts[i]) >= Count(tags, ts[j]))
            && (forall t :: t in tags && t !in ts ==>
                  |ts| == limit && (limit > 0 ==> Count(tags, t) <= Count(tags, ts[limit - 1])))
  {
    var taken := Take(ranked, limit);
    var ts := Topics(taken);
    assert forall q :: 0 <= q < |taken| ==> taken[q] == ranked[q];
    forall i, j | 0 <= i < j < |ts|
      ensures ts[i] != ts[j]
    {
      assert TopicOf(ranked[i]) != TopicOf(ranked[j]);
    }
    forall t | t in tags && t !in ts
      ensures |ts| == limit && (limit > 0 ==> Count(tags, t) <= Count(tags, ts[limit - 1]))
    {
      var m :| 0 <= m < |ranked| && Topics(ranked)[m] == t;
      assert limit <= m;
      if limit > 0 {
        assert ranked[limit - 1].count >= ranked[m].count;
      }
    }
  }

  /** Every trending topic is a tag of some cached summary. */
  lemma TrendingTopicsComeFromSummaries(rows: seq<SummaryRow>, limit: nat, i: int) returns (k: nat)
    requires 0 <= i < |GetTrendingTopics(rows, limit).value|
    ensures k < |rows| && GetTrendingTopics(rows, limit).value[i] in rows[k].topicTags
  {
    RankedTopicsFacts(rows);
    k := AllTopicsMember(rows, GetTrendingTopics(rows, limit).value[i]);
  }

  /** Topics with equal counts keep the order in which they were first seen. */
  lemma TrendingTiesKeepFirstSeenOrder(rows: seq<SummaryRow>, c: nat)
    ensures var tags := AllTopics(rows);
            WithCount(RankedTopics(rows), c) == WithCount(Entries(FrequenciesAfter(tags, |tags|)), c)
  {
    var tags := AllTopics(rows);
    SortIsStable(Entries(FrequenciesAfter(tags, |tags|)), c);
  }
}

=== FILE: search_view_model.dfy ===
/** `SearchViewModel`: the search screen. `setQuery` arms a debounced
    search; the 300 ms wait itself is not modelled, only whether a
    debounced search is pending. Results of launched calls arrive as
    transitions of their own. */
module SearchViewModel {
  import opened Wrappers
  import opened Text
  import opened Domain
  import UseCases
  import SearchRepository
  import Database

  /** `SearchState`. */
  datatype SearchState = SearchState(
    query: string,
    results: seq<Summary>,
    isSearching: bool,
    error: Option<string>,
    trendingTopics: seq<string>)

  /** `SearchState()`. */
  const InitialState := SearchState("", [], false, None, [])

  /** The screen state and whether the debounced search job is pending. */
  datatype SearchVm = SearchVm(state: SearchState, debouncing: bool)

  /** How many trending topics the screen asks for. */
  const TrendingLimit := 10

  /** `setQuery(query)`: the query is shown at once and the debounced search
      is (re)armed; nothing else changes. */
  function SetQuery(vm: SearchVm, query: string): (r: SearchVm)
    ensures r.state.query == query && r.debouncing
    ensures r.state.(query := vm.state.query) == vm.state
  {
    SearchVm(vm.state.(query := query), true)
  }

  /** What `search()` does at once: the state it leaves and the query it
      hands to the launched call, if any. */
  datatype SearchStart = SearchStart(state: SearchState, launched: Option<string>)

  /** `search()`: a blank query empties the results and launches nothing,
      leaving the busy flag and the error alone; any other query marks the
      screen busy, clears the error, and is searched. */
  function Search(s: SearchState): (r: SearchStart)
    ensures IsBlank(s.query) ==> r == SearchStart(s.(results := []), None)
    ensures !IsBlank(s.query) ==> r == SearchStart(s.(isSearching := true, error := None), Some(s.query))
  {
    if IsBlank(s.query) then SearchStart(s.(results := []), None)
    else SearchStart(s.(isSearching := true, error := None), Some(s.query))
  }

  /** The debounce wait ending: a pending job runs `search()`. */
  function DebounceElapsed(vm: SearchVm): (r: (SearchVm, Option<string>))
    ensures !vm.debouncing ==> r == (vm, None)
    ensures vm.debouncing ==> r.0 == SearchVm(Search(vm.state).state, false) && r.1 == Search(vm.state).launched
  {
    if !vm.debouncing then (vm, None)
    else var start := Search(vm.state); (SearchVm(start.state, false), start.launched)
  }

  /** The launched query is never blank, so the use case (with its default
      limit and offset) always passes it to the repository. */
  lemma LaunchedQueryReachesRepository(s: SearchState)
    requires Search(s).launched.Some?
    ensures var q := Search(s).launched.value;
            UseCases.DecideSearch(q, UseCases.DefaultSearchLimit, UseCases.DefaultSearchOffset)
            == UseCases.SearchWith(q, UseCases.DefaultSearchLimit, UseCases.DefaultSearchOffset)
  {
  }

  /** The search call's outcome: results replace the shown ones, or the
      message is shown and the old results stay. */
  function OnSearchResult(s: SearchState, result: Result<seq<Summary>>): (r: SearchState)
    ensures !r.isSearching && r.query == s.query && r.trendingTopics == s.trendingTopics
    ensures result.Success? ==> r.results == result.value && r.error.None?
    ensures result.Failure? ==> r.results == s.results && r.error == result.error.message
  {
    match result
    case Success(results) => s.(results := results, isSearching := false, error := None)
    case Failure(e) => s.(isSearching := false, error := e.message)
  }

  /** `loadTrendingTopics()`'s outcome: topics are shown on success; a
      failure is ignored. */
  function OnTrendingTopics(s: SearchState, result: Result<seq<string>>): (r: SearchState)
    ensures result.Success? ==> r == s.(trendingTopics := result.value)
    ensures result.Failure? ==> r == s
  {
    if result.Success? then s.(trendingTopics := result.value) else s
  }

  /** The topics shown after the repository answers the screen's request
      are the repository's ranking itself: at most ten, and distinct. */
  lemma ShownTopicsAreTheTrendingOnes(s: SearchState, rows: seq<Database.SummaryRow>)
    ensures var shown := OnTrendingTopics(s, SearchRepository.GetTrendingTopics(rows, TrendingLimit)).trendingTopics;
            && shown == SearchRepository.GetTrendingTopics(rows, TrendingLimit).value
            && |shown| <= TrendingLimit
            && (forall i, j :: 0 <= i < j < |shown| ==> shown[i] != shown[j])
  {
    SearchRepository.TrendingTopicsAreTheMostFrequent(rows, TrendingLimit);
  }

  /** `clearSearch()`: every field is reset except the trending topics, and
      a pending debounced search is cancelled. */
  function ClearSearch(vm: SearchVm): (r: SearchVm)
    ensures r.state == InitialState.(trendingTopics := vm.state.trendingTopics)
    ensures !r.debouncing
  {
    SearchVm(InitialState.(trendingTopics := vm.state.trendingTopics), false)
  }

  /** After clearing, a search finds nothing to launch and the screen stays
      cleared; clearing twice is clearing once. */
  lemma ClearedScreenStaysEmpty(vm: SearchVm)
    ensures Search(ClearSearch(vm).state).launched.None?
    ensures Search(ClearSearch(vm).state).state == ClearSearch(vm).state
    ensures DebounceElapsed(ClearSearch(vm)) == (ClearSearch(vm), None)
    ensures ClearSearch(ClearSearch(vm)) == ClearSearch(vm)
  {
  }
}

=== FILE: secure_storage.dfy ===
/** The desktop `SecureStorage`: an in-memory string map, with the two
    token slots under fixed keys. */
module SecureStorage {
  import opened Wrappers

  type Storage = map<string, string>

  const AccessTokenKey := "access_token"
  const RefreshTokenKey := "refresh_token"

  /** `getString(key)`. */
  function GetString(st: Storage, key: string): (r: Option<string>)
    ensures r.Some? <==> key in st
    ensures r.Some? ==> r.value == st[key]
  {
    if key in st then Some(st[key]) else None
  }

  /** `saveString(key, value)`. */
  function SaveString(st: Storage, key: string, value: string): (r: Storage)
    ensures r.Keys == st.Keys + {key}
    ensures GetString(r, key) == Some(value)
    ensures forall k :: k != key ==> GetString(r, k) == GetString(st, k)
  {
    st[key := value]
  }

  /** `remove(key)`. */
  function Remove(st: Storage, key: string): (r: Storage)
    ensures r.Keys == st.Keys - {key}
    ensures GetString(r, key) == None
    ensures forall k :: k != key ==> GetString(r, k) == GetString(st, k)
  {
    st - {key}
  }

  /** `clear()`. */
  function Clear(st: Storage): (r: Storage)
    ensures forall k :: GetString(r, k) == None
  {
    map[]
  }

  function SaveAccessToken(st: Storage, token: string): (r: Storage)
    ensures GetAccessToken(r) == Some(token) && GetRefreshToken(r) == GetRefreshToken(st)
  {
    SaveString(st, AccessTokenKey, token)
  }

  function GetAccessToken(st: Storage): Option<string> {
    GetString(st, AccessTokenKey)
  }

  function SaveRefreshToken(st: Storage, token: string): (r: Storage)
    ensures GetRefreshToken(r) == Some(token) && GetAccessToken(r) == GetAccessToken(st)
  {
    SaveString(st, RefreshTokenKey, token)
  }

  function GetRefreshToken(st: Storage): Option<string> {
    GetString(st, RefreshTokenKey)
  }

  /** `clearTokens()`: removes the two token slots and nothing else. */
  function ClearTokens(st: Storage): (r: Storage)
    ensures GetAccessToken(r) == None && GetRefreshToken(r) == None
    ensures forall k :: k != AccessTokenKey && k != RefreshTokenKey ==> GetString(r, k) == GetString(st, k)
  {
    Remove(Remove(st, AccessTokenKey), RefreshTokenKey)
  }

  /** Saving then reading a key gives the value; removing it makes it
      absent; neither touches another key; and saving the value a key
      already holds changes nothing. */
  lemma StorageLaws(st: Storage, key: string, value: string, other: string)
    ensures GetString(SaveString(st, key, value), key) == Some(value)
    ensures GetString(Remove(st, key), key) == None
    ensures other != key ==> GetString(SaveString(st, key, value), other) == GetString(st, other)
    ensures other != key ==> GetString(Remove(st, key), other) == GetString(st, other)
    ensures GetString(st, key) == Some(value) ==> SaveString(st, key, value) == st
    ensures Remove(SaveString(st, key, value), key) == Remove(st, key)
  {
  }
}

=== FILE: share_text.dfy ===
/** `Summary.toShareText(customMessage)`: the text a summary is shared as.
    `ToShareText` follows the builder block by block; `ShareLines` lists
    the lines it produces, and `ShareTextLayout` ties the two together. */
module ShareText {
  import opened Wrappers
  import opened Text
  import opened Domain

  /** Lines, each followed by a line break. */
  function Unlines(lines: seq<string>): string {
    if lines == [] then "" else lines[0] + "\n" + Unlines(lines[1..])
  }

  /** Breaking a list of lines in two splits its text in two. */
  lemma {:induction false} UnlinesAppend(xs: seq<string>, ys: seq<string>)
    ensures Unlines(xs + ys) == Unlines(xs) + Unlines(ys)
  {
    if xs == [] {
      assert xs + ys == ys;
    } else {
      UnlinesAppend(xs[1..], ys);
      assert (xs + ys)[1..] == xs[1..] + ys;
      assert Unlines(xs + ys) == xs[0] + "\n" + (Unlines(xs[1..]) + Unlines(ys));
    }
  }

  /** `appendLine(s)`. */
  function AppendLine(b: string, s: string): (r: string)
    ensures r == b + Unlines([s])
  {
    assert [s][1..] == [];
    b + s + "\n"
  }

  /** The bullet line of each key idea. */
  function Bullets(points: seq<string>): (r: seq<string>)
    ensures |r| == |points| && forall i :: 0 <= i < |r| ==> r[i] == "• " + points[i]
  {
    if points == [] then [] else ["• " + points[0]] + Bullets(points[1..])
  }

  /** `forEach { appendLine("• $it") }`. */
  function AppendBullets(b: string, points: seq<string>): (r: string)
    ensures r == b + Unlines(Bullets(points))
    decreases |points|
  {
    if points == [] then b
    else
      var line := "• " + points[0];
      var r := AppendBullets(AppendLine(b, line), points[1..]);
      assert Bullets(points)[1..] == Bullets(points[1..]);
      assert Unlines(Bullets(points)) == line + "\n" + Unlines(Bullets(points[1..]));
      r
  }

  /** `tags.map { "#$it" }`. */
  function HashTags(tags: seq<string>): (r: seq<string>)
    ensures |r| == |tags| && forall i :: 0 <= i < |r| ==> r[i] == "#" + tags[i]
  {
    seq(|tags|, i requires 0 <= i < |tags| => "#" + tags[i])
  }

  /** `!customMessage.isNullOrBlank()`. */
  predicate HasCustomMessage(customMessage: Option<string>) {
    customMessage.Some? && !IsBlank(customMessage.value)
  }

  /** The lines of each block of the text. */
  function CustomBlock(customMessage: Option<string>): (r: seq<string>)
    ensures HasCustomMessage(customMessage) ==> r == [customMessage.value, ""]
    ensures !HasCustomMessage(customMessage) ==> r == []
  {
    if HasCustomMessage(customMessage) then [customMessage.value, ""] else []
  }

  function TldrBlock(tldr: string): (r: seq<string>)
    ensures !IsBlank(tldr) ==> r == ["Summary:", tldr, ""]
    ensures IsBlank(tldr) ==> r == []
  {
    if !IsBlank(tldr) then ["Summary:", tldr, ""] else []
  }

  function IdeasBlock(ideas: seq<string>): (r: seq<string>)
    ensures ideas != [] ==> r == ["Key Points:"] + Bullets(ideas) + [""]
    ensures ideas == [] ==> r == []
  {
    if ideas != [] then ["Key Points:"] + Bullets(ideas) + [""] else []
  }

  /** The tags line: `#tag` entries joined by ", ". */
  function TagsLine(tags: seq<string>): string {
    "Tags: " + Join(HashTags(tags), ", ")
  }

  function TagsBlock(tags: seq<string>): (r: seq<string>)
    ensures tags != [] ==> r == ["", TagsLine(tags)]
    ensures tags == [] ==> r == []
  {
    if tags != [] then ["", TagsLine(tags)] else []
  }

  /** The builder, one `if` block of the source at a time. */
  function AppendCustom(b: string, customMessage: Option<string>): (r: string)
    ensures r == b + Unlines(CustomBlock(customMessage))
  {
    if HasCustomMessage(customMessage) then
      UnlinesAppend([customMessage.value], [""]);
      AppendLine(AppendLine(b, customMessage.value), "")
    else
      b
  }

  function AppendTitle(b: string, title: string): (r: string)
    ensures r == b + Unlines([title, ""])
  {
    UnlinesAppend([title], [""]);
    AppendLine(AppendLine(b, title), "")
  }

  function AppendTldr(b: string, tldr: string): (r: string)
    ensures r == b + Unlines(TldrBlock(tldr))
  {
    if !IsBlank(tldr) then
      UnlinesAppend(["Summary:"], [tldr]);
      UnlinesAppend(["Summary:", tldr], [""]);
      AppendLine(AppendLine(AppendLine(b, "Summary:"), tldr), "")
    else
      b
  }

  function AppendIdeas(b: string, ideas: seq<string>): (r: string)
    ensures r == b + Unlines(IdeasBlock(ideas))
  {
    if ideas != [] then
      UnlinesAppend(["Key Points:"], Bullets(ideas));
      UnlinesAppend(["Key Points:"] + Bullets(ideas), [""]);
      AppendLine(AppendBullets(AppendLine(b, "Key Points:"), ideas), "")
    else
      b
  }

  /** The tags block: an empty line, then the tags with no line break. */
  function AppendTags(b: string, tags: seq<string>): (r: string)
    ensures tags == [] ==> r == b
    ensures tags != [] ==> r == b + "\n" + TagsLine(tags)
  {
    if tags != [] then AppendLine(b, "") + TagsLine(tags) else b
  }

  /** `toShareText(customMessage)`. */
  function ToShareText(s: Summary, customMessage: Option<string>): string {
    var b1 := AppendTitle(AppendCustom("", customMessage), s.title);
    var b3 := AppendIdeas(AppendTldr(b1, s.tldr), s.keyIdeas);
    AppendTags(AppendLine(b3, "Read more: " + s.url), s.topicTags)
  }

  /** The lines up to and including "Read more:". */
  function BodyLines(s: Summary, customMessage: Option<string>): seq<string> {
    CustomBlock(customMessage) + [s.title, ""] + TldrBlock(s.tldr) + IdeasBlock(s.keyIdeas)
    + ["Read more: " + s.url]
  }

  /** Every line of the shared text, in order. */
  function ShareLines(s: Summary, customMessage: Option<string>): seq<string> {
    BodyLines(s, customMessage) + TagsBlock(s.topicTags)
  }

  /** Five blocks laid end to end make their texts laid end to end. */
  lemma UnlinesOfBlocks(c: seq<string>, t: seq<string>, d: seq<string>, k: seq<string>, m: seq<string>)
    ensures Unlines(c + t + d + k + m) == Unlines(c) + Unlines(t) + Unlines(d) + Unlines(k) + Unlines(m)
  {
    UnlinesAppend(c, t);
    UnlinesAppend(c + t, d);
    UnlinesAppend(c + t + d, k);
    UnlinesAppend(c + t + d + k, m);
  }

  /** The tags block adds an empty line and the unterminated tags line. */
  lemma TagsTail(body: seq<string>, b: string, tags: seq<string>)
    requires b == Unlines(body)
    ensures var lines := body + TagsBlock(tags);
            && (tags == [] ==> AppendTags(b, tags) == Unlines(lines))
            && (tags != [] ==> AppendTags(b, tags) == Unlines(lines[..|lines| - 1]) + lines[|lines| - 1])
  {
    var lines := body + TagsBlock(tags);
    if tags == [] {
      assert lines == body;
    } else {
      assert lines[..|lines| - 1] == body + [""];
      UnlinesAppend(body, [""]);
      assert [""][1..] == [];
    }
  }

  /** The text before the tags block is the body lines, each ended by a
      line break. */
  lemma BodyText(s: Summary, customMessage: Option<string>)
    ensures var b1 := AppendTitle(AppendCustom("", customMessage), s.title);
            var b3 := AppendIdeas(AppendTldr(b1, s.tldr), s.keyIdeas);
            AppendLine(b3, "Read more: " + s.url) == Unlines(BodyLines(s, customMessage))
  {
    var c := CustomBlock(customMessage);
    var t := [s.title, ""];
    var d := TldrBlock(s.tldr);
    var k := IdeasBlock(s.keyIdeas);
    var m := ["Read more: " + s.url];
    var b0 := AppendCustom("", customMessage);
    assert b0 == Unlines(c);
    var b1 := AppendTitle(b0, s.title);
    assert b1 == Unlines(c) + Unlines(t);
    var b2 := AppendTldr(b1, s.tldr);
    assert b2 == b1 + Unlines(d);
    var b3 := AppendIdeas(b2, s.keyIdeas);
    assert b3 == b2 + Unlines(k);
    var b4 := AppendLine(b3, "Read more: " + s.url);
    assert b4 == b3 + Unlines(m);
    UnlinesOfBlocks(c, t, d, k, m);
    assert BodyLines(s, customMessage) == c + t + d + k + m;
  }

  /** The text is the lines, each ended by a line break except the tags
      line, which has none: without tags the text ends with a line break,
      with tags it ends with the tags themselves. */
  lemma ShareTextLayout(s: Summary, customMessage: Option<string>)
    ensures var lines := ShareLines(s, customMessage);
            && (s.topicTags == [] ==> ToShareText(s, customMessage) == Unlines(lines))
            && (s.topicTags != [] ==>
                  ToShareText(s, customMessage) == Unlines(lines[..|lines| - 1]) + lines[|lines| - 1])
  {
    var b1 := AppendTitle(AppendCustom("", customMessage), s.title);
    var b3 := AppendIdeas(AppendTldr(b1, s.tldr), s.keyIdeas);
    var b4 := AppendLine(b3, "Read more: " + s.url);
    assert ToShareText(s, customMessage) == AppendTags(b4, s.topicTags);
    BodyText(s, customMessage);
    TagsTail(BodyLines(s, customMessage), b4, s.topicTags);
  }

  /** Where the title line is. */
  function TitleIndex(customMessage: Option<string>): nat {
    if HasCustomMessage(customMessage) then 2 else 0
  }

  /** A non-blank custom message opens the text, followed by an empty
      line; then comes the title and an empty line. */
  lemma ShareLinesOpening(s: Summary, customMessage: Option<string>)
    ensures var r := ShareLines(s, customMessage);
            && (HasCustomMessage(customMessage) ==> r[0] == customMessage.value && r[1] == "")
            && r[TitleIndex(customMessage)] == s.title && r[TitleIndex(customMessage) + 1] == ""
  {
    var c := CustomBlock(customMessage);
    var front := c + [s.title, ""];
    var x, y, z, w := TldrBlock(s.tldr), IdeasBlock(s.keyIdeas), ["Read more: " + s.url], TagsBlock(s.topicTags);
    assert ShareLines(s, customMessage) == front + x + y + z + w;
    assert |c| == TitleIndex(customMessage);
    FrontAt(front, x, y, z, w, |c|);
    FrontAt(front, x, y, z, w, |c| + 1);
    if HasCustomMessage(customMessage) {
      FrontAt(front, x, y, z, w, 0);
      FrontAt(front, x, y, z, w, 1);
    }
  }

  /** A line of the leading block is the same line of the whole text. */
  lemma FrontAt(front: seq<string>, x: seq<string>, y: seq<string>, z: seq<string>, w: seq<string>, k: int)
    requires 0 <= k < |front|
    ensures (front + x + y + z + w)[k] == front[k]
  {
  }

  /** The "Summary:" block, right after the title block, is there exactly
      when the tl;dr is not blank. */
  lemma ShareLinesSummary(s: Summary, customMessage: Option<string>)
    ensures var r := ShareLines(s, customMessage);
            var t := TitleIndex(customMessage);
            && (r[t + 2] == "Summary:" <==> !IsBlank(s.tldr))
            && (!IsBlank(s.tldr) ==> r[t + 3] == s.tldr && r[t + 4] == "")
  {
    var front := CustomBlock(customMessage) + [s.title, ""];
    var d, k, m, g := TldrBlock(s.tldr), IdeasBlock(s.keyIdeas), ["Read more: " + s.url], TagsBlock(s.topicTags);
    assert ShareLines(s, customMessage) == front + d + k + m + g;
    assert |front| == TitleIndex(customMessage) + 2;
    if IsBlank(s.tldr) {
      var readMore := "Read more: " + s.url;
      assert readMore[0] == 'R';
      if s.keyIdeas == [] {
        BlocksAt3(front + d + k, m, g, 0);
      } else {
        BlocksAt4(front + d, k, m, g, 0);
      }
    } else {
      BlocksAt5(front, d, k, m, g, 0);
      BlocksAt5(front, d, k, m, g, 1);
      BlocksAt5(front, d, k, m, g, 2);
    }
  }

  /** Indexing into the second of several blocks laid end to end. */
  lemma BlocksAt3(a: seq<string>, b: seq<string>, x: seq<string>, i: int)
    requires 0 <= i < |b|
    ensures (a + b + x)[|a| + i] == b[i]
  {
  }

  lemma BlocksAt4(a: seq<string>, b: seq<string>, x: seq<string>, y: seq<string>, i: int)
    requires 0 <= i < |b|
    ensures (a + b + x + y)[|a| + i] == b[i]
  {
  }

  lemma BlocksAt5(a: seq<string>, b: seq<string>, x: seq<string>, y: seq<string>, z: seq<string>, i: int)
    requires 0 <= i < |b|
    ensures (a + b + x + y + z)[|a| + i] == b[i]
  {
  }

  /** Where the "Key Points:" line is, when there is one. */
  function IdeasIndex(s: Summary, customMessage: Option<string>): nat {
    TitleIndex(customMessage) + 2 + |TldrBlock(s.tldr)|
  }

  /** The "Key Points:" block follows, exactly when there are ideas: one
      bullet per idea, in order, and an empty line. */
  lemma ShareLinesIdeas(s: Summary, customMessage: Option<string>)
    ensures var r := ShareLines(s, customMessage);
            var m := IdeasIndex(s, customMessage);
            && (r[m] == "Key Points:" <==> s.keyIdeas != [])
            && (s.keyIdeas != [] ==>
                  (forall i :: 0 <= i < |s.keyIdeas| ==> r[m + 1 + i] == "• " + s.keyIdeas[i])
                  && r[m + 1 + |s.keyIdeas|] == "")
  {
    var r := ShareLines(s, customMessage);
    var front := CustomBlock(customMessage) + [s.title, ""] + TldrBlock(s.tldr);
    var k, m, g := IdeasBlock(s.keyIdeas), ["Read more: " + s.url], TagsBlock(s.topicTags);
    assert r == front + k + m + g;
    assert |front| == IdeasIndex(s, customMessage);
    if s.keyIdeas == [] {
      var readMore := "Read more: " + s.url;
      assert readMore[0] == 'R';
      BlocksAt3(front + k, m, g, 0);
    } else {
      BlocksAt4(front, k, m, g, 0);
      forall i | 0 <= i < |s.keyIdeas|
        ensures r[|front| + 1 + i] == "• " + s.keyIdeas[i]
      {
        BlocksAt4(front, k, m, g, 1 + i);
      }
      BlocksAt4(front, k, m, g, 1 + |s.keyIdeas|);
    }
  }

  /** Where the "Read more:" line is. */
  function ReadMoreIndex(s: Summary, customMessage: Option<string>): nat {
    IdeasIndex(s, customMessage) + |IdeasBlock(s.keyIdeas)|
  }

  /** "Read more: <url>" always follows; the text ends there without
      tags, and otherwise with an empty line and the tags line. */
  lemma ShareLinesEnding(s: Summary, customMessage: Option<string>)
    ensures var r := ShareLines(s, customMessage);
            var n := ReadMoreIndex(s, customMessage);
            && r[n] == "Read more: " + s.url
            && (s.topicTags == [] ==> |r| == n + 1)
            && (s.topicTags != [] ==> |r| == n + 3 && r[n + 1] == "" && r[n + 2] == TagsLine(s.topicTags))
  {
    var body := BodyLines(s, customMessage);
    assert |body| == ReadMoreIndex(s, customMessage) + 1;
  }
}

=== FILE: submit_url_view_model.dfy ===
/** `SubmitURLViewModel`: the submit screen's state machine. Each public
    entry point is a function from the state before to the state after;
    the coroutines it launches are split at their suspension points, so
    the result of a repository call arrives as its own transition. */
module SubmitUrlViewModel {
  import opened Wrappers
  import opened Text
  import opened Domain
  import opened Database
  import UseCases
  import RequestRepository

  /** `SubmitURLState`, together with the `validationError` field the view
      model writes. */
  datatype SubmitUrlState = SubmitUrlState(
    url: string,
    isSubmitting: bool,
    error: Option<string>,
    request: Option<Request>,
    isPolling: bool,
    validationError: Option<string>)

  /** `SubmitURLState()`. */
  const Initial := SubmitUrlState("", false, None, None, false, None)

  const EmptyUrlMessage := "Please enter a URL"
  const SchemeMessage := "Please enter a valid URL (must start with http:// or https://)"

  /** `setURL(url)` (and `onUrlChange`): the new text replaces the URL and
      clears the validation message; nothing else changes. */
  function SetUrl(s: SubmitUrlState, url: string): (r: SubmitUrlState)
    ensures r.url == url && r.validationError.None?
    ensures r.isSubmitting == s.isSubmitting && r.error == s.error
    ensures r.request == s.request && r.isPolling == s.isPolling
  {
    s.(url := url, validationError := None)
  }

  /** What `submitURL()` does at once: the state it leaves, and the URL it
      hands to the launched coroutine, if it launches one. */
  datatype Submission = Submission(state: SubmitUrlState, launched: Option<string>)

  /** `submitURL()` (and `submitUrl`): a blank URL or one without an
      http(s) scheme only records a validation message; any other URL is
      submitted, marking the screen busy and clearing both messages. */
  function Submit(s: SubmitUrlState): (r: Submission)
    ensures IsBlank(s.url) ==> r == Submission(s.(validationError := Some(EmptyUrlMessage)), None)
    ensures !IsBlank(s.url) && !UseCases.IsValidUrl(s.url) ==>
              r == Submission(s.(validationError := Some(SchemeMessage)), None)
    ensures r.launched.Some? ==>
              r.launched.value == s.url
              && r.state == s.(isSubmitting := true, validationError := None, error := None)
  {
    if IsBlank(s.url) then Submission(s.(validationError := Some(EmptyUrlMessage)), None)
    else if !UseCases.IsValidUrl(s.url) then Submission(s.(validationError := Some(SchemeMessage)), None)
    else Submission(s.(isSubmitting := true, validationError := None, error := None), Some(s.url))
  }

  /** An http(s) URL is never blank: its scheme is not whitespace. */
  lemma ValidUrlIsNotBlank(url: string)
    requires UseCases.IsValidUrl(url)
    ensures !IsBlank(url)
  {
    assert url[0] == 'h';
  }

  /** The screen's own checks agree with the use case's: a URL is launched
      exactly when `SubmitURLUseCase` would pass it on to the repository,
      so the use case's "Invalid URL" failure never reaches this screen. */
  lemma LaunchesExactlyWhatUseCaseAccepts(s: SubmitUrlState, langPreference: string)
    ensures Submit(s).launched.Some? <==> UseCases.IsValidUrl(s.url)
    ensures Submit(s).launched.Some? ==>
              UseCases.DecideSubmit(s.url, langPreference) == UseCases.SubmitToRepository(s.url, langPreference)
  {
    if UseCases.IsValidUrl(s.url) {
      ValidUrlIsNotBlank(s.url);
    }
  }

  /** The launched coroutine's outcome: a created request is shown and
      polled; a failure shows its message. */
  function OnSubmitResult(s: SubmitUrlState, result: Result<Request>): (r: SubmitUrlState)
    ensures !r.isSubmitting
    ensures result.Success? ==> r.request == Some(result.value) && r.isPolling && r.error.None?
    ensures result.Failure? ==>
              r.error == result.error.message && r.request == s.request && r.isPolling == s.isPolling
    ensures r.url == s.url && r.validationError == s.validationError
  {
    match result
    case Success(request) => s.(isSubmitting := false, request := Some(request), isPolling := true, error := None)
    case Failure(e) => s.(isSubmitting := false, error := e.message)
  }

  /** The id a successful submission starts polling, if any. */
  function PollAfterSubmit(result: Result<Request>): (r: Option<int>)
    ensures r.Some? <==> result.Success?
    ensures r.Some? ==> r.value == result.value.id
  {
    if result.Success? then Some(result.value.id) else None
  }

  /** One request collected from `pollRequestStatus`: it replaces the shown
      request, and a completed, failed or cancelled status ends polling. */
  function OnPolled(s: SubmitUrlState, request: Request): (r: SubmitUrlState)
    ensures r.request == Some(request)
    ensures r.isPolling <==> s.isPolling && !IsTerminal(request.status)
    ensures r.url == s.url && r.isSubmitting == s.isSubmitting
    ensures r.error == s.error && r.validationError == s.validationError
  {
    var shown := s.(request := Some(request));
    if IsTerminal(request.status) then shown.(isPolling := false) else shown
  }

  /** The state after collecting `emitted`, in order. */
  function AfterPolls(s: SubmitUrlState, emitted: seq<Request>): SubmitUrlState {
    if emitted == [] then s else OnPolled(AfterPolls(s, emitted[..|emitted| - 1]), emitted[|emitted| - 1])
  }

  /** An exception from the poll's flow ends polling and shows its message. */
  function OnPollError(s: SubmitUrlState, e: Throwable): (r: SubmitUrlState)
    ensures !r.isPolling && r.error == e.message
    ensures r.url == s.url && r.isSubmitting == s.isSubmitting
    ensures r.request == s.request && r.validationError == s.validationError
  {
    s.(isPolling := false, error := e.message)
  }

  /** Collecting a poll's emissions shows the last one, leaves the other
      fields alone, and keeps polling exactly when polling was on and no
      emission carried a terminal status. */
  lemma {:induction false} PollingTracksLastStatus(s: SubmitUrlState, emitted: seq<Request>)
    requires emitted != []
    ensures AfterPolls(s, emitted).request == Some(emitted[|emitted| - 1])
    ensures AfterPolls(s, emitted).isPolling <==>
              s.isPolling && forall i :: 0 <= i < |emitted| ==> !IsTerminal(emitted[i].status)
    ensures AfterPolls(s, emitted).(request := s.request, isPolling := s.isPolling) == s
  {
    var init := emitted[..|emitted| - 1];
    var last := emitted[|emitted| - 1];
    if init == [] {
      assert emitted == [last];
    } else {
      PollingTracksLastStatus(s, init);
      assert forall i :: 0 <= i < |init| ==> init[i] == emitted[i];
    }
  }

  /** Against the repository's poll: while every read reports a status
      still in progress, polling stays on; a read reporting a terminal
      status is shown and turns polling off. */
  lemma TerminalReadStopsPolling(s: SubmitUrlState, cache: Db, requestId: int,
                                 fs: seq<RequestRepository.StatusFetch>)
    requires s.isPolling && |fs| >= 1
    requires RequestRepository.AllContinue(fs, |fs| - 1)
    requires RequestRepository.Succeeded(fs[|fs| - 1]) && !RequestRepository.Continues(fs[|fs| - 1])
    ensures var before := RequestRepository.PolledRequests(fs, |fs| - 1);
            var emitted := before + RequestRepository.FinalRead(cache, requestId, fs[|fs| - 1]).0;
            && AfterPolls(s, before).isPolling
            && AfterPolls(s, emitted).request == Some(RequestRepository.PolledRequest(fs[|fs| - 1]))
            && !AfterPolls(s, emitted).isPolling
  {
    var k := |fs| - 1;
    var before := RequestRepository.PolledRequests(fs, k);
    var last := RequestRepository.PolledRequest(fs[k]);
    assert RequestRepository.FinalRead(cache, requestId, fs[k]).0 == [last];
    RequestRepository.PolledRequestsEach(fs, k);
    TerminalAfterContinuing(s, before, last);
  }

  /** Emissions still in progress keep polling on; a terminal one after
      them is shown and turns it off. */
  lemma TerminalAfterContinuing(s: SubmitUrlState, before: seq<Request>, last: Request)
    requires s.isPolling && IsTerminal(last.status)
    requires forall i :: 0 <= i < |before| ==> !IsTerminal(before[i].status)
    ensures AfterPolls(s, before).isPolling
    ensures AfterPolls(s, before + [last]).request == Some(last) && !AfterPolls(s, before + [last]).isPolling
  {
    var emitted := before + [last];
    assert emitted[..|emitted| - 1] == before;
    if before != [] {
      PollingTracksLastStatus(s, before);
    }
  }

  /** `retry()`: the id to retry, taken from the shown request; without
      one nothing is launched. The state itself is not touched. */
  function RetryTarget(s: SubmitUrlState): (r: Option<int>)
    ensures r.Some? <==> s.request.Some?
    ensures r.Some? ==> r.value == s.request.value.id
  {
    if s.request.Some? then Some(s.request.value.id) else None
  }

  /** The retry's outcome: the retried request is shown and polled again;
      a failure only shows its message. */
  function OnRetryResult(s: SubmitUrlState, result: Result<Request>): (r: SubmitUrlState)
    ensures result.Success? ==> r == s.(request := Some(result.value), isPolling := true, error := None)
    ensures result.Failure? ==> r == s.(error := result.error.message)
  {
    match result
    case Success(request) => s.(request := Some(request), isPolling := true, error := None)
    case Failure(e) => s.(error := e.message)
  }

  /** `reset()`. */
  function Reset(s: SubmitUrlState): (r: SubmitUrlState)
    ensures r == Initial
  {
    Initial
  }

  /** `cancelRequest()`: the request captured for the cancel call; without
      a shown request nothing is launched and nothing changes. */
  function CancelTarget(s: SubmitUrlState): (r: Option<Request>)
    ensures r == s.request
  {
    s.request
  }

  /** The cancel's outcome: polling stops and the request captured at the
      call is shown as cancelled (the server's answer is not shown); a
      failure only shows its message. */
  function OnCancelResult(s: SubmitUrlState, captured: Request, result: Result<Request>): (r: SubmitUrlState)
    ensures result.Success? ==>
              !r.isPolling && r.request.Some? && r.request.value.status == Cancelled
              && r.request.value.(status := captured.status) == captured
              && r.error == s.error
    ensures result.Failure? ==> r == s.(error := result.error.message)
    ensures r.url == s.url && r.isSubmitting == s.isSubmitting && r.validationError == s.validationError
  {
    match result
    case Success(_) => s.(isPolling := false, request := Some(captured.(status := Cancelled)))
    case Failure(e) => s.(error := e.message)
  }

  /** After a successful retry polling is back on, the next retry targets
      the retried request, and the repository's poll of that request keeps
      polling through the reads still in progress and stops at the terminal
      one. */
  lemma RetryResumesPolling(s: SubmitUrlState, retried: Request, cache: Db,
                            fs: seq<RequestRepository.StatusFetch>)
    requires |fs| >= 1
    requires RequestRepository.AllContinue(fs, |fs| - 1)
    requires RequestRepository.Succeeded(fs[|fs| - 1]) && !RequestRepository.Continues(fs[|fs| - 1])
    ensures var s1 := OnRetryResult(s, Success(retried));
            var before := RequestRepository.PolledRequests(fs, |fs| - 1);
            var emitted := before + RequestRepository.FinalRead(cache, retried.id, fs[|fs| - 1]).0;
            && s1.isPolling && RetryTarget(s1) == Some(retried.id)
            && AfterPolls(s1, before).isPolling
            && AfterPolls(s1, emitted).request == Some(RequestRepository.PolledRequest(fs[|fs| - 1]))
            && !AfterPolls(s1, emitted).isPolling
  {
    TerminalReadStopsPolling(OnRetryResult(s, Success(retried)), cache, retried.id, fs);
  }

  /** A successful cancel turns polling off for good: emissions of the
      still-running poll that arrive later never turn it back on, although
      the last of them replaces the request shown as cancelled. */
  lemma CancelledPollingStaysOff(s: SubmitUrlState, captured: Request, answer: Request, late: seq<Request>)
    ensures var s1 := OnCancelResult(s, captured, Success(answer));
            && !AfterPolls(s1, late).isPolling
            && (late != [] ==> AfterPolls(s1, late).request == Some(late[|late| - 1]))
  {
    if late != [] {
      PollingTracksLastStatus(OnCancelResult(s, captured, Success(answer)), late);
    }
  }
}

=== FILE: summary_list_view_model.dfy ===
/** `SummaryListViewModel`: the paginated list screen. The view model's
    state is the screen state plus the offset of the next page. A load is
    split into its start (which records the arguments of the
    `getSummaries` call) and one transition per list the call's flow
    emits, or one for the exception it ends with. */
module SummaryListViewModel {
  import opened Wrappers
  import opened Domain

  /** `pageSize`. */
  const PageSize := 20

  /** The fields of `SummaryListState` the view model writes. */
  datatype ListState = ListState(
    summaries: seq<Summary>,
    isLoading: bool,
    error: Option<string>,
    isRefreshing: bool,
    hasMore: bool,
    syncState: SyncState)

  /** `SummaryListState()`. */
  const InitialState := ListState([], false, None, false, true, Idle)

  /** The screen state with the private `currentOffset`. */
  datatype ListVm = ListVm(state: ListState, offset: int)

  /** A load in flight: whether it is a refresh, the offset it asked for
      and the list its pages extend (empty for a refresh or a first page).
      Only the corrected page handler reads `kept`. */
  datatype Load = Load(refresh: bool, offset: int, kept: seq<Summary>)

  /** `loadSummaries(refresh)` up to its call: a refresh restarts at offset
      0 with an empty list; any other load only raises `isLoading`. The
      call asks for `PageSize` summaries at the offset this leaves. */
  function StartLoad(vm: ListVm, refresh: bool): (r: (ListVm, Load))
    ensures refresh ==>
              r.0.offset == 0 && r.0.state == vm.state.(isRefreshing := true, summaries := [])
    ensures !refresh ==> r.0 == vm.(state := vm.state.(isLoading := true))
    ensures r.1.refresh == refresh && r.1.offset == r.0.offset
    ensures r.1.kept == (if refresh || vm.offset == 0 then [] else vm.state.summaries)
  {
    var after := if refresh then ListVm(vm.state.(isRefreshing := true, summaries := []), 0)
                 else vm.(state := vm.state.(isLoading := true));
    (after, Load(refresh, after.offset, if refresh || vm.offset == 0 then [] else vm.state.summaries))
  }

  /** The view model as built: `init` starts the first load. */
  function Init(): (r: (ListVm, Load))
    ensures r.0.state == InitialState.(isLoading := true) && r.0.offset == 0
    ensures r.1 == Load(false, 0, [])
  {
    StartLoad(ListVm(InitialState, 0), false)
  }

  /** The state both page handlers leave apart from the list: loading is
      over, the error is cleared, and more pages are expected exactly when
      this one was full. */
  function Settled(s: ListState, summaries: seq<Summary>, page: seq<Summary>): (r: ListState)
    ensures r.summaries == summaries && r.syncState == s.syncState
    ensures !r.isLoading && !r.isRefreshing && r.error.None?
    ensures r.hasMore <==> |page| >= PageSize
  {
    s.(summaries := summaries, isLoading := false, isRefreshing := false, error := None,
       hasMore := |page| >= PageSize)
  }

  /** `collect { summaries -> … }` as written: a refresh, or a load while
      the offset is 0, replaces the list; any other page is appended.
      Outside a refresh the offset then grows by the page's size; a
      refresh leaves it at 0. The offset read is the current one, not the
      one the load started at. */
  function OnPageAsWritten(vm: ListVm, load: Load, page: seq<Summary>): (r: ListVm)
    ensures (load.refresh || vm.offset == 0) ==> r.state.summaries == page
    ensures !(load.refresh || vm.offset == 0) ==> r.state.summaries == vm.state.summaries + page
    ensures r.state == Settled(vm.state, r.state.summaries, page)
    ensures load.refresh ==> r.offset == vm.offset
    ensures !load.refresh ==> r.offset == vm.offset + |page|
  {
    var summaries := if load.refresh || vm.offset == 0 then page else vm.state.summaries + page;
    ListVm(Settled(vm.state, summaries, page), if load.refresh then vm.offset else vm.offset + |page|)
  }

  /** The same load's emissions handled in order, as written. */
  function AfterPagesAsWritten(vm: ListVm, load: Load, pages: seq<seq<Summary>>): ListVm {
    if pages == [] then vm
    else OnPageAsWritten(AfterPagesAsWritten(vm, load, pages[..|pages| - 1]), load, pages[|pages| - 1])
  }

  /** `collect` as evidently intended: every emission of a load is that
      load's page, so it replaces the previous emission of the same load
      instead of being appended to it, and the offset is the end of the
      list shown, after a refresh too. */
  function OnPage(vm: ListVm, load: Load, page: seq<Summary>): (r: ListVm)
    ensures |r.state.summaries| == |load.kept| + |page|
    ensures r.state.summaries[..|load.kept|] == load.kept
    ensures r.state.summaries[|load.kept|..] == page
    ensures r.state == Settled(vm.state, r.state.summaries, page)
    ensures r.offset == load.offset + |page|
  {
    ListVm(Settled(vm.state, load.kept + page, page), load.offset + |page|)
  }

  /** The same load's emissions handled in order. */
  function AfterPages(vm: ListVm, load: Load, pages: seq<seq<Summary>>): ListVm {
    if pages == [] then vm
    else OnPage(AfterPages(vm, load, pages[..|pages| - 1]), load, pages[|pages| - 1])
  }

  /** `catch { error -> … }`: loading stops and the message is shown; the
      list and the offset stay. */
  function OnLoadError(vm: ListVm, e: Throwable): (r: ListVm)
    ensures r.offset == vm.offset && r.state.summaries == vm.state.summaries
    ensures !r.state.isLoading && !r.state.isRefreshing && r.state.error == e.message
    ensures r.state.hasMore == vm.state.hasMore && r.state.syncState == vm.state.syncState
  {
    vm.(state := vm.state.(isLoading := false, isRefreshing := false, error := e.message))
  }

  /** `loadMore()`: a further page is loaded only when no load is under way
      and the last page was full. */
  function LoadMore(vm: ListVm): (r: Option<(ListVm, Load)>)
    ensures r.None? <==> vm.state.isLoading || !vm.state.hasMore
    ensures r.Some? ==> r.value == StartLoad(vm, false)
  {
    if !vm.state.isLoading && vm.state.hasMore then Some(StartLoad(vm, false)) else None
  }

  /** `refresh()`. */
  function Refresh(vm: ListVm): (r: (ListVm, Load))
    ensures r.0.offset == 0 && r.0.state.summaries == [] && r.0.state.isRefreshing
    ensures r.1 == Load(true, 0, [])
  {
    StartLoad(vm, true)
  }

  /** The optimistic update after `markAsRead(id, isRead)`'s call returns,
      whatever it returned: only the read flag of the summaries with that
      id changes; length and order are kept. */
  function MarkAsRead(summaries: seq<Summary>, id: int, isRead: bool): (r: seq<Summary>)
    ensures |r| == |summaries|
    ensures forall i :: 0 <= i < |r| ==>
              r[i].(isRead := summaries[i].isRead) == summaries[i]
              && r[i].isRead == (if summaries[i].id == id then isRead else summaries[i].isRead)
  {
    if summaries == [] then []
    else (if summaries[0].id == id then [summaries[0].(isRead := isRead)] else [summaries[0]])
         + MarkAsRead(summaries[1..], id, isRead)
  }

  /** The screen after the optimistic update. */
  function OnMarkedAsRead(vm: ListVm, id: int, isRead: bool): ListVm {
    vm.(state := vm.state.(summaries := MarkAsRead(vm.state.summaries, id, isRead)))
  }

  /** Marking twice is marking once. */
  lemma MarkAsReadIdempotent(summaries: seq<Summary>, id: int, isRead: bool)
    ensures MarkAsRead(MarkAsRead(summaries, id, isRead), id, isRead) == MarkAsRead(summaries, id, isRead)
  {
    var once := MarkAsRead(summaries, id, isRead);
    var twice := MarkAsRead(once, id, isRead);
    forall i | 0 <= i < |twice|
      ensures twice[i] == once[i]
    {
      assert twice[i].(isRead := once[i].isRead) == once[i];
    }
  }

  /** Marking back restores the list when the summaries with that id all
      carried the other flag. */
  lemma MarkAsReadUndone(summaries: seq<Summary>, id: int, isRead: bool)
    requires forall i :: 0 <= i < |summaries| && summaries[i].id == id ==> summaries[i].isRead == !isRead
    ensures MarkAsRead(MarkAsRead(summaries, id, isRead), id, !isRead) == summaries
  {
    var once := MarkAsRead(summaries, id, isRead);
    var back := MarkAsRead(once, id, !isRead);
    forall i | 0 <= i < |back|
      ensures back[i] == summaries[i]
    {
      assert once[i].(isRead := summaries[i].isRead) == summaries[i];
      assert back[i].(isRead := once[i].isRead) == once[i];
    }
  }

  /** `sync(forceFullSync)` collecting one state: the state is shown, and a
      success starts a refresh. */
  function OnSyncState(vm: ListVm, st: SyncState): (r: (ListVm, Option<Load>))
    ensures r.1.Some? <==> st.SyncSuccess?
    ensures r.0.state.syncState == st
    ensures !st.SyncSuccess? ==> r.0 == vm.(state := vm.state.(syncState := st))
    ensures st.SyncSuccess? ==> (r.0, r.1.value) == StartLoad(vm.(state := vm.state.(syncState := st)), true)
  {
    var shown := vm.(state := vm.state.(syncState := st));
    if st.SyncSuccess? then var (after, load) := StartLoad(shown, true); (after, Some(load)) else (shown, None)
  }

  /** The offset is the length of the list shown. */
  predicate Consistent(vm: ListVm) {
    vm.offset == |vm.state.summaries|
  }

  /** A load asked for the page right after the list it extends. */
  predicate Fits(load: Load) {
    load.offset == |load.kept|
  }

  /** With the corrected handler the offset always marks the end of the
      list: starting a load from a consistent state keeps it consistent
      and asks for the next page; every page, error, mark and sync state
      keeps it so. */
  lemma OffsetTracksList(vm: ListVm, refresh: bool, load: Load, page: seq<Summary>, e: Throwable,
                         id: int, isRead: bool, st: SyncState)
    requires Consistent(vm) && Fits(load)
    ensures Consistent(StartLoad(vm, refresh).0) && Fits(StartLoad(vm, refresh).1)
    ensures !refresh ==> StartLoad(vm, refresh).1.offset == |vm.state.summaries|
    ensures Consistent(OnPage(vm, load, page))
    ensures Consistent(OnLoadError(vm, e)) && Consistent(OnMarkedAsRead(vm, id, isRead))
    ensures Consistent(OnSyncState(vm, st).0)
    ensures OnSyncState(vm, st).1.Some? ==> Fits(OnSyncState(vm, st).1.value)
  {
  }

  /** Each emission of a load supersedes the earlier ones: after any
      number of them the list is the kept list followed by the last page,
      which is what loading the cached page and then the fresh one of
      `getSummaries` shows. */
  lemma {:induction false} LastEmissionWins(vm: ListVm, load: Load, pages: seq<seq<Summary>>)
    requires pages != []
    ensures AfterPages(vm, load, pages).state.summaries == load.kept + pages[|pages| - 1]
    ensures AfterPages(vm, load, pages).offset == load.offset + |pages[|pages| - 1]|
    ensures AfterPages(vm, load, pages).state.syncState == vm.state.syncState
  {
    if |pages| > 1 {
      LastEmissionWins(vm, load, pages[..|pages| - 1]);
    }
  }

  /** A summary to build counterexamples with. */
  const Sample := Summary(
    1, 1, "Title", "https://example.com", None, "", "", None, [], [], [], [], 1, "en", None, [], None,
    false, false, 0, None, Synced, false)

  /** As written, the first page of a load is shown twice when the cache
      already holds it: the cached emission moves the offset off 0, so the
      fresh emission of the same page is appended to it. The corrected
      handler shows it once. */
  lemma AsWrittenDuplicatesCachedPage()
    ensures var (vm, load) := Init();
            AfterPagesAsWritten(vm, load, [[Sample], [Sample]]).state.summaries == [Sample, Sample]
            && AfterPagesAsWritten(vm, load, [[Sample], [Sample]]).offset == 2
            && AfterPages(vm, load, [[Sample], [Sample]]).state.summaries == [Sample]
            && AfterPages(vm, load, [[Sample], [Sample]]).offset == 1
  {
    var (vm, load) := Init();
    var pages := [[Sample], [Sample]];
    assert pages[..1] == [[Sample]] && pages[..0] == [];
    var first := OnPageAsWritten(vm, load, [Sample]);
    assert AfterPagesAsWritten(vm, load, pages[..1]) == first;
    assert first.offset == 1;
  }

  /** A full page of twenty summaries. */
  const FullPage := seq(PageSize, i => Sample.(id := i))

  /** As written, a refresh leaves the offset at 0, so the next `loadMore`
      asks for the first page again although a full page is shown; the
      corrected handler asks for the page after it. */
  lemma AsWrittenReloadsFirstPageAfterRefresh(vm: ListVm)
    ensures var (refreshing, load) := Refresh(vm);
            var shown := OnPageAsWritten(refreshing, load, FullPage);
            && |shown.state.summaries| == PageSize && LoadMore(shown).Some?
            && LoadMore(shown).value.1.offset == 0
    ensures var (refreshing, load) := Refresh(vm);
            var shown := OnPage(refreshing, load, FullPage);
            && |shown.state.summaries| == PageSize && LoadMore(shown).Some?
            && LoadMore(shown).value.1.offset == PageSize
  {
  }
}

=== FILE: summary_mapper.dfy ===
/** Summary DTOs to the domain `Summary`, search hits to summaries, and the
    body of a read-status update. */
module SummaryMapper {
  import opened Wrappers
  import opened Domain
  import opened Dto

  function EntitiesToDomain(dto: EntitiesDto): (r: Entities)
    ensures r.people == dto.people && r.organizations == dto.organizations && r.locations == dto.locations
  {
    Entities(dto.people, dto.organizations, dto.locations)
  }

  function KeyStatToDomain(dto: KeyStatDto): (r: KeyStat)
    ensures r.statLabel == dto.statLabel && r.value == dto.value
    ensures r.unit == dto.unit && r.sourceExcerpt == dto.sourceExcerpt
  {
    KeyStat(dto.statLabel, dto.value, dto.unit, dto.sourceExcerpt)
  }

  function ReadabilityToDomain(dto: ReadabilityDto): (r: Readability)
    ensures r.scoringMethod == dto.scoringMethod && r.score == dto.score && r.level == dto.level
  {
    Readability(dto.scoringMethod, dto.score, dto.level)
  }

  /** `SummaryCompactDto.toDomain()`: the list view's fields are copied; the
      detail-only fields are empty or null and the local state is the default. */
  function CompactToSummary(dto: SummaryCompactDto): (r: Summary)
    ensures r.id == dto.id && r.requestId == dto.requestId && r.title == dto.title
    ensures r.url == dto.url && r.domain == dto.domain && r.tldr == dto.tldr
    ensures r.summary250 == dto.summary250 && r.topicTags == dto.topicTags
    ensures r.readingTimeMin == dto.readingTimeMin && r.lang == dto.lang
    ensures r.isRead == dto.isRead && r.createdAt == dto.createdAt
    ensures r.summary1000.None? && r.entities.None? && r.readability.None? && r.updatedAt.None?
    ensures r.keyIdeas == [] && r.answeredQuestions == [] && r.seoKeywords == [] && r.keyStats == []
    ensures !r.isFavorite && r.syncStatus == Synced && !r.locallyModified
  {
    Summary(
      id := dto.id, requestId := dto.requestId, title := dto.title, url := dto.url,
      domain := dto.domain, tldr := dto.tldr, summary250 := dto.summary250,
      summary1000 := None, keyIdeas := [], topicTags := dto.topicTags,
      answeredQuestions := [], seoKeywords := [], readingTimeMin := dto.readingTimeMin,
      lang := dto.lang, entities := None, keyStats := [], readability := None,
      isRead := dto.isRead, isFavorite := false, createdAt := dto.createdAt,
      updatedAt := None, syncStatus := Synced, locallyModified := false)
  }

  /** `SummaryDetailDto.toDomain()`: every field is carried over, the nested
      records and key statistics element by element. */
  function DetailToSummary(dto: SummaryDetailDto): (r: Summary)
    ensures r.id == dto.id && r.requestId == dto.requestId && r.title == dto.title
    ensures r.url == dto.url && r.domain == dto.domain && r.tldr == dto.tldr
    ensures r.summary250 == dto.summary250 && r.summary1000 == dto.summary1000
    ensures r.keyIdeas == dto.keyIdeas && r.topicTags == dto.topicTags
    ensures r.answeredQuestions == dto.answeredQuestions && r.seoKeywords == dto.seoKeywords
    ensures r.readingTimeMin == dto.readingTimeMin && r.lang == dto.lang && r.isRead == dto.isRead
    ensures r.createdAt == dto.createdAt && r.updatedAt == dto.updatedAt
    ensures dto.entities.None? <==> r.entities.None?
    ensures dto.readability.None? <==> r.readability.None?
    ensures |r.keyStats| == |dto.keyStats|
    ensures forall i :: 0 <= i < |r.keyStats| ==> r.keyStats[i] == KeyStatToDomain(dto.keyStats[i])
    ensures !r.isFavorite && r.syncStatus == Synced && !r.locallyModified
  {
    Summary(
      id := dto.id, requestId := dto.requestId, title := dto.title, url := dto.url,
      domain := dto.domain, tldr := dto.tldr, summary250 := dto.summary250,
      summary1000 := dto.summary1000, keyIdeas := dto.keyIdeas, topicTags := dto.topicTags,
      answeredQuestions := dto.answeredQuestions, seoKeywords := dto.seoKeywords,
      readingTimeMin := dto.readingTimeMin, lang := dto.lang,
      entities := if dto.entities.Some? then Some(EntitiesToDomain(dto.entities.value)) else None,
      keyStats := seq(|dto.keyStats|, i requires 0 <= i < |dto.keyStats| => KeyStatToDomain(dto.keyStats[i])),
      readability := if dto.readability.Some? then Some(ReadabilityToDomain(dto.readability.value)) else None,
      isRead := dto.isRead, isFavorite := false, createdAt := dto.createdAt,
      updatedAt := dto.updatedAt, syncStatus := Synced, locallyModified := false)
  }

  /** The detail view of a summary whose detail-only fields are empty. */
  function StripDetail(dto: SummaryDetailDto): SummaryDetailDto {
    dto.(summary1000 := None, keyIdeas := [], answeredQuestions := [], seoKeywords := [],
         entities := None, keyStats := [], readability := None, updatedAt := None)
  }

  /** The compact and the detail mapping agree: a compact record maps to the
      same summary as a detail record with the same shared fields and no
      detail-only content. */
  lemma CompactIsStrippedDetail(c: SummaryCompactDto, d: SummaryDetailDto)
    requires c.id == d.id && c.requestId == d.requestId && c.title == d.title
    requires c.domain == d.domain && c.url == d.url && c.tldr == d.tldr
    requires c.summary250 == d.summary250 && c.readingTimeMin == d.readingTimeMin
    requires c.topicTags == d.topicTags && c.isRead == d.isRead && c.lang == d.lang
    requires c.createdAt == d.createdAt
    ensures CompactToSummary(c) == DetailToSummary(StripDetail(d))
  {
  }

  /** `List<SummaryCompactDto>.toDomain()`. */
  function CompactListToDomain(dtos: seq<SummaryCompactDto>): (r: seq<Summary>)
    ensures |r| == |dtos|
    ensures forall i :: 0 <= i < |dtos| ==> r[i] == CompactToSummary(dtos[i])
  {
    seq(|dtos|, i requires 0 <= i < |dtos| => CompactToSummary(dtos[i]))
  }

  /** `List<SummaryDetailDto>.toDomainDetailed()`. */
  function DetailListToDomain(dtos: seq<SummaryDetailDto>): (r: seq<Summary>)
    ensures |r| == |dtos|
    ensures forall i :: 0 <= i < |dtos| ==> r[i] == DetailToSummary(dtos[i])
  {
    seq(|dtos|, i requires 0 <= i < |dtos| => DetailToSummary(dtos[i]))
  }

  /** List mapping keeps the ids, in order. */
  lemma ListMappingKeepsIds(dtos: seq<SummaryCompactDto>)
    ensures forall i :: 0 <= i < |dtos| ==> CompactListToDomain(dtos)[i].id == dtos[i].id
  {
  }

  /** `Summary.toUpdateRequestDto()`. */
  function ToUpdateRequestDto(s: Summary): (r: SummaryUpdateRequestDto)
    ensures r.isRead == Some(s.isRead)
  {
    SummaryUpdateRequestDto(Some(s.isRead))
  }

  /** The update body depends on the read flag alone. */
  lemma UpdateCarriesOnlyReadFlag(a: Summary, b: Summary)
    ensures ToUpdateRequestDto(a) == ToUpdateRequestDto(b) <==> a.isRead == b.isRead
  {
  }

  /** `SearchResultDto.toSummary()`: the snippet stands in for both short
      summaries; the language is "en" and the creation time is `now`. */
  function SearchResultToSummary(dto: SearchResultDto, now: Instant): (r: Summary)
    ensures r.id == dto.id && r.title == dto.title && r.url == dto.url && r.topicTags == dto.topicTags
    ensures r.tldr == dto.snippet && r.summary250 == dto.snippet
    ensures r.requestId == 0 && r.domain.None? && r.readingTimeMin == 0 && r.lang == "en"
    ensures !r.isRead && r.createdAt == now && r.syncStatus == Synced
  {
    Summary(
      id := dto.id, requestId := 0, title := dto.title, url := dto.url, domain := None,
      tldr := dto.snippet, summary250 := dto.snippet, summary1000 := None, keyIdeas := [],
      topicTags := dto.topicTags, answeredQuestions := [], seoKeywords := [],
      readingTimeMin := 0, lang := "en", entities := None, keyStats := [], readability := None,
      isRead := false, isFavorite := false, createdAt := now, updatedAt := None,
      syncStatus := Synced, locallyModified := false)
  }

  /** `List<SearchResultDto>.toSummaries()`. */
  function SearchResultsToSummaries(dtos: seq<SearchResultDto>, now: Instant): (r: seq<Summary>)
    ensures |r| == |dtos|
    ensures forall i :: 0 <= i < |dtos| ==> r[i] == SearchResultToSummary(dtos[i], now)
  {
    seq(|dtos|, i requires 0 <= i < |dtos| => SearchResultToSummary(dtos[i], now))
  }

  /** Mapping search hits keeps their ids and tags, in order. */
  lemma SearchMappingKeepsIds(dtos: seq<SearchResultDto>, now: Instant)
    ensures forall i :: 0 <= i < |dtos| ==>
              SearchResultsToSummaries(dtos, now)[i].id == dtos[i].id
              && SearchResultsToSummaries(dtos, now)[i].topicTags == dtos[i].topicTags
  {
  }
}

=== FILE: summary_repository.dfy ===
/** `SummaryRepositoryImpl`: offline-first reads of the summary list, the
    read flag written locally before the server, and a bulk refresh. The
    database answers the cached queries through `select`; the API answers
    through the `ApiCall` arguments. */
module SummaryRepository {
  import opened Wrappers
  import opened Text
  import opened Domain
  import opened Dto
  import opened Database
  import opened SummaryMapper

  /** The three cached queries `getCachedSummaries` chooses among. */
  datatype CachedQuery = UnreadQuery | LangQuery(lang: string) | PaginatedQuery(limit: int, offset: int)

  /** `getCachedSummaries`' dispatch: an explicit "unread only" filter wins,
      then a language filter, and otherwise a page of the table. */
  function CachedQueryFor(limit: int, offset: int, filters: SearchFilters): (r: CachedQuery)
    ensures r.UnreadQuery? <==> filters.isRead == Some(false)
    ensures r.LangQuery? <==> filters.isRead != Some(false) && filters.lang.Some?
    ensures r.LangQuery? ==> r.lang == filters.lang.value
    ensures r.PaginatedQuery? ==> r.limit == limit && r.offset == offset
  {
    if filters.isRead == Some(false) then UnreadQuery
    else if filters.lang.Some? then LangQuery(filters.lang.value)
    else PaginatedQuery(limit, offset)
  }

  /** Only `isRead == false` selects the unread query: a read-only filter
      (`isRead == true`) falls through to the language or page query. */
  lemma ReadFilterDoesNotSelectUnread(limit: int, offset: int, filters: SearchFilters)
    requires filters.isRead == Some(true)
    ensures CachedQueryFor(limit, offset, filters) == CachedQueryFor(limit, offset, filters.(isRead := None))
  {
  }

  /** The exception `SyncStatus.valueOf(name)` throws on an unknown stored
      name: the JVM's `Enum.valueOf` message names the enum class and the
      name it was given. */
  function UnknownSyncStatus(name: string): (r: Throwable)
    ensures r.className == "IllegalArgumentException"
    ensures r.message == Some("No enum constant com.po4yka.bitesizereader.domain.model.SyncStatus." + name)
  {
    Throwable("IllegalArgumentException", Some("No enum constant com.po4yka.bitesizereader.domain.model.SyncStatus." + name))
  }

  /** Rows mapped by `mapDbSummaryToDomain`, in order; one row that does not
      decode makes the whole read throw (`None`). */
  function ReadRows(rows: seq<SummaryRow>): (r: Option<seq<Summary>>)
    ensures r.Some? <==> forall i :: 0 <= i < |rows| ==> RowToSummary(rows[i]).Some?
    ensures r.Some? ==> |r.value| == |rows|
    ensures r.Some? ==> forall i :: 0 <= i < |rows| ==> Some(r.value[i]) == RowToSummary(rows[i])
  {
    if rows == [] then Some([])
    else
      match (RowToSummary(rows[0]), ReadRows(rows[1..]))
      case (Some(s), Some(rest)) => Some([s] + rest)
      case _ => None
  }

  /** The first row, in order, that does not decode: the row whose
      `valueOf` throws when a read maps the rows one after another. */
  function FirstUndecodable(rows: seq<SummaryRow>): (i: nat)
    requires ReadRows(rows).None?
    ensures i < |rows| && RowToSummary(rows[i]).None?
    ensures forall j :: 0 <= j < i ==> RowToSummary(rows[j]).Some?
  {
    if RowToSummary(rows[0]).None? then 0
    else
      var k := FirstUndecodable(rows[1..]);
      assert forall j :: 1 <= j < k + 1 ==> rows[j] == rows[1..][j - 1];
      k + 1
  }

  /** The exception a read of `rows` throws: the first undecodable row's. */
  function ReadFailure(rows: seq<SummaryRow>): (r: Throwable)
    requires ReadRows(rows).None?
    ensures r == UnknownSyncStatus(rows[FirstUndecodable(rows)].syncStatus)
  {
    UnknownSyncStatus(rows[FirstUndecodable(rows)].syncStatus)
  }

  /** Rows written by `insertSummary` always read back, as the summaries written. */
  lemma {:induction false} StoredRowsReadBack(ss: seq<Summary>)
    ensures ReadRows(seq(|ss|, i requires 0 <= i < |ss| => SummaryToRow(ss[i]))) == Some(ss)
  {
    var rows := seq(|ss|, i requires 0 <= i < |ss| => SummaryToRow(ss[i]));
    forall i | 0 <= i < |ss|
      ensures RowToSummary(rows[i]) == Some(ss[i])
    {
      SummaryRowRoundTrip(ss[i]);
    }
    assert ReadRows(rows).value == ss;
  }

  /** The lower-case wire names `getSummaries` sends for the sort options
      (`name.lowercase()` of the enum constants). */
  function SortFieldWireName(f: SortField): string {
    match f
    case CreatedAt => "created_at"
    case ReadingTime => "reading_time"
    case Title => "title"
  }

  function SortOrderWireName(o: SortOrder): string {
    match o
    case Asc => "asc"
    case Desc => "desc"
  }

  /** The Kotlin constant names of the sort options. */
  function SortFieldName(f: SortField): string {
    match f
    case CreatedAt => "CREATED_AT"
    case ReadingTime => "READING_TIME"
    case Title => "TITLE"
  }

  function SortOrderName(o: SortOrder): string {
    match o
    case Asc => "ASC"
    case Desc => "DESC"
  }

  /** The wire names are the lower-cased constant names. */
  lemma SortWireNamesAreLowerCaseNames(f: SortField, o: SortOrder)
    ensures Lower(SortFieldName(f)) == SortFieldWireName(f)
    ensures Lower(SortOrderName(o)) == SortOrderWireName(o)
  {
    match f
    case CreatedAt => assert Lower("CREATED_AT") == "created_at";
    case ReadingTime => assert Lower("READING_TIME") == "reading_time";
    case Title => assert Lower("TITLE") == "title";
    match o
    case Asc => assert Lower("ASC") == "asc";
    case Desc => assert Lower("DESC") == "desc";
  }

  /** The query parameters of `SummariesApi.getSummaries`; `None` is an
      omitted parameter. */
  datatype SummariesQuery = SummariesQuery(
    limit: int,
    offset: int,
    isRead: Option<bool>,
    lang: Option<string>,
    fromDate: Option<string>,
    toDate: Option<string>,
    sortBy: Option<string>,
    sortOrder: Option<string>)

  /** The list request `getSummaries` sends: the page and every filter but
      the topic tags, with the sort options by wire name. */
  function ListQuery(limit: int, offset: int, filters: SearchFilters): (r: SummariesQuery)
    ensures r.limit == limit && r.offset == offset
    ensures r.isRead == filters.isRead && r.lang == filters.lang
    ensures r.fromDate == filters.fromDate && r.toDate == filters.toDate
    ensures r.sortBy == Some(SortFieldWireName(filters.sortBy))
    ensures r.sortOrder == Some(SortOrderWireName(filters.sortOrder))
  {
    SummariesQuery(
      limit, offset, filters.isRead, filters.lang, filters.fromDate, filters.toDate,
      Some(SortFieldWireName(filters.sortBy)), Some(SortOrderWireName(filters.sortOrder)))
  }

  /** What a `getSummaries` flow did: the lists it emitted, whether it ended
      by throwing, the request it sent (if it got that far), and the cache. */
  datatype SummariesFlow = SummariesFlow(
    emitted: seq<seq<Summary>>,
    threw: bool,
    sent: Option<SummariesQuery>,
    db: Db)

  /** `getSummaries(limit, offset, filters)`: the cached list is emitted
      first; then the API is asked, and only a usable answer is cached and
      emitted as well. A failed call is swallowed, but a cached row that does
      not decode makes the flow throw before anything is emitted. */
  function GetSummaries(
    db: Db, limit: int, offset: int, filters: SearchFilters,
    select: CachedQuery -> seq<SummaryRow>, call: ApiCall<SummaryListResponseDto>): (r: SummariesFlow)
    ensures r.threw <==> ReadRows(select(CachedQueryFor(limit, offset, filters))).None?
    ensures r.threw ==> r.emitted == [] && r.sent.None? && r.db == db
    ensures !r.threw ==>
              1 <= |r.emitted| && r.emitted[0] == ReadRows(select(CachedQueryFor(limit, offset, filters))).value
              && r.sent == Some(ListQuery(limit, offset, filters))
    ensures !r.threw ==> (|r.emitted| == 2 <==> call.Answered? && Usable(call.response))
    ensures !r.threw && |r.emitted| == 2 ==>
              r.emitted[1] == CompactListToDomain(call.response.data.value.summaries)
              && r.db == InsertSummaries(db, r.emitted[1])
    ensures |r.emitted| < 2 ==> r.db == db
  {
    match ReadRows(select(CachedQueryFor(limit, offset, filters)))
    case None => SummariesFlow([], true, None, db)
    case Some(cached) =>
      var sent := Some(ListQuery(limit, offset, filters));
      if call.Answered? && Usable(call.response) then
        var page := CompactListToDomain(call.response.data.value.summaries);
        SummariesFlow([cached, page], false, sent, InsertSummaries(db, page))
      else SummariesFlow([cached], false, sent, db)
  }

  /** After a usable answer every fresh summary is in the cache, stored as
      the last copy of its id in the answer. */
  lemma FreshSummariesAreCached(
    db: Db, limit: int, offset: int, filters: SearchFilters,
    select: CachedQuery -> seq<SummaryRow>, call: ApiCall<SummaryListResponseDto>, i: nat)
    requires ReadRows(select(CachedQueryFor(limit, offset, filters))).Some?
    requires call.Answered? && Usable(call.response)
    requires i < |call.response.data.value.summaries|
    requires forall j :: i < j < |call.response.data.value.summaries| ==>
               call.response.data.value.summaries[j].id != call.response.data.value.summaries[i].id
    ensures var r := GetSummaries(db, limit, offset, filters, select, call);
            var s := r.emitted[1][i];
            s.id in r.db.summaries && RowToSummary(r.db.summaries[s.id]) == Some(s)
  {
    var page := CompactListToDomain(call.response.data.value.summaries);
    ListMappingKeepsIds(call.response.data.value.summaries);
    InsertSummariesLastWins(db, page, i);
  }

  /** The placeholder summary `markAsRead` builds only to derive the update
      request; `now` is the clock reading it is stamped with. */
  function ReadFlagCarrier(id: int, isRead: bool, now: Instant): (r: Summary)
    ensures r.id == id && r.isRead == isRead
  {
    Summary(
      id, 0, "", "", None, "", "", None, [], [], [], [], 0, "", None, [], None,
      isRead, false, now, None, Synced, false)
  }

  /** `markAsRead(id, isRead)`: the read flag is written locally first; the
      update request carries only that flag; the row is marked synced only
      when the server reports success, and otherwise the local change stays.
      The result is the outcome, the request sent (if any) and the cache. */
  function MarkAsRead(db: Db, id: int, isRead: bool, now: Instant, call: ApiCall<SummaryUpdateResponseDto>)
    : (r: (Result<()>, SummaryUpdateRequestDto, Db))
    ensures r.1 == SummaryUpdateRequestDto(Some(isRead))
    ensures r.0.Success? <==> call.Answered? && call.response.success
    ensures call.Threw? ==> r.0 == Failure(call.exception)
    ensures call.Answered? && !call.response.success ==>
              r.0 == Failure(PlainException(call.response.errorMessage.GetOr("Failed to update")))
    ensures r.0.Success? ==> r.2 == MarkAsSynced(UpdateReadStatus(db, id, isRead), [id])
    ensures r.0.Failure? ==> r.2 == UpdateReadStatus(db, id, isRead)
  {
    var local := UpdateReadStatus(db, id, isRead);
    var request := ToUpdateRequestDto(ReadFlagCarrier(id, isRead, now));
    match call
    case Threw(e) => (Failure(e), request, local)
    case Answered(response) =>
      if response.success then (Success(()), request, MarkAsSynced(local, [id]))
      else (Failure(PlainException(response.errorMessage.GetOr("Failed to update"))), request, local)
  }

  /** A cached summary reads back with the new read flag whatever the server
      says, and as synced exactly when the server accepted the change; no
      other row changes. */
  lemma MarkAsReadReadsBack(db: Db, id: int, isRead: bool, now: Instant, call: ApiCall<SummaryUpdateResponseDto>)
    requires id in db.summaries && RowToSummary(db.summaries[id]).Some?
    ensures var r := MarkAsRead(db, id, isRead, now, call);
            var before := RowToSummary(db.summaries[id]).value;
            id in r.2.summaries
            && RowToSummary(r.2.summaries[id])
               == Some(before.(isRead := isRead, syncStatus := if r.0.Success? then Synced else before.syncStatus))
    ensures var r := MarkAsRead(db, id, isRead, now, call);
            r.2.summaries.Keys == db.summaries.Keys
            && forall other :: other in db.summaries && other != id ==> r.2.summaries[other] == db.summaries[other]
  {
    var r := MarkAsRead(db, id, isRead, now, call);
    var local := UpdateReadStatus(db, id, isRead);
    BoolRoundTrip(isRead, EncodeBool(isRead));
    if r.0.Success? {
      MarkAsSyncedReadsBack(local, id);
    }
  }

  /** The request `refresh` sends: the first 100 summaries, with every
      filter and sort option left to the server's defaults. */
  const RefreshQuery := SummariesQuery(100, 0, None, None, None, None, None, None)

  /** `refresh()`: the first 100 summaries are fetched and cached. The
      result is the outcome, the request sent and the cache. */
  function Refresh(db: Db, call: ApiCall<SummaryListResponseDto>): (r: (Result<()>, SummariesQuery, Db))
    ensures r.1.limit == 100 && r.1.offset == 0
    ensures r.1.isRead.None? && r.1.lang.None? && r.1.fromDate.None? && r.1.toDate.None?
    ensures r.1.sortBy.None? && r.1.sortOrder.None?
    ensures r.0.Success? <==> call.Answered? && Usable(call.response)
    ensures r.0.Success? ==> r.2 == InsertSummaries(db, CompactListToDomain(call.response.data.value.summaries))
    ensures call.Threw? ==> r.0 == Failure(call.exception)
    ensures call.Answered? && !Usable(call.response) ==>
              r.0 == Failure(PlainException(call.response.errorMessage.GetOr("Refresh failed")))
    ensures r.0.Failure? ==> r.2 == db
  {
    match call
    case Threw(e) => (Failure(e), RefreshQuery, db)
    case Answered(response) =>
      if Usable(response) then
        (Success(()), RefreshQuery, InsertSummaries(db, CompactListToDomain(response.data.value.summaries)))
      else (ServerFailure(response, "Refresh failed"), RefreshQuery, db)
  }

  /** A refresh asks for the same page as an unfiltered first-page list
      read, differing only in leaving the sort to the server, and caches
      exactly what that list read caches with the same answer. */
  lemma RefreshCachesLikeFreshList(db: Db, select: CachedQuery -> seq<SummaryRow>, call: ApiCall<SummaryListResponseDto>)
    requires ReadRows(select(PaginatedQuery(100, 0))).Some?
    ensures var list := GetSummaries(db, 100, 0, DefaultFilters, select, call);
            && list.sent.Some?
            && Refresh(db, call).1 == list.sent.value.(sortBy := None, sortOrder := None)
    ensures Refresh(db, call).2 == GetSummaries(db, 100, 0, DefaultFilters, select, call).db
  {
  }

  /** `getSummaryById(id)`: a cached summary is returned at once, and the
      server's copy, if usable, refreshes the cache in the background; an
      uncached one must come from the server. */
  function GetSummaryById(db: Db, id: int, call: ApiCall<SummaryDetailDto>): (r: (Result<Summary>, Db))
    ensures id in db.summaries ==>
              match RowToSummary(db.summaries[id])
              case Some(cached) => r.0 == Success(cached)
              case None => r.0 == Failure(UnknownSyncStatus(db.summaries[id].syncStatus)) && r.1 == db
    ensures id !in db.summaries ==>
              (r.0.Success? <==> call.Answered? && Usable(call.response))
              && (call.Threw? ==> r.0 == Failure(call.exception))
              && (call.Answered? && !Usable(call.response) ==>
                    r.0 == Failure(PlainException(call.response.errorMessage.GetOr("Failed to fetch summary"))))
              && (r.0.Success? ==> r.0.value == DetailToSummary(call.response.data.value))
    ensures (id !in db.summaries || RowToSummary(db.summaries[id]).Some?) && call.Answered? && Usable(call.response) ==>
              r.1 == InsertSummary(db, DetailToSummary(call.response.data.value))
    ensures !(call.Answered? && Usable(call.response)) ==> r.1 == db
  {
    if id in db.summaries then
      match RowToSummary(db.summaries[id])
      case None => (Failure(UnknownSyncStatus(db.summaries[id].syncStatus)), db)
      case Some(cached) =>
        if call.Answered? && Usable(call.response) then
          (Success(cached), InsertSummary(db, DetailToSummary(call.response.data.value)))
        else (Success(cached), db)
    else
      match call
      case Threw(e) => (Failure(e), db)
      case Answered(response) =>
        if Usable(response) then
          var s := DetailToSummary(response.data.value);
          (Success(s), InsertSummary(db, s))
        else (ServerFailure(response, "Failed to fetch summary"), db)
  }

  /** Once fetched, a summary is answered from the cache: a second read
      returns what the first one returned, whatever the server says then. */
  lemma SecondReadIsServedFromCache(db: Db, id: int, first: ApiCall<SummaryDetailDto>, second: ApiCall<SummaryDetailDto>)
    requires id !in db.summaries
    requires first.Answered? && Usable(first.response) && first.response.data.value.id == id
    ensures GetSummaryById(GetSummaryById(db, id, first).1, id, second).0 == GetSummaryById(db, id, first).0
  {
    SummaryRowRoundTrip(DetailToSummary(first.response.data.value));
  }
}

=== FILE: sync_repository.dfy ===
/** `SyncRepositoryImpl`: full and delta synchronisation as flows of
    `SyncState`, guarded by the repository's `isSyncing` flag. A run of a
    flow is a function from the repository's state (the flag and the cache)
    to the states emitted and the state after; clock readings, the delta
    endpoint's answer and a failure of the table wipe are inputs. */
module SyncRepository {
  import opened Wrappers
  import opened Domain
  import opened Dto
  import opened Database
  import opened SummaryMapper

  const LastSyncKey := "last_sync"
  const LastFullSyncKey := "last_full_sync"
  const InProgressMessage := "Sync already in progress"
  const FullSyncFailedMessage := "Full sync failed"
  const DeltaSyncFailedMessage := "Delta sync failed"

  /** The repository: the `isSyncing` flag and the cache it writes. */
  datatype SyncRepo = SyncRepo(isSyncing: bool, db: Db)

  /** One run of a sync flow: the states it emitted, the delta request's
      `since` argument if one was sent, and the repository afterwards. */
  datatype SyncRun = SyncRun(emitted: seq<SyncState>, since: Option<string>, after: SyncRepo)

  /** The progress states of a full sync that gets through the wipe. */
  const FullSyncSteps := [
    Syncing(Full, 0, "Starting full sync"),
    Syncing(Full, 50, "Database cleared"),
    Syncing(Full, 80, "Syncing data")]

  /** `performFullSync()`: refused while another sync runs; otherwise the
      summary table is wiped, both sync stamps are set to the same clock
      reading, and success is reported with no items. `clearFault` is the
      exception the wipe raised, if it did; `storedAt` and `reportedAt` are
      the two clock readings. */
  function PerformFullSync(repo: SyncRepo, clearFault: Option<Throwable>, storedAt: Instant, reportedAt: Instant)
    : (r: SyncRun)
    ensures repo.isSyncing ==> r == SyncRun([SyncError(Full, InProgressMessage, false)], None, repo)
    ensures !repo.isSyncing ==> !r.after.isSyncing && r.since.None? && 2 <= |r.emitted|
    ensures !repo.isSyncing ==> r.emitted[0] == FullSyncSteps[0] && r.after.db.requests == repo.db.requests
    ensures !repo.isSyncing && clearFault.Some? ==>
              r.emitted == [FullSyncSteps[0], SyncError(Full, clearFault.value.message.GetOr(FullSyncFailedMessage), true)]
              && r.after.db == repo.db
    ensures !repo.isSyncing && clearFault.None? ==>
              r.emitted == FullSyncSteps + [SyncSuccess(Full, reportedAt, 0)]
              && r.after.db.summaries == map[]
              && GetSyncMetadata(r.after.db, LastSyncKey) == Some(InstantText(storedAt))
              && GetSyncMetadata(r.after.db, LastFullSyncKey) == Some(InstantText(storedAt))
              && forall k :: k != LastSyncKey && k != LastFullSyncKey ==>
                   GetSyncMetadata(r.after.db, k) == GetSyncMetadata(repo.db, k)
  {
    if repo.isSyncing then SyncRun([SyncError(Full, InProgressMessage, false)], None, repo)
    else
      match clearFault
      case Some(e) =>
        SyncRun([FullSyncSteps[0], SyncError(Full, e.message.GetOr(FullSyncFailedMessage), true)], None,
                 SyncRepo(false, repo.db))
      case None =>
        var stamp := InstantText(storedAt);
        var db := SetSyncMetadata(SetSyncMetadata(ClearAllSummaries(repo.db), LastFullSyncKey, stamp), LastSyncKey, stamp);
        SyncRun(FullSyncSteps + [SyncSuccess(Full, reportedAt, 0)], None, SyncRepo(false, db))
  }

  /** A change the delta applies: an insert or update that carries data. */
  predicate Applies(c: SyncChangeDto) {
    (c.action == "insert" || c.action == "update") && c.data.Some?
  }

  /** The summaries the first `n` changes write, in order. */
  function AppliedPrefix(cs: seq<SyncChangeDto>, n: nat): seq<Summary>
    requires n <= |cs|
  {
    if n == 0 then []
    else AppliedPrefix(cs, n - 1) + (if Applies(cs[n - 1]) then [DetailToSummary(cs[n - 1].data.value)] else [])
  }

  /** The summaries a delta writes: one per applying change, in order. */
  function AppliedSummaries(cs: seq<SyncChangeDto>): seq<Summary> {
    AppliedPrefix(cs, |cs|)
  }

  /** Only applying changes contribute, each exactly once. */
  lemma {:induction false} AppliedPrefixCounts(cs: seq<SyncChangeDto>, n: nat)
    requires n <= |cs|
    ensures |AppliedPrefix(cs, n)| <= n
    ensures (forall j :: 0 <= j < n ==> Applies(cs[j])) ==> |AppliedPrefix(cs, n)| == n
    ensures (forall j :: 0 <= j < n ==> !Applies(cs[j])) ==> AppliedPrefix(cs, n) == []
  {
    if n > 0 {
      AppliedPrefixCounts(cs, n - 1);
    }
  }

  /** Inserting one more summary after a list is inserting the longer list. */
  lemma {:induction false} InsertSummariesSnoc(db: Db, ss: seq<Summary>, s: Summary)
    ensures InsertSummaries(db, ss + [s]) == InsertSummary(InsertSummaries(db, ss), s)
    decreases |ss|
  {
    if ss == [] {
      assert [s][1..] == [];
    } else {
      assert (ss + [s])[1..] == ss[1..] + [s];
      InsertSummariesSnoc(InsertSummary(db, ss[0]), ss[1..], s);
    }
  }

  /** One more change extends the applied summaries by its own, if any. */
  lemma AppliedPrefixStep(cs: seq<SyncChangeDto>, n: nat)
    requires n < |cs|
    ensures Applies(cs[n]) ==> AppliedPrefix(cs, n + 1) == AppliedPrefix(cs, n) + [DetailToSummary(cs[n].data.value)]
    ensures !Applies(cs[n]) ==> AppliedPrefix(cs, n + 1) == AppliedPrefix(cs, n)
  {
  }

  /** The `delta.summaries.forEach` loop: each insert or update that
      carries data is upserted and counted; other changes are skipped. */
  method ApplyChanges(db: Db, changes: seq<SyncChangeDto>) returns (dbAfter: Db, itemsChanged: nat)
    ensures dbAfter == InsertSummaries(db, AppliedSummaries(changes))
    ensures itemsChanged == |AppliedSummaries(changes)|
  {
    dbAfter := db;
    itemsChanged := 0;
    var i := 0;
    while i < |changes|
      invariant 0 <= i <= |changes|
      invariant dbAfter == InsertSummaries(db, AppliedPrefix(changes, i))
      invariant itemsChanged == |AppliedPrefix(changes, i)|
    {
      AppliedPrefixStep(changes, i);
      if Applies(changes[i]) {
        var s := DetailToSummary(changes[i].data.value);
        InsertSummariesSnoc(db, AppliedPrefix(changes, i), s);
        dbAfter := InsertSummary(dbAfter, s);
        itemsChanged := itemsChanged + 1;
      }
      i := i + 1;
    }
  }

  /** The progress states of a delta sync up to the request. */
  const DeltaSyncSteps := [
    Syncing(Delta, 0, "Checking for updates"),
    Syncing(Delta, 30, "Fetching changes")]

  const ApplyingStep := Syncing(Delta, 60, "Applying changes")

  /** `performDeltaSync()`: refused while another sync runs; with no
      `last_sync` stamp it runs a full sync instead; otherwise it asks for
      the changes since that stamp, upserts the inserted and updated
      summaries, counts them with the deleted ids (which it does not
      delete), and stores the server's sync timestamp. */
  function PerformDeltaSync(
    repo: SyncRepo, call: ApiCall<SyncDeltaResponseDto>,
    clearFault: Option<Throwable>, storedAt: Instant, reportedAt: Instant): (r: SyncRun)
    ensures repo.isSyncing ==> r == SyncRun([SyncError(Delta, InProgressMessage, false)], None, repo)
    ensures !repo.isSyncing ==> !r.after.isSyncing && 2 <= |r.emitted| && r.emitted[0] == DeltaSyncSteps[0]
    ensures !repo.isSyncing ==> r.since == GetSyncMetadata(repo.db, LastSyncKey)
    ensures !repo.isSyncing && r.since.None? ==>
              var full := PerformFullSync(repo, clearFault, storedAt, reportedAt);
              r.emitted == [DeltaSyncSteps[0]] + full.emitted && r.after == full.after
    ensures !repo.isSyncing && r.since.Some? && call.Threw? ==>
              r.emitted == DeltaSyncSteps + [SyncError(Delta, call.exception.message.GetOr(DeltaSyncFailedMessage), true)]
              && r.after.db == repo.db
    ensures !repo.isSyncing && r.since.Some? && call.Answered? && !Usable(call.response) ==>
              r.emitted == DeltaSyncSteps + [SyncError(Delta, call.response.errorMessage.GetOr(DeltaSyncFailedMessage), true)]
              && r.after.db == repo.db
    ensures !repo.isSyncing && r.since.Some? && call.Answered? && Usable(call.response) ==>
              var delta := call.response.data.value;
              r.emitted == DeltaSyncSteps + [ApplyingStep, SyncSuccess(Delta, reportedAt, DeltaCount(delta))]
              && r.after.db == DeltaApplied(repo.db, delta)
  {
    if repo.isSyncing then SyncRun([SyncError(Delta, InProgressMessage, false)], None, repo)
    else
      match GetSyncMetadata(repo.db, LastSyncKey)
      case None =>
        var full := PerformFullSync(repo, clearFault, storedAt, reportedAt);
        SyncRun([DeltaSyncSteps[0]] + full.emitted, None, full.after)
      case Some(lastSync) => DeltaSince(repo, call, lastSync, reportedAt)
  }

  /** The cache after a delta: its summaries upserted and the server's
      sync timestamp stored. */
  function DeltaApplied(db: Db, delta: SyncDeltaResponseDto): Db {
    SetSyncMetadata(InsertSummaries(db, AppliedSummaries(delta.summaries)), LastSyncKey, delta.syncTimestamp)
  }

  /** The count a delta reports: the summaries it wrote and the ids it
      was told were deleted. */
  function DeltaCount(delta: SyncDeltaResponseDto): nat {
    |AppliedSummaries(delta.summaries)| + |delta.deletedIds|
  }

  /** The delta run once the stamp is found: the request's outcome decides
      between an error that leaves the cache alone and the applied
      changes. */
  function DeltaSince(repo: SyncRepo, call: ApiCall<SyncDeltaResponseDto>, lastSync: string, reportedAt: Instant): (r: SyncRun)
    ensures !r.after.isSyncing && r.since == Some(lastSync) && |r.emitted| >= 3 && r.emitted[..2] == DeltaSyncSteps
    ensures call.Threw? ==>
              r.emitted == DeltaSyncSteps + [SyncError(Delta, call.exception.message.GetOr(DeltaSyncFailedMessage), true)]
              && r.after.db == repo.db
    ensures call.Answered? && !Usable(call.response) ==>
              r.emitted == DeltaSyncSteps + [SyncError(Delta, call.response.errorMessage.GetOr(DeltaSyncFailedMessage), true)]
              && r.after.db == repo.db
    ensures call.Answered? && Usable(call.response) ==>
              var delta := call.response.data.value;
              r.emitted == DeltaSyncSteps + [ApplyingStep, SyncSuccess(Delta, reportedAt, DeltaCount(delta))]
              && r.after.db == DeltaApplied(repo.db, delta)
  {
    var stopped := SyncRepo(false, repo.db);
    if call.Threw? then
      SyncRun(DeltaSyncSteps + [SyncError(Delta, call.exception.message.GetOr(DeltaSyncFailedMessage), true)],
              Some(lastSync), stopped)
    else if !Usable(call.response) then
      SyncRun(DeltaSyncSteps + [SyncError(Delta, call.response.errorMessage.GetOr(DeltaSyncFailedMessage), true)],
              Some(lastSync), stopped)
    else
      var delta := call.response.data.value;
      SyncRun(DeltaSyncSteps + [ApplyingStep, SyncSuccess(Delta, reportedAt, DeltaCount(delta))],
              Some(lastSync), SyncRepo(false, DeltaApplied(repo.db, delta)))
  }

  /** The last state a run emits is its verdict: a success exactly when the
      run got past the guard and its one fallible step, an error otherwise;
      an error leaves the cache as it was. */
  lemma SyncEndsWithVerdict(
    repo: SyncRepo, call: ApiCall<SyncDeltaResponseDto>,
    clearFault: Option<Throwable>, storedAt: Instant, reportedAt: Instant)
    ensures var full := PerformFullSync(repo, clearFault, storedAt, reportedAt);
            var last := full.emitted[|full.emitted| - 1];
            (last.SyncSuccess? || last.SyncError?)
            && (last.SyncSuccess? <==> !repo.isSyncing && clearFault.None?)
            && (last.SyncError? ==> full.after.db == repo.db)
    ensures var delta := PerformDeltaSync(repo, call, clearFault, storedAt, reportedAt);
            var last := delta.emitted[|delta.emitted| - 1];
            (last.SyncSuccess? || last.SyncError?)
            && (last.SyncSuccess? <==>
                  (!repo.isSyncing && if LastSyncKey in repo.db.metadata then call.Answered? && Usable(call.response) else clearFault.None?))
            && (last.SyncError? ==> delta.after.db == repo.db)
  {
  }

  /** A successful delta stores the server's timestamp, so the next delta
      asks for the changes since it. */
  lemma NextDeltaAsksSinceServerTimestamp(
    repo: SyncRepo, call: ApiCall<SyncDeltaResponseDto>, next: ApiCall<SyncDeltaResponseDto>,
    clearFault: Option<Throwable>, storedAt: Instant, reportedAt: Instant)
    requires !repo.isSyncing && LastSyncKey in repo.db.metadata
    requires call.Answered? && Usable(call.response)
    ensures var first := PerformDeltaSync(repo, call, clearFault, storedAt, reportedAt);
            PerformDeltaSync(first.after, next, clearFault, storedAt, reportedAt).since
            == Some(call.response.data.value.syncTimestamp)
  {
  }

  /** After a full sync a delta sync no longer falls back: it asks for the
      changes since the stamp the full sync stored. */
  lemma DeltaAfterFullSyncAsksSinceStamp(
    repo: SyncRepo, call: ApiCall<SyncDeltaResponseDto>, storedAt: Instant, reportedAt: Instant,
    later: Instant, laterReported: Instant)
    requires !repo.isSyncing
    ensures var full := PerformFullSync(repo, None, storedAt, reportedAt);
            PerformDeltaSync(full.after, call, None, later, laterReported).since == Some(InstantText(storedAt))
  {
  }

  /** `uploadLocalChanges()`: nothing is collected yet; it reports success
      with no items. */
  function UploadLocalChanges(reportedAt: Instant): (r: seq<SyncState>)
    ensures |r| == 2 && r[0].Syncing? && r[0].syncType == Upload && r[0].progress == 0
    ensures r[1] == SyncSuccess(Upload, reportedAt, 0)
  {
    [Syncing(Upload, 0, "Collecting changes"), SyncSuccess(Upload, reportedAt, 0)]
  }

  /** `cancelSync()`: the flag is lowered; the cache is untouched. */
  function CancelSync(repo: SyncRepo): (r: SyncRepo)
    ensures !r.isSyncing && r.db == repo.db
  {
    repo.(isSyncing := false)
  }

  /** `Duration.inWholeMinutes` of a span in milliseconds: truncated toward zero. */
  function WholeMinutes(ms: int): (r: int)
    ensures ms >= 0 ==> 0 <= r && r * 60000 <= ms < (r + 1) * 60000
    ensures ms < 0 ==> r <= 0 && -ms < (1 - r) * 60000
    ensures ms < 0 ==> (-r) * 60000 <= -ms
  {
    if ms >= 0 then ms / 60000 else -((-ms) / 60000)
  }

  /** The exception `Instant.parse` throws on text that is not an instant. */
  const UnparsableInstant := Throwable("DateTimeFormatException", None)

  /** `isSyncNeeded()`: with no `last_sync` stamp, yes; otherwise the stamp is
      parsed (`parse` stands for `Instant.parse`, whose exception escapes)
      and a sync is needed when more than five whole minutes have passed. */
  function IsSyncNeeded(db: Db, parse: string -> Option<Instant>, now: Instant): (r: Outcome<bool>)
    ensures GetSyncMetadata(db, LastSyncKey).None? ==> r == Returned(true)
    ensures GetSyncMetadata(db, LastSyncKey).Some? && parse(db.metadata[LastSyncKey]).None? ==>
              r == Raised(UnparsableInstant)
    ensures GetSyncMetadata(db, LastSyncKey).Some? && parse(db.metadata[LastSyncKey]).Some? ==>
              r == Returned(now - parse(db.metadata[LastSyncKey]).value >= 6 * 60000)
  {
    match GetSyncMetadata(db, LastSyncKey)
    case None => Returned(true)
    case Some(lastSync) =>
      match parse(lastSync)
      case None => Raised(UnparsableInstant)
      case Some(last) => Returned(WholeMinutes(now - last) > 5)
  }

  /** Right after a full sync stamped at `storedAt`, no sync is needed for
      six minutes, provided the stamp parses back to its instant. */
  lemma FullSyncDefersNextSync(repo: SyncRepo, storedAt: Instant, reportedAt: Instant, parse: string -> Option<Instant>, now: Instant)
    requires !repo.isSyncing
    requires parse(InstantText(storedAt)) == Some(storedAt)
    ensures IsSyncNeeded(PerformFullSync(repo, None, storedAt, reportedAt).after.db, parse, now)
            == Returned(now - storedAt >= 360000)
  {
  }
}

=== FILE: text.dfy ===
/** The string primitives the app's logic is written with: Kotlin's
    `isWhitespace`, `isBlank`, `trim`, `startsWith`, `lowercase`,
    `contains(…, ignoreCase = true)`, `joinToString` and decimal rendering. */
module Text {

  /** Kotlin's `Char.isWhitespace()`: the ASCII controls TAB..CR, the
      information separators 0x1C..0x1F, SPACE, and the Unicode space,
      line and paragraph separators (non-breaking ones included). */
  predicate IsWhitespace(c: char) {
    || ('\t' <= c <= '\r')
    || ('\U{1C}' <= c <= ' ')
    || c == '\U{A0}'
    || c == '\U{1680}'
    || ('\U{2000}' <= c <= '\U{200A}')
    || c == '\U{2028}'
    || c == '\U{2029}'
    || c == '\U{202F}'
    || c == '\U{205F}'
    || c == '\U{3000}'
  }

  /** The regular-expression class `\s` (ASCII only, as in java.util.regex). */
  predicate IsRegexSpace(c: char) {
    ('\t' <= c <= '\r') || c == ' '
  }

  lemma RegexSpaceIsWhitespace(c: char)
    ensures IsRegexSpace(c) ==> IsWhitespace(c)
  {
  }

  /** `String.isBlank()`: empty or made only of whitespace. */
  predicate IsBlank(s: string) {
    forall i :: 0 <= i < |s| ==> IsWhitespace(s[i])
  }

  /** `String.startsWith(prefix)`. */
  predicate StartsWith(s: string, prefix: string) {
    |prefix| <= |s| && s[..|prefix|] == prefix
  }

  /** `needle` occurs in `s` starting at index `i`. */
  predicate OccursAt(s: string, needle: string, i: int) {
    0 <= i && i + |needle| <= |s| && s[i..i + |needle|] == needle
  }

  /** `String.contains(needle)`. */
  predicate Contains(s: string, needle: string) {
    exists i :: 0 <= i <= |s| - |needle| && OccursAt(s, needle, i)
  }

  /** Lower-casing of one character as far as it can make a character equal
      to an ASCII one: `A`..`Z` and the Kelvin sign, which Kotlin lower-cases
      to `k`. Every other character is left alone; no other character
      lower-cases to an ASCII letter, so comparisons against ASCII words are
      decided exactly as Kotlin decides them. */
  function LowerChar(c: char): (r: char)
    ensures 'a' <= r <= 'z' ==> 'a' <= c <= 'z' || 'A' <= c <= 'Z' || c == '\U{212A}'
    ensures !('A' <= c <= 'Z') && c != '\U{212A}' ==> r == c
  {
    if 'A' <= c <= 'Z' then (c as int + 32) as char
    else if c == '\U{212A}' then 'k'
    else c
  }

  /** `String.lowercase()`, character by character (see `LowerChar`). */
  function Lower(s: string): (r: string)
    ensures |r| == |s|
    ensures forall i :: 0 <= i < |s| ==> r[i] == LowerChar(s[i])
  {
    seq(|s|, i requires 0 <= i < |s| => LowerChar(s[i]))
  }

  /** Lower-casing is idempotent. */
  lemma LowerIdempotent(s: string)
    ensures Lower(Lower(s)) == Lower(s)
  {
  }

  /** `s.contains(needle, ignoreCase = true)` for a needle that is already lower case. */
  predicate ContainsIgnoreCase(s: string, needle: string) {
    Contains(Lower(s), Lower(needle))
  }

  /** `String.trimStart()` with Kotlin's whitespace. */
  function TrimStart(s: string): (r: string)
    ensures |r| <= |s| && r == s[|s| - |r|..]
    ensures r == [] || !IsWhitespace(r[0])
    ensures forall i :: 0 <= i < |s| - |r| ==> IsWhitespace(s[i])
  {
    if |s| > 0 && IsWhitespace(s[0]) then TrimStart(s[1..]) else s
  }

  /** `String.trimEnd()` with Kotlin's whitespace. */
  function TrimEnd(s: string): (r: string)
    ensures |r| <= |s| && r == s[..|r|]
    ensures r == [] || !IsWhitespace(r[|r| - 1])
    ensures forall i :: |r| <= i < |s| ==> IsWhitespace(s[i])
  {
    if |s| > 0 && IsWhitespace(s[|s| - 1]) then TrimEnd(s[..|s| - 1]) else s
  }

  /** `String.trim()`: the longest infix with no whitespace at either end. */
  function Trim(s: string): (r: string)
    ensures r == [] || (!IsWhitespace(r[0]) && !IsWhitespace(r[|r| - 1]))
    ensures exists k :: OccursAt(s, r, k)
  {
    var t := TrimStart(s);
    var r := TrimEnd(t);
    assert OccursAt(s, r, |s| - |t|);
    r
  }

  /** `joinToString(separator)`. */
  function Join(xs: seq<string>, separator: string): string {
    if |xs| == 0 then ""
    else if |xs| == 1 then xs[0]
    else xs[0] + separator + Join(xs[1..], separator)
  }

  function DigitChar(d: nat): char
    requires d < 10
  {
    "0123456789"[d]
  }

  /** Decimal rendering of a natural number, as string templates render it. */
  function NatToString(n: nat): (r: string)
    ensures |r| >= 1
    ensures forall i :: 0 <= i < |r| ==> '0' <= r[i] <= '9'
  {
    if n < 10 then [DigitChar(n)] else NatToString(n / 10) + [DigitChar(n % 10)]
  }

  /** Decimal rendering of an integer (`"$n"` / `n.toString()`). */
  function IntToString(n: int): string {
    if n < 0 then "-" + NatToString(-n) else NatToString(n)
  }
}

=== FILE: url_extraction.dfy ===
/** `MainActivity.extractUrl`: the URL in text shared to the app. A text
    that starts with a scheme (once trimmed) yields its first token; any
    other text yields the leftmost match of `https?://[^\s]+`, or nothing. */
module UrlExtraction {
  import opened Wrappers
  import opened Text
  import UseCases
  import SubmitUrlViewModel

  /** The end of the run of non-`\s` characters that starts at `i`. */
  function RunEnd(s: string, i: nat): (r: nat)
    requires i <= |s|
    ensures i <= r <= |s|
    ensures forall k :: i <= k < r ==> !IsRegexSpace(s[k])
    ensures r < |s| ==> IsRegexSpace(s[r])
    decreases |s| - i
  {
    if i == |s| || IsRegexSpace(s[i]) then i else RunEnd(s, i + 1)
  }

  /** `https?://[^\s]+` matches at `i`: the longer scheme is tried first,
      and either must be followed by at least one non-`\s` character. */
  predicate MatchesAt(s: string, i: nat) {
    || (OccursAt(s, "https://", i) && i + 8 < |s| && !IsRegexSpace(s[i + 8]))
    || (OccursAt(s, "http://", i) && i + 7 < |s| && !IsRegexSpace(s[i + 7]))
  }

  /** The leftmost position at or after `from` where the pattern matches. */
  function FirstMatch(s: string, from: nat): (r: Option<nat>)
    requires from <= |s|
    ensures r.Some? ==> from <= r.value < |s| && MatchesAt(s, r.value)
    ensures forall j :: from <= j < (if r.Some? then r.value else |s|) ==> !MatchesAt(s, j)
    decreases |s| - from
  {
    if from == |s| then None
    else if MatchesAt(s, from) then Some(from)
    else FirstMatch(s, from + 1)
  }

  /** A match's token starts with its scheme. */
  lemma MatchKeepsScheme(s: string, i: nat)
    requires i < |s| && MatchesAt(s, i)
    ensures UseCases.IsValidUrl(s[i..RunEnd(s, i)])
  {
    var e := RunEnd(s, i);
    if OccursAt(s, "https://", i) && i + 8 < |s| && !IsRegexSpace(s[i + 8]) {
      assert e > i + 8 && s[i..e][..8] == s[i..i + 8];
    } else {
      assert e > i + 7 && s[i..e][..7] == s[i..i + 7];
    }
  }

  /** The text a match at `i` covers: `[^\s]+` is greedy, and the scheme
      itself holds no `\s`, so it runs to the end of the token. */
  function MatchText(s: string, i: nat): (r: string)
    requires i < |s| && MatchesAt(s, i)
    ensures UseCases.IsValidUrl(r)
    ensures forall k :: 0 <= k < |r| ==> !IsRegexSpace(r[k])
    ensures OccursAt(s, r, i) && (i + |r| == |s| || IsRegexSpace(s[i + |r|]))
  {
    MatchKeepsScheme(s, i);
    s[i..RunEnd(s, i)]
  }

  /** A text's first token keeps the scheme the text starts with. */
  lemma TokenKeepsScheme(t: string)
    requires UseCases.IsValidUrl(t)
    ensures UseCases.IsValidUrl(t[..RunEnd(t, 0)])
  {
    var e := RunEnd(t, 0);
    if StartsWith(t, "https://") {
      assert e >= 8 && t[..e][..8] == t[..8];
    } else {
      assert e >= 7 && t[..e][..7] == t[..7];
    }
  }

  /** The first token of a text that starts with a scheme: `split` on
      `\s` always yields at least one token. */
  function LeadingToken(t: string): (r: string)
    requires UseCases.IsValidUrl(t)
    ensures UseCases.IsValidUrl(r)
    ensures forall k :: 0 <= k < |r| ==> !IsRegexSpace(r[k])
    ensures StartsWith(t, r) && (|r| == |t| || IsRegexSpace(t[|r|]))
  {
    TokenKeepsScheme(t);
    t[..RunEnd(t, 0)]
  }

  /** `extractUrl(text)`. The result, if any, is an http(s) URL with no
      `\s` in it. */
  function ExtractUrl(text: string): (r: Option<string>)
    ensures var t := Trim(text);
            UseCases.IsValidUrl(t) ==> r == Some(LeadingToken(t))
    ensures var t := Trim(text);
            !UseCases.IsValidUrl(t) ==>
              (r.None? <==> forall j :: 0 <= j < |t| ==> !MatchesAt(t, j))
              && (r.Some? ==> exists i :: 0 <= i < |t| && MatchesAt(t, i) && r.value == MatchText(t, i)
                                          && forall j :: 0 <= j < i ==> !MatchesAt(t, j))
    ensures r.Some? ==> UseCases.IsValidUrl(r.value) && forall k :: 0 <= k < |r.value| ==> !IsRegexSpace(r.value[k])
  {
    var t := Trim(text);
    if UseCases.IsValidUrl(t) then Some(LeadingToken(t))
    else match FirstMatch(t, 0)
      case None => None
      case Some(i) => Some(MatchText(t, i))
  }

  /** A scheme-free text has scheme-free infixes. */
  lemma SchemeFreeInfix(text: string, t: string, k: int)
    requires OccursAt(text, t, k)
    requires forall j :: 0 <= j < |text| ==> !OccursAt(text, "http://", j) && !OccursAt(text, "https://", j)
    ensures forall j :: 0 <= j < |t| ==> !OccursAt(t, "http://", j) && !OccursAt(t, "https://", j)
  {
    assert forall m :: 0 <= m < |t| ==> t[m] == text[k + m];
    forall j | 0 <= j < |t|
      ensures OccursAt(t, "http://", j) ==> OccursAt(text, "http://", k + j)
      ensures OccursAt(t, "https://", j) ==> OccursAt(text, "https://", k + j)
    {
      if j + 7 <= |t| {
        assert text[k + j..k + j + 7] == t[j..j + 7];
      }
      if j + 8 <= |t| {
        assert text[k + j..k + j + 8] == t[j..j + 8];
      }
    }
  }

  /** A text with no `http://` or `https://` anywhere yields nothing. */
  lemma NoSchemeNoUrl(text: string)
    requires forall j :: 0 <= j < |text| ==> !OccursAt(text, "http://", j) && !OccursAt(text, "https://", j)
    ensures ExtractUrl(text).None?
  {
    var t := Trim(text);
    var k :| OccursAt(text, t, k);
    SchemeFreeInfix(text, t, k);
    if StartsWith(t, "http://") {
      assert OccursAt(t, "http://", 0);
    } else if StartsWith(t, "https://") {
      assert OccursAt(t, "https://", 0);
    }
  }

  /** A text that is just a URL, with no whitespace in or around it,
      yields that URL unchanged. */
  lemma WholeUrlIsKept(url: string)
    requires UseCases.IsValidUrl(url)
    requires forall k :: 0 <= k < |url| ==> !IsWhitespace(url[k])
    ensures ExtractUrl(url) == Some(url)
  {
    assert Trim(url) == url by {
      assert TrimStart(url) == url;
      assert TrimEnd(url) == url;
    }
    forall k | 0 <= k < |url|
      ensures !IsRegexSpace(url[k])
    {
      RegexSpaceIsWhitespace(url[k]);
    }
    assert RunEnd(url, 0) == |url|;
  }

  /** A URL taken from shared text and put in the submit screen is
      submitted: the screen's checks never reject it. */
  lemma SharedUrlIsSubmitted(text: string)
    requires ExtractUrl(text).Some?
    ensures var url := ExtractUrl(text).value;
            SubmitUrlViewModel.Submit(SubmitUrlViewModel.SetUrl(SubmitUrlViewModel.Initial, url)).launched == Some(url)
  {
    var url := ExtractUrl(text).value;
    SubmitUrlViewModel.ValidUrlIsNotBlank(url);
  }
}

=== FILE: use_cases.dfy ===
/** The use cases with logic of their own: `SubmitURLUseCase` validates the
    URL before delegating, `SearchSummariesUseCase` short-circuits blank
    queries, `SyncDataUseCase` picks the full or the delta sync. Each is a decision (answer at once, or delegate with these
    arguments) and a run that carries the decision out. */
module UseCases {
  import opened Wrappers
  import opened Text
  import opened Domain
  import opened Dto
  import opened Database
  import RequestRepository
  import SearchRepository
  import opened SyncRepository

  /** `isValidURL`: an http or https scheme, case-sensitively. */
  predicate IsValidUrl(url: string) {
    StartsWith(url, "http://") || StartsWith(url, "https://")
  }

  const InvalidUrl := Throwable("IllegalArgumentException", Some("Invalid URL"))

  datatype SubmitDecision = RejectUrl(error: Throwable) | SubmitToRepository(url: string, langPreference: string)

  /** `SubmitURLUseCase.invoke(url, langPreference)`: reject a URL without an
      http(s) scheme, else hand both arguments to the repository unchanged.
      The default preference is `RequestMapper.DefaultLangPreference`. */
  function DecideSubmit(url: string, langPreference: string): (r: SubmitDecision)
    ensures r.RejectUrl? <==> !IsValidUrl(url)
    ensures r.RejectUrl? ==> r.error == InvalidUrl
    ensures r.SubmitToRepository? ==> r.url == url && r.langPreference == langPreference
  {
    if !IsValidUrl(url) then RejectUrl(InvalidUrl) else SubmitToRepository(url, langPreference)
  }

  /** The use case run against the request repository: what it returns,
      the request body it sent (if any) and the cache afterwards. */
  function SubmitUrl(db: Db, url: string, langPreference: string, call: ApiCall<RequestResponseDto>)
    : (r: (Result<Request>, Option<SubmitUrlRequestDto>, Db))
    ensures !IsValidUrl(url) ==> r == (Failure(InvalidUrl), None, db)
    ensures IsValidUrl(url) ==>
              var (result, sent, after) := RequestRepository.SubmitUrl(db, url, langPreference, call);
              r == (result, Some(sent), after)
  {
    match DecideSubmit(url, langPreference)
    case RejectUrl(e) => (Failure(e), None, db)
    case SubmitToRepository(u, lang) =>
      var (result, sent, after) := RequestRepository.SubmitUrl(db, u, lang, call);
      (result, Some(sent), after)
  }

  /** A submission that succeeds was for a URL with an http(s) scheme, and
      the request it returns and caches carries that URL. */
  lemma AcceptedSubmissionKeepsUrl(db: Db, url: string, langPreference: string, call: ApiCall<RequestResponseDto>)
    requires SubmitUrl(db, url, langPreference, call).0.Success?
    ensures IsValidUrl(url)
    ensures var (result, sent, after) := SubmitUrl(db, url, langPreference, call);
            result.value.inputUrl == url && sent == Some(SubmitUrlRequestDto("url", url, langPreference))
            && result.value.id in after.requests && after.requests[result.value.id].inputUrl == url
  {
    RequestRepository.SubmittedUrlIsCached(db, url, langPreference, call);
  }

  /** The defaults of `SearchSummariesUseCase.invoke`. */
  const DefaultSearchLimit := 20
  const DefaultSearchOffset := 0

  datatype SearchDecision = NoResults | SearchWith(query: string, limit: int, offset: int)

  /** `SearchSummariesUseCase.invoke(query, limit, offset)`: a blank query
      answers with no results without searching; any other query is handed
      to the repository with the same arguments. */
  function DecideSearch(query: string, limit: int, offset: int): (r: SearchDecision)
    ensures r.NoResults? <==> IsBlank(query)
    ensures r.SearchWith? ==> r.query == query && r.limit == limit && r.offset == offset
  {
    if IsBlank(query) then NoResults else SearchWith(query, limit, offset)
  }

  /** The use case run against the search repository; `localRows` are the
      local full-text matches for the query and `call` the server's answer. */
  function Search(query: string, limit: int, offset: int, localRows: seq<SummaryRow>,
                  call: ApiCall<SearchResponseDto>, now: Instant): (r: Result<seq<Summary>>)
    ensures IsBlank(query) ==> r == Success([])
    ensures !IsBlank(query) ==> r == SearchRepository.Search(localRows, limit, call, now)
  {
    match DecideSearch(query, limit, offset)
    case NoResults => Success([])
    case SearchWith(_, l, _) => SearchRepository.Search(localRows, l, call, now)
  }

  /** A query of spaces, tabs or line breaks finds nothing, whatever the
      database and the server hold. */
  lemma WhitespaceQueryFindsNothing(query: string, localRows: seq<SummaryRow>,
                                    call: ApiCall<SearchResponseDto>, now: Instant)
    requires forall i :: 0 <= i < |query| ==> query[i] in {' ', '\t', '\n', '\r'}
    ensures Search(query, DefaultSearchLimit, DefaultSearchOffset, localRows, call, now) == Success([])
  {
  }

  /** `SyncDataUseCase(forceFullSync)`: a forced sync is the full sync and
      never sends a delta request; otherwise it is the delta sync, which
      asks for the changes since the stored `last_sync` stamp. */
  function SyncData(repo: SyncRepo, forceFullSync: bool, call: ApiCall<SyncDeltaResponseDto>,
                    clearFault: Option<Throwable>, storedAt: Instant, reportedAt: Instant): (r: SyncRun)
    ensures forceFullSync ==> r.since.None?
    ensures forceFullSync && !repo.isSyncing && clearFault.None? ==>
              r.after.db.summaries == map[] && |r.emitted| == 4 && r.emitted[0] == FullSyncSteps[0]
    ensures !forceFullSync && !repo.isSyncing ==>
              r.since == GetSyncMetadata(repo.db, LastSyncKey) && |r.emitted| >= 2 && r.emitted[0] == DeltaSyncSteps[0]
    ensures repo.isSyncing ==> r.after == repo && |r.emitted| == 1 && r.emitted[0].SyncError?
  {
    if forceFullSync then PerformFullSync(repo, clearFault, storedAt, reportedAt)
    else PerformDeltaSync(repo, call, clearFault, storedAt, reportedAt)
  }

  /** Without a stored `last_sync` stamp the choice does not matter: both
      runs leave the repository in the same state, and the unforced one only
      adds its first progress step in front. */
  lemma SyncChoiceWithoutStamp(repo: SyncRepo, call: ApiCall<SyncDeltaResponseDto>,
                               clearFault: Option<Throwable>, storedAt: Instant, reportedAt: Instant)
    requires !repo.isSyncing && GetSyncMetadata(repo.db, LastSyncKey).None?
    ensures var full := SyncData(repo, true, call, clearFault, storedAt, reportedAt);
            var delta := SyncData(repo, false, call, clearFault, storedAt, reportedAt);
            delta.after == full.after && delta.emitted == [DeltaSyncSteps[0]] + full.emitted
  {
  }
}

=== FILE: wrappers.dfy ===
/** Kotlin's nullable values, exceptions and `Result`, and the envelope every
    endpoint of the backend answers with. */
module Wrappers {

  /** A nullable Kotlin value: `null` is `None`. */
  datatype Option<+T> = None | Some(value: T) {

    /** The value, or `default` when null (Kotlin's `?:`). */
    function GetOr(default: T): T {
      match this
      case Some(v) => v
      case None => default
    }
  }

  /** A thrown exception: its class and its nullable message. */
  datatype Throwable = Throwable(className: string, message: Option<string>)

  /** `kotlin.Result`: a value or the exception that was caught. */
  datatype Result<+T> = Success(value: T) | Failure(error: Throwable)

  /** What a block that may throw produced: it returned, or it raised. */
  datatype Outcome<+T> = Returned(value: T) | Raised(exception: Throwable)

  /** `ApiResponse<T>`: the JSON envelope; `errorMessage` is `error?.message`. */
  datatype ApiResponse<+T> = ApiResponse(success: bool, data: Option<T>, errorMessage: Option<string>)

  /** A call through the HTTP client: it answered with an envelope, or it threw. */
  datatype ApiCall<+T> = Answered(response: ApiResponse<T>) | Threw(exception: Throwable)

  /** `Exception(message)`: the plain exception the repositories wrap server errors in. */
  function PlainException(message: string): Throwable {
    Throwable("Exception", Some(message))
  }

  /** The repositories' `response.success && response.data != null` test. */
  predicate Usable<T>(response: ApiResponse<T>) {
    response.success && response.data.Some?
  }

  /** The failure a repository returns for an unusable envelope:
      the server's message, or `fallback` when there is none. */
  function ServerFailure<T, U>(response: ApiResponse<T>, fallback: string): Result<U> {
    Failure(PlainException(response.errorMessage.GetOr(fallback)))
  }
}
